=== FILE: README.md ===
# mt5gw feature pipeline in Dafny

This project models two parts of mt5gw:

- **`MT5Gateway.fetch`.** It reads OHLCV bars of one instrument from a
  MetaTrader 5 terminal. It then enriches the bar table stage by stage:
  - the gap column;
  - the fill of empty time ranges;
  - pivot levels and distances;
  - denoising;
  - price summaries;
  - rolling support and resistance;
  - calendar columns;
  - the four indicator libraries (TA-Lib, ta, the native module, pandas_ta);
  - moving-average percentages;
  - lookbacks;
  - the final `drop_na` and `drop_columns`.

  For a list of instruments, each is fetched with a fixed sub-configuration. The frames
  are renamed `<instrument>-<column>` and merged onto a common date range, then filled,
  dated and cleaned.
- **The native indicators of `mtds_ni`:**
  - `apply_smoothing`;
  - `supertrend`;
  - `twap`, `pov` and `rsl`;
  - the `ultra_wpr`/`ultra_rsi` counting ladder.

## How the model is built

**Cells.** A cell of a frame is `Val(x)`, `Missing` (NaN), `PosInf` or `NegInf`. The
module `Cells` writes out IEEE addition, division and comparison on them: NaN propagates,
`x/0` is an infinity and `0/0` is NaN. A rolling minimum or maximum reads an infinity
in its window as NaN, as pandas does.

**Frames.** A frame (`Frames.Table`) is a strictly increasing time index, an ordered
list of column names, a map from names to columns, and the set of non-numeric columns.
The pipeline's working frame is the class `Frames.Frame`. Each stage is a method that
updates it in place and ensures `rf.Contents() == Stage(old(rf.Contents()))`. The
properties are then proved about the stage functions.

**Outside code.** Code outside the repository enters the model as function-valued
parameters. This covers:
- the terminal's `copy_rates_*`;
- pandas' `period_range` and `date_range`;
- the calendar fields;
- the indicator libraries and TA-Lib's moving averages;
- the denoising back ends.

Their only assumptions are the ones pandas and the terminal guarantee:
- bars arrive in time order (`Pipeline.Sound`);
- TA-Lib's moving averages, on a period they accept, return one value per input, NaN in the warm-up rows (`Smoothing.Shaped`). This is an assumption about TA-Lib, not something the model proves.

**The in-place loops** are imperative methods with loop invariants:
- the SuperTrend band loop over arrays;
- the ultra counting loop, which adds into two arrays;
- the per-instrument fetch loop;
- the merge loop;
- each stage's `for` loops over fields, periods and windows.

## Model

| member | source | states |
|---|---|---|
| Timeframes.SupportedTimeframes | mt5gw/mt5gw.py:56-57 | the twenty names of the timeframe table, in its order |
| Timeframes.LookupIffSupported | mt5gw/mt5gw.py:63-64 | a name has a terminal code exactly when it is a supported timeframe, and the code is the table's |
| Timeframes.CodesOrdered | mt5gw/mt5gw.py:26-45 | the codes increase with the period: minutes below hours below days, weeks, months |
| Timeframes.DateColumnPaths | mt5gw/mt5gw.py:591-601 | the single- and multi-instrument paths agree on the minute column for every timeframe; they disagree on the hour column exactly for "1w" and "1m" |
| Timeframes.DateColumns | mt5gw/mt5gw.py:591-601 | day, month and weekday are always added; minute, hour and year exactly when chosen; nothing else |
| Frames.Assign | mt5gw/mt5gw.py:578 | `df[name] = col` overwrites an existing column in place or appends a new one; the frame stays well formed |
| Frames.AssignKeeps | mt5gw/mt5gw.py:578 | assignment adds no row, removes no column and leaves every other column as it was |
| Frames.DropColumns | mt5gw/mt5gw.py:662-663 | dropping removes exactly the named columns; the rest keep their cells, order and dtype |
| Frames.KeepRows | mt5gw/mt5gw.py:652 | keeping marked rows keeps them in order in every column alike; the frame stays well formed |
| Frames.SelectIncreasing | mt5gw/mt5gw.py:652 | a subsequence of an increasing index is increasing |
| Frames.Frame.Set | mt5gw/mt5gw.py:578 | the in-place assignment's new state is `Assign` of the old one |
| Frames.Frame.Drop | mt5gw/mt5gw.py:663 | the in-place drop's new state is `DropColumns` of the old one |
| Frames.Frame.KeepOnly | mt5gw/mt5gw.py:652 | the in-place row filter's new state is `KeepRows` of the old one |
| Frames.Frame.Load | mt5gw/mt5gw.py:549 | rebinding `rf` to a new frame replaces the whole state |
| Features.GapColumn | mt5gw/mt5gw.py:542-544 | the gap column has one cell per bar |
| Features.GapCloses | mt5gw/mt5gw.py:542-544 | the gap is never missing, and is 0 on the first bar or next to a missing price; elsewhere, previous close + gap = open |
| Features.FillNa | mt5gw/mt5gw.py:549 | `fillna(value=v)` replaces exactly the missing cells by v; everything present is kept |
| Features.IndexOf | mt5gw/mt5gw.py:548 | the position found holds the timestamp; no position means the index lacks it |
| Features.ReindexHit | mt5gw/mt5gw.py:548 | reindexing puts a bar's own cell on the grid row with its timestamp |
| Features.ReindexAll | mt5gw/mt5gw.py:548 | the reindexed frame has the grid as index, the same columns and dtypes, each column reindexed |
| Features.FFillAt | mt5gw/mt5gw.py:550 | forward fill: a present cell stays; a missing one copies the filled row above |
| Features.FFillFrom | mt5gw/mt5gw.py:550 | a forward-filled cell is missing exactly when no cell at or above it is present; otherwise it is the nearest present one above |
| Features.FFillAll | mt5gw/mt5gw.py:550 | every column is forward-filled; index, names and dtypes are kept |
| Features.FillEmptyRanges | mt5gw/mt5gw.py:546-551 | the filled frame is well formed, on the grid, with the bar columns |
| Features.FilledKeepsBars | mt5gw/mt5gw.py:546-551 | a bar present before the fill keeps its present cells on its grid row |
| Features.FilledVolume | mt5gw/mt5gw.py:546-551 | volume is never missing after the fill, and a bar the terminal did not deliver has volume 0 |
| Features.FilledGaps | mt5gw/mt5gw.py:546-551 | any other column stays missing on a grid row exactly when no row at or above it had it present |
| Features.MeanOfTwo | mt5gw/mt5gw.py:576 | a row mean of two cells skips a missing cell and is NaN when both are missing |
| Features.MeanOfFour | mt5gw/mt5gw.py:577 | with four finite prices the row mean is their average |
| Features.PriceSummaryCols | mt5gw/mt5gw.py:575-579 | the stage writes exactly avgPrice, ohlcPrice, range and momentum |
| Features.AvgPriceRow | mt5gw/mt5gw.py:576-578 | avgPrice is the midpoint of low and high and lies between them; avgPrice = low + range/2; with one side missing it is the other |
| Features.OhlcPriceRow | mt5gw/mt5gw.py:577-579 | ohlcPrice is the mean of the four prices and momentum is open − close |
| Features.PriceSummariesInPlace | mt5gw/mt5gw.py:575-579 | the four assignments in place give `PriceSummaries` of the old frame |
| Features.DateColumn | mt5gw/mt5gw.py:592-601 | a calendar column has one cell per row |
| Features.AddDateColumns | mt5gw/mt5gw.py:591-601 | adding calendar columns keeps the index and every existing column name |
| Features.DateColumnsWritten | mt5gw/mt5gw.py:591-601 | each named column holds its calendar field of the row's timestamp; every other column is as it was |
| Features.DateColumnsInPlace | mt5gw/mt5gw.py:591-601 | the in-place assignments give `AddDateColumns` of the old frame |
| Features.GoodRows | mt5gw/mt5gw.py:650-652 | a row is kept exactly when every column holds a finite value there |
| Features.DropBadRows | mt5gw/mt5gw.py:650-652 | `replace(inf, nan)` then `dropna()` leaves a well-formed frame |
| Features.DropBadRowsFinite | mt5gw/mt5gw.py:650-652 | after the drop every cell is finite and the columns are the same |
| Features.DropBadRowsKeeps | mt5gw/mt5gw.py:650-652 | a bar survives exactly when all its cells were finite |
| Features.FirstAbsent | mt5gw/mt5gw.py:662-663 | finds a listed label the frame lacks exactly when there is one |
| Features.DropListed | mt5gw/mt5gw.py:662-663 | `drop(columns=labels)` raises KeyError exactly when a label is absent, naming it; otherwise it removes exactly those columns |
| Cells.RollingMinLeMax | mt5gw/mt5gw.py:584-587 | the rolling minimum and maximum are missing together; where present both are finite (an infinity in the window reads as NaN) and the minimum never exceeds the maximum |
| Pivots.StandardBands | mt5gw/mt5gw.py:173-180 | supports lie below the standard pivot and resistances above; the j-th pair spans 2·j ranges |
| Pivots.WoodieBands | mt5gw/mt5gw.py:197-204 | the same for Woodie's pivot |
| Pivots.FibonacciBands | mt5gw/mt5gw.py:183-187 | Fibonacci levels sit the j-th ratio of the range either side of the standard pivot |
| Pivots.CamarillaBands | mt5gw/mt5gw.py:189-194 | Camarilla levels sit 1.1·j/12 ranges either side of the previous close |
| Pivots.DemarkSpread | mt5gw/mt5gw.py:206-218 | whichever branch X takes, Demark's R1 and S1 are exactly one range apart |
| Pivots.LevelMissingWithoutHistory | mt5gw/mt5gw.py:164-167 | a row without a full window or a previous bar has no level |
| Pivots.CreatedLevels | mt5gw/mt5gw.py:170-218 | the created levels are the Standard, Woodie and Demark pivots plus pairs 1..n, 1..min(n,8), 1..min(n,4), 1..n and Demark's one pair |
| Pivots.LevelNameInjective | mt5gw/mt5gw.py:174-217 | different levels never share a column name |
| Pivots.DistanceNameInjective | mt5gw/mt5gw.py:226-230 | different level names give different distance names |
| Pivots.PivotLevelsKeepBars | mt5gw/mt5gw.py:149-238 | the bar columns survive whether or not the levels are dropped |
| Pivots.PivotDistances | mt5gw/mt5gw.py:220-232 | `distance_to_<level>` exists exactly for created resistance/support levels when num_levels ≥ 1, never for a pivot, and holds close − level |
| Pivots.PivotLevelColumns | mt5gw/mt5gw.py:170-236 | each created level holds its formula unless keep_distance_only drops them all; the frame's own columns are untouched |
| Pivots.ConstantBars | mt5gw/mt5gw.py:165-180 | with constant high 110, low 90 and close 100, every row past the first window has standard P = 100 and R1 = 120 |
| Pivots.AddLevelColumns | mt5gw/mt5gw.py:170-218 | the in-place level loops give `AddLevels` of the created levels and return `created_columns` |
| Pivots.AddDistancesFor | mt5gw/mt5gw.py:224-232 | the in-place inner distance loop gives `DistancesFor` of the old frame |
| Pivots.AddPivotLevels | mt5gw/mt5gw.py:149-238 | the fresh frame returned is `PivotLevels` of the input |
| Denoise.WaveletDenoise | mt5gw/mt5gw.py:240-244 | the result is the reconstruction of the zeroed-detail coefficients cut to at most the input's length |
| Denoise.CustomTakesPrecedence | mt5gw/mt5gw.py:354-355 | with a custom function the method name is never read |
| Denoise.KnownMethods | mt5gw/mt5gw.py:356-368 | without a custom function exactly wavelet, kalman, ssa and emd are accepted |
| Denoise.ScatterPresentOnly | mt5gw/mt5gw.py:352-355 | writing a column's own present cells back by index gives the column again |
| Denoise.PresentOnlyScatter | mt5gw/mt5gw.py:352-355 | the present cells of a written-back column are the smoothed values |
| Denoise.ScatterKeepsGaps | mt5gw/mt5gw.py:352-355 | a missing row stays missing whatever the smoother returns |
| Denoise.DenoiseStops | mt5gw/mt5gw.py:349-368 | once a column's turn raises, the whole call raises that error |
| Denoise.UnknownMethodFails | mt5gw/mt5gw.py:367-368 | an unknown method without a custom function raises exactly when a visited column is numeric, and otherwise changes nothing |
| Denoise.IdentityChangesNothing | mt5gw/mt5gw.py:349-355 | smoothing every column with the identity in place of the originals gives the frame back |
| Denoise.OutNameInjective | mt5gw/mt5gw.py:351 | distinct columns get distinct `denoised_` names |
| Denoise.DenoiseWrites | mt5gw/mt5gw.py:349-370 | every original column is untouched and every visited numeric column c gets `denoised_c` holding its smoothed present cells |
| Denoise.DenoiseColumn | mt5gw/mt5gw.py:350-368 | one in-place turn gives `DenoiseOne` of the old frame, or its error |
| Denoise.DenoiseDataframe | mt5gw/mt5gw.py:325-370 | the in-place call gives `DenoiseFrame` of the old frame, or its error |
| SupportResistance.WindowBeforeBar | mt5gw/mt5gw.py:581-589 | row i covers bars i−w..i−1 only; it is missing until w bars have passed or when one of them is missing or infinite, else the finite min and max; support ≤ resistance |
| SupportResistance.InfinityLeavesGap | mt5gw/mt5gw.py:584-587 | on `[1, inf, 2]` with a one-bar window both columns are `[NaN, 1, NaN]` |
| SupportResistance.NamesInjective | mt5gw/mt5gw.py:584-587 | distinct (window, field) pairs get distinct support names and distinct resistance names |
| SupportResistance.SupportNotResistance | mt5gw/mt5gw.py:584-587 | a support name never equals a resistance name |
| SupportResistance.AddSupportResistanceKeeps | mt5gw/mt5gw.py:581-589 | a column of another stage, or the field itself, keeps its cells |
| SupportResistance.SupportResistanceWrites | mt5gw/mt5gw.py:581-589 | every numeric field and window ends with both columns computed from the field's cells by the shifted rolling min and max of WindowBeforeBar |
| SupportResistance.LevelsInPlace | mt5gw/mt5gw.py:583-587 | the in-place window loop gives `AddLevels` of the old frame |
| SupportResistance.SupportResistanceInPlace | mt5gw/mt5gw.py:581-589 | the in-place field loop gives `AddSupportResistance` of the old frame |
| Registry.Resolve | mt5gw/mt5gw.py:404-408 | resolving a name increments exactly its own counter |
| Registry.CounterCountsUses | mt5gw/mt5gw.py:404-408 | after a call the counter holds how often each composed name was met |
| Registry.ResolvedName | mt5gw/mt5gw.py:404-408 | the k-th use of a composed name in a call is stored as the bare name for k = 1 and as `name_k` for k ≥ 2 |
| Registry.SameBaseDistinctNames | mt5gw/mt5gw.py:404-408 | two uses of the same composed name in one call never share a final name |
| Registry.SuffixCollision | mt5gw/mt5gw.py:404-408 | the names x, x, x_2 resolve to x, x_2, x_2: a suffixed name can coincide with another composed name |
| Indicators.PositionalColumnsKnown | mt5gw/mt5gw.py:380-396 | when every key is one of o/h/l/c/v, the i-th positional argument is that key's column |
| Indicators.PositionalColumnsConcat | mt5gw/mt5gw.py:387-396 | the positional columns of concatenated key lists are the concatenation of each list's columns: a key contributes its column, or nothing, where it stands |
| Indicators.PadLeft | mt5gw/mt5gw.py:409-410 | a short result is left-padded with NaN to the frame's length, its values last |
| Indicators.CallNaming | mt5gw/mt5gw.py:400-434 | within one call the i-th composed name met is stored under its resolved name from a fresh counter |
| Indicators.OnlyResolvedColumnsChange | mt5gw/mt5gw.py:372-440 | a call changes only the columns it resolved names for; rows, other columns and the order of existing columns stay |
| Indicators.UnknownMethodsChangeNothing | mt5gw/mt5gw.py:376-377 | a list naming no method of the library leaves the frame as it was |
| Indicators.SingleResultPadded | mt5gw/mt5gw.py:422-434 | a single result is stored padded, numeric, under `prefix + name.lower()` |
| Indicators.TupleResultPadded | mt5gw/mt5gw.py:400-411 | for a tuple of any length whose parts fit the frame: no error, part i is resolved to `prefix + name.lower() + "_" + i` and that column holds the part left-padded with missing cells to the frame's length, as a numeric column |
| Indicators.TableResultNamed | mt5gw/mt5gw.py:412-421 | for a DataFrame result whose composed names differ: no error, column c is resolved to `prefix + c` with every underscore replaced by a vertical bar (case kept) and holds c's values aligned on the frame's rows, as a numeric column |
| Indicators.EmitFreshDistinct | mt5gw/mt5gw.py:400-421 | outputs with pairwise different composed names, none used before and all fitting the frame, are resolved to themselves and each is stored under its own name with its placed values |
| Indicators.SecondCallOverwrites | mt5gw/mt5gw.py:373 | the counter restarts per call, so a second call overwrites the first call's column instead of adding `_2` |
| Indicators.RepeatedTupleNames | mt5gw/mt5gw.py:400-411 | a two-part tuple method listed twice gives `b_0`, `b_1`, `b_0_2`, `b_1_2` |
| Indicators.EmitStopsAt | mt5gw/mt5gw.py:400-434 | once an output raises, the rest of the outputs are not stored |
| Indicators.ApplyAllStopsAt | mt5gw/mt5gw.py:376-436 | once an indicator raises, the remaining indicators are not applied |
| Indicators.EmitAll | mt5gw/mt5gw.py:400-434 | storing outputs in place gives `Emit` of the old state, counter and error included |
| Indicators.AddIndicators | mt5gw/mt5gw.py:372-440 | the in-place call gives `AddIndicatorsSpec` of the old frame, with the error of the indicator that raised |
| MovingAverages.PctValue | mt5gw/mt5gw.py:630-631 | a cell is the average as a percentage of the field; a missing field gives a missing cell; a zero field gives an infinity |
| MovingAverages.PctNameInjective | mt5gw/mt5gw.py:632-633 | within one method, distinct (period, field) pairs get distinct names |
| MovingAverages.MovingAveragesKeep | mt5gw/mt5gw.py:621-637 | every column whose name does not end in `-pct` keeps its cells and dtype |
| MovingAverages.UnsupportedMethodAddsNothing | mt5gw/mt5gw.py:627-635 | a method outside the list adds no column |
| MovingAverages.MethodCaseIgnored | mt5gw/mt5gw.py:627-633 | the method is matched regardless of case: "SMA", "sma" and "Sma" give the same frame |
| MovingAverages.AddFieldsWrites | mt5gw/mt5gw.py:625-633 | every numeric field of an entry with a listed method gets one column per period, computed from its cells |
| MovingAverages.MaSpecWrites | mt5gw/mt5gw.py:621-633 | the same for an entry as the loop reads `fields`, `field` and `periods` |
| MovingAverages.MovingAveragesInPlace | mt5gw/mt5gw.py:621-637 | the in-place loops give `AddMovingAverages` of the old frame |
| Lookbacks.LookbackValue | mt5gw/mt5gw.py:642-648 | for any integer period p, row i is the field at i−p, or the field at i divided by it in ratio mode; rows with no row i−p are missing: the first p rows for p ≥ 0, the last −p rows for p < 0 |
| Lookbacks.NextBar | mt5gw/mt5gw.py:641-648 | a period of −1 writes `lb_-1_<field>` holding the next bar's value, missing on the last row |
| Lookbacks.DoublingSeries | mt5gw/mt5gw.py:644-645 | a doubling series read two bars back in ratio mode gives 4 |
| Lookbacks.LbNameInjective | mt5gw/mt5gw.py:644-648 | distinct (period, field) pairs get distinct `lb_` names, negative periods included |
| Lookbacks.LookbacksKeep | mt5gw/mt5gw.py:639-648 | every column not starting with `lb_` keeps its cells and dtype |
| Lookbacks.LookbackWrites | mt5gw/mt5gw.py:639-648 | a field the frame holds gets one column per integer period, negative ones included, from its cells; an absent field adds nothing |
| Lookbacks.LookbacksInPlace | mt5gw/mt5gw.py:639-648 | the in-place loops give `AddLookbacks` of the old frame |
| Merge.PrefixSplits | mt5gw/mt5gw.py:466-467 | with instrument names free of '-', a merged name tells both the instrument and the column |
| Merge.PrefixNotDateName | mt5gw/mt5gw.py:466-467 | a merged name is never a calendar column name |
| Merge.LeftMerge | mt5gw/mt5gw.py:477-479 | the left merge keeps data's rows and columns and reads the other frame at data's timestamps; a shared name is an error naming it |
| Merge.MergedFrom | mt5gw/mt5gw.py:474-479 | every merged column is some instrument's column read on the grid |
| Merge.MergedColumn | mt5gw/mt5gw.py:474-479 | column c of instrument k is that instrument's column reindexed onto the grid |
| Merge.MergeSucceeds | mt5gw/mt5gw.py:456-479 | distinct instrument names without '-' never clash, so the merge succeeds |
| Merge.MergeStops | mt5gw/mt5gw.py:477-479 | once a prefix of the frames fails to merge, the whole list fails with that error |
| Merge.ZeroVolumesCols | mt5gw/mt5gw.py:481-483 | a `-volume` column has its gaps set to 0; every other column is unchanged |
| Merge.BFillAt | mt5gw/mt5gw.py:485 | back fill: a present cell stays; a missing one copies the filled row below |
| Merge.BFillFrom | mt5gw/mt5gw.py:485 | a back-filled cell is missing exactly when no cell at or below it is present; otherwise it is the nearest one below |
| Merge.PreparedColumn | mt5gw/mt5gw.py:474-497 | before the drop, a merged column is the instrument's column on the grid, volume gaps set to 0, others back-filled |
| Merge.VolumeOnGrid | mt5gw/mt5gw.py:481-485 | an instrument's volume on the grid is never missing and is 0 where it has no bar |
| Merge.VolumeOfBar | mt5gw/mt5gw.py:481-485 | where the instrument has a bar with a volume, that volume is kept |
| Merge.CombineClean | mt5gw/mt5gw.py:472-500 | the combined frame holds only finite values on grid timestamps; a grid row survives exactly when it was finite throughout |
| Merge.MergeFrames | mt5gw/mt5gw.py:477-479 | the merge loop returns `MergeAll` of the grid and frames |
| Merge.FinishInPlace | mt5gw/mt5gw.py:481-500 | the in-place fills, calendar columns and drop give `DropBadRows(Prepared(...))` of the merged frame |
| Pipeline.BarsTable | mt5gw/mt5gw.py:536-540 | the terminal's bars become a well-formed frame indexed by time with open, high, low, close and volume (tick volume) |
| Pipeline.Filled | mt5gw/mt5gw.py:542-551 | gap and fill keep the bar columns; the index becomes the period grid when filling, else stays |
| Pipeline.Pivoted | mt5gw/mt5gw.py:553-554 | the pivot stage keeps the index and the bar columns |
| Pipeline.DenoiseStage | mt5gw/mt5gw.py:556-573 | denoising keeps the index and bar columns, and its only error is a denoising failure |
| Pipeline.Enriched | mt5gw/mt5gw.py:575-601 | summaries, support/resistance and calendar columns keep the index and bar columns |
| Pipeline.WithIndicators | mt5gw/mt5gw.py:606-610 | the four indicator calls keep the index; the only error is an indicator failure |
| Pipeline.Cleaned | mt5gw/mt5gw.py:650-663 | an unknown drop label raises exactly when one is absent; otherwise no listed column remains, no row is added, and with drop_na every cell is finite |
| Pipeline.Processed | mt5gw/mt5gw.py:542-667 | the stages add no timestamp outside the filled index, drop none without drop_na, leave only finite cells with it, and remove every listed column |
| Pipeline.NoDataIff | mt5gw/mt5gw.py:518-534 | "no data" is raised exactly when the terminal returns nothing or no bars; without bars or date_from nothing is requested |
| Pipeline.UnsupportedTimeframeFails | mt5gw/mt5gw.py:514-516 | an unsupported timeframe is refused exactly when it is not in the table, before the terminal is asked |
| Pipeline.FetchResult | mt5gw/mt5gw.py:514-667 | a successful fetch's rows are timestamps of the bars or the grid; all of them without drop_na; with it only finite cells; no dropped column remains |
| Pipeline.SubConfig | mt5gw/mt5gw.py:456-463 | each instrument is fetched with calendar columns off, the fill on and drop_na on, and its own sr_levels |
| Pipeline.Collect | mt5gw/mt5gw.py:456-470 | the loop succeeds exactly when every fetch does, pairing names and frames in order; otherwise it is the first failure |
| Pipeline.MinOf | mt5gw/mt5gw.py:472 | the minimum is an element and below every element |
| Pipeline.MaxOf | mt5gw/mt5gw.py:473 | the maximum is an element and above every element |
| Pipeline.Assemble | mt5gw/mt5gw.py:472-500 | the combined frame is well formed; its only errors are no bars and a column clash |
| Pipeline.AssembledColumns | mt5gw/mt5gw.py:466-500 | the combined frame holds only finite cells, and every column is a calendar column or `<instrument>-<column>` |
| Gateway.GapInPlace | mt5gw/mt5gw.py:542-544 | the in-place gap assignment gives `AddGap` of the old frame when add_gap, else nothing changes |
| Gateway.FillInPlace | mt5gw/mt5gw.py:542-551 | gap and fill in place give `Filled` of the old frame |
| Gateway.Prepare | mt5gw/mt5gw.py:542-573 | the working frame after gap, fill, pivots and denoising is `DenoiseStage(Pivoted(Filled(...)))`, or its error |
| Gateway.EnrichInPlace | mt5gw/mt5gw.py:575-601 | the in-place enrichment gives `Enriched` of the old frame |
| Gateway.IndicatorsInPlace | mt5gw/mt5gw.py:606-610 | the four in-place indicator calls give `WithIndicators` of the old frame, or the first error |
| Gateway.CleanInPlace | mt5gw/mt5gw.py:650-663 | the in-place drop_na and drop_columns give `Cleaned` of the old frame, or its error |
| Gateway.Stages | mt5gw/mt5gw.py:542-667 | every stage in place, in order, gives `Processed` of the bar frame |
| Gateway.Fetch | mt5gw/mt5gw.py:510-667 | fetching one instrument equals `FetchOne` |
| Gateway.CollectStops | mt5gw/mt5gw.py:456-470 | a failure after k successes is the whole list's failure |
| Gateway.FetchLoop | mt5gw/mt5gw.py:455-470 | the per-instrument loop returns `Collect` of the fetches |
| Gateway.FetchAll | mt5gw/mt5gw.py:452-473 | the per-instrument fetches of a list, an empty list being an error, equal `FetchEach` |
| Gateway.GatherFrames | mt5gw/mt5gw.py:472-508 | the merge onto the common date range and the in-place clean-up give `Gather` |
| Gateway.FetchMultiple | mt5gw/mt5gw.py:452-508 | fetching a list of instruments equals `FetchMany` |
| Smoothing.ParseMethod | mt5gw/mtds_ni.py:16-32 | a method is recognised exactly when its upper-cased name is one of the seven, and is that method |
| Smoothing.ParseName | mt5gw/mtds_ni.py:16-32 | every method is recognised by its own name, in upper or lower case |
| Smoothing.ApplySmoothing | mt5gw/mtds_ni.py:16-32 | raises exactly for a name outside the seven ("Unsupported smoothing method") or a period outside TA-Lib's 2..100000 (TA-Lib's TA_BAD_PARAM message); otherwise it is TA-Lib's average of that name |
| Smoothing.SmaPeriodOneRaises | mt5gw/mtds_ni.py:16-22 | `apply_smoothing(series, 'sma', 1)` raises TA-Lib's "TA_SMA function failed with error code 2: Bad Parameter" |
| Smoothing.SmoothingIgnoresCase | mt5gw/mtds_ni.py:16 | the method name's case does not matter |
| SuperTrend.BasicUpper | mt5gw/mtds_ni.py:83-84 | the basic upper band is the midpoint plus multiplier·ATR, bar by bar |
| SuperTrend.BasicLower | mt5gw/mtds_ni.py:83-85 | the basic lower band is the midpoint minus multiplier·ATR, bar by bar |
| SuperTrend.FinalUpper | mt5gw/mtds_ni.py:93-96 | the final upper band never exceeds the basic band |
| SuperTrend.FinalLower | mt5gw/mtds_ni.py:98-101 | the final lower band never falls below the basic band |
| SuperTrend.UpperStep | mt5gw/mtds_ni.py:93-96 | after a close above it the upper band resets to the basic band; otherwise it does not rise |
| SuperTrend.LowerStep | mt5gw/mtds_ni.py:98-101 | after a close below it the lower band resets to the basic band; otherwise it does not fall |
| SuperTrend.UpperRatchet | mt5gw/mtds_ni.py:93-96 | without a close above it, the upper band does not rise over any stretch of bars |
| SuperTrend.LowerRatchet | mt5gw/mtds_ni.py:98-101 | without a close below it, the lower band does not fall over any stretch of bars |
| SuperTrend.Trend | mt5gw/mtds_ni.py:104-107 | the trend line is the upper band while the close is at or below it, the lower band otherwise |
| SuperTrend.PctDiff | mt5gw/mtds_ni.py:91-110 | 0 on the first bar; otherwise (trend − close)/close·100, and never negative while a positive close is under the upper band |
| SuperTrend.TrendLoop | mt5gw/mtds_ni.py:86-112 | the array loop fills every bar's output with `PctDiff` |
| SuperTrend.SuperTrendPct | mt5gw/mtds_ni.py:65-113 | `supertrend` returns `PctDiff` of the basic bands for every bar |
| PriceRatios.PctOf | mt5gw/mtds_ni.py:134-138 | (x − base)/base·100 for finite operands; missing if either is missing |
| PriceRatios.SumWithin | mt5gw/mtds_ni.py:132-133 | with every price so far in [lo, hi], the running sum is finite and between (i+1)·lo and (i+1)·hi |
| PriceRatios.MeanWithin | mt5gw/mtds_ni.py:132-133 | the running mean stays within the range of the prices it averages |
| PriceRatios.MeanOfConstant | mt5gw/mtds_ni.py:132-133 | a flat price has itself as running mean |
| PriceRatios.MissingStays | mt5gw/mtds_ni.py:132-133 | a missing price leaves every later running sum and mean missing |
| PriceRatios.Twap | mt5gw/mtds_ni.py:115-140 | bar i is the running mean, or in ratio mode its distance from the close in percent |
| PriceRatios.TwapRatioRecovers | mt5gw/mtds_ni.py:134-138 | from the close and the ratio the running mean comes back: mean = close·(1 + twap/100) |
| PriceRatios.PovAt | mt5gw/mtds_ni.py:154-159 | rate·volume/close·100 for finite operands; missing if either is missing |
| PriceRatios.Pov | mt5gw/mtds_ni.py:142-159 | the same bar by bar |
| PriceRatios.PovRecovers | mt5gw/mtds_ni.py:154-159 | pov·close/100 gives back volume·rate |
| PriceRatios.Ratios | mt5gw/mtds_ni.py:176-177 | close/ma bar by bar; missing where either is missing |
| PriceRatios.Rsl | mt5gw/mtds_ni.py:161-178 | raises exactly for an unsupported method or a period TA-Lib refuses, with the matching message; otherwise close over TA-Lib's average of that name |
| PriceRatios.RslRecovers | mt5gw/mtds_ni.py:174-178 | rsl·ma gives back the close |
| Ultra.Periods | mt5gw/mtds_ni.py:330 | StepsTotal+1 periods (none if negative), the k-th being StartLength + k·Step |
| Ultra.RoseOrFell | mt5gw/mtds_ni.py:345-351 | a present pair rose or did not, never both; a pair with NaN does neither |
| Ultra.CountsAddUp | mt5gw/mtds_ni.py:341-351 | each bar's ups + dns is the number of series with two present neighbours there, at most the number of periods |
| Ultra.FirstBarUncounted | mt5gw/mtds_ni.py:347-348 | the first bar is never counted, as its previous value is NaN |
| Ultra.UncomparedAddsNothing | mt5gw/mtds_ni.py:345-351 | a series without two present neighbours adds nothing |
| Ultra.SmoothedAll | mt5gw/mtds_ni.py:336-338 | the ladder fails exactly for a non-empty ladder with an unsupported method or a period TA-Lib refuses; otherwise it is each period's average in order |
| Ultra.UltraCounts | mt5gw/mtds_ni.py:327-357 | fails exactly when the ladder or the count smoothing has an unsupported method or a period TA-Lib refuses; bulls and bears have the bars' length |
| Ultra.UltraMeaning | mt5gw/mtds_ni.py:341-357 | bulls and bears are the smoothed per-bar up and down counts, which add up to at most the number of periods |
| Ultra.SmoothEach | mt5gw/mtds_ni.py:336-338 | the loop over the periods returns `SmoothedAll` |
| Ultra.CountsStep | mt5gw/mtds_ni.py:345-351 | one more series moves each bar's counts by its own comparison |
| Ultra.CountInPlace | mt5gw/mtds_ni.py:341-351 | after the loop each array cell holds `Ups`/`Dns` of its bar |
| Ultra.UltraInPlace | mt5gw/mtds_ni.py:327-357 | the imperative ladder, counting and smoothing equal `UltraCounts` |

## Left out

- Terminal I/O is a parameter of the model. This covers `mt5.initialize`, `shutdown`, `last_error` and the parsing of `date_from`/`date_to`. The "MT5 initialize() failed" exception is not modelled.
- Progress printing, `silent`, and the "not supported" notices have no counterpart: the frame is the only output.
- Trading and account calls of the gateway are not part of this model: orders, positions, symbol info.
- `taf_all`, `ta_all`, `talib_candle_patterns` and `tulip_indicators` are not modelled. They call whole third-party feature sets.
- `ehlers_rpi` and `rvi` of the native module are not part of this model.
- Third-party numerics are function parameters with no contract beyond their shape. This covers:
  - TA-Lib's ATR, WILLR, RSI, AVGPRICE and moving averages;
  - pywt;
  - the Kalman, SSA and EMD back ends;
  - pandas' calendar fields, `period_range` and `date_range`.
- Floating point is modelled as exact reals with NaN and ±infinity cells. Rounding and signed zero are not modelled; every zero divisor counts as +0.
- Case mapping (`lower`/`upper`) is modelled for ASCII letters only.
- SuperTrend.SuperTrendPct: ATR is taken as defined on every bar. The warm-up rows where TA-Lib's ATR is NaN are not modelled.
- PriceRatios.Twap: its ensures spells out the composition of running mean and percentage. What the result means is in MeanWithin, MissingStays and TwapRatioRecovers.
- Pipeline.FetchMany and Pipeline.Gather carry no ensures of their own. Their properties are in Pipeline.Collect, Pipeline.AssembledColumns, Merge.CombineClean and the Gateway methods proved equal to them.
- Pipeline.FetchOne: a base column missing from the frame (KeyError) is not modelled. The bar table always has open, high, low, close and volume.
- Pipeline.LevelsPositive: `sr_levels` entries must be at least 1, because `rolling(0)` is outside the model.
- Pipeline.Sound: the terminal's bars are taken as strictly increasing in time. This makes `sort_index()` in `add_pivot_levels` a no-op.
- Merge.LeftMerge: a column name shared by two merged frames is reported as a clash. pandas would suffix it `_x`/`_y` instead.
- Pipeline.Assemble: the bounds of an empty per-instrument frame (NaT) are not modelled. Frames without rows are left out of the minimum and maximum dates.
- Merge.ZeroVolumes: the chained `data[col].fillna(value=0, inplace=True)` is taken to update `data`, as the pandas versions the code targets do.
- Denoise.Scatter: the series a custom denoising function returns is written back to the rows of the non-missing cells by position.
- Lookbacks.AddPeriods: the ratio lookback is modelled on numeric columns only.
- MovingAverages.MaSpec: "method" and "field" are required keys here. In the source an entry without "method", or without both "fields" and "field", raises KeyError (mt5gw/mt5gw.py:622-627), and that error is not modelled.
- MovingAverages.PctName: periods are whole numbers, printed in decimal. A period given as a float such as `14.0` is passed to TA-Lib as `int(period)`. Its column is named with `str(period)`, giving `sma-14.0-close-pct` (mt5gw/mt5gw.py:628-633). The model does not capture that name.
- MovingAverages.AddFieldsWrites: TA-Lib's `timeperiod` range (2..100000) is not checked here. For a period outside it, such as 0 or 1, the source raises TA-Lib's TA_BAD_PARAM exception (mt5gw/mt5gw.py:628-630). The model instead writes a column computed by the moving-average parameter.
- MovingAverages.MaSpecWrites: the same unchecked `timeperiod` range. A period outside 2..100000 raises in the source (mt5gw/mt5gw.py:628-630), but the model writes a column.
- PriceRatios.MissingStays: this is `np.cumsum` over an array, where a NaN stays in every later sum. `add_indicators` passes pandas Series to the native library (mt5gw/mt5gw.py:390-393). `np.cumsum` on a Series runs `Series.cumsum` with `skipna=True`, which leaves only the NaN's own row NaN. The model does not capture that behaviour.
- PriceRatios.Twap: for the same reason, a missing price in a Series input leaves only its own row missing in the source, not every later row.
- Indicators.IndicatorSpec: "method" and "args" are required fields here. In the source an entry without either raises KeyError (mt5gw/mt5gw.py:377, 387), and that error is not modelled.
- MovingAverages.MaMethods: "mama" is treated like the other eight methods, as one column per period. TA-Lib's MAMA takes no `timeperiod` and returns a pair (MAMA, FAMA), so the source's call with `timeperiod` fails. The model does not capture that failure.
- Lookbacks.LookbackSpec: "field" is a required key here. In the source an entry without "field" raises KeyError (mt5gw/mt5gw.py:640), and that error is not modelled.
- Pipeline.Env: the native indicator library is a parameter like the other libraries. Its calls are not tied to the SuperTrend, PriceRatios and Ultra models, which state on their own what those indicators compute.
- Indicators.Placed: a result longer than the frame is reported as an error. Alignment of a returned DataFrame is by row position.
- The code builds no `distance_to_<system>_P` column. The distance loop only looks for `_R{j}`/`_S{j}` names. The model follows the code (Pivots.PivotDistances).
- `denoise_dataframe` is called from `fetch` without `apply_columns`. Every numeric column is therefore denoised, and the model keeps this.
- The docstring of `rsl` mentions TEMA, but `apply_smoothing` accepts only EMA, SMA, WMA, DEMA, T3, KAMA and TRIMA. The model follows the code.

=== FILE: averages.dfy ===
/** Moving-average percentage columns: for each entry of `mas`, each numeric
    field and each period, `<method>-<period>-<field>-pct` holds the TA-Lib
    moving average of the field as a percentage of the field. */
module MovingAverages {
  import opened Wrappers
  import opened Cells
  import opened Text
  import opened Frames

  /** One entry of `mas`; `field` is `m["field"]`, read only without "fields". */
  datatype MaSpec = MaSpec(methodName: string, fields: Option<seq<string>>, field: string, periods: Option<seq<nat>>)

  /** TA-Lib's moving average named by the upper-case method: the value at a
      row of the average of a column over a period. */
  type MaFunction = (string, seq<Cell>, nat, nat) -> Cell

  const MaMethods: seq<string> := ["sma", "ema", "wma", "dema", "tema", "trima", "kama", "mama", "t3"]

  function Fields(m: MaSpec): seq<string> { m.fields.GetOr([m.field]) }

  function Periods(m: MaSpec): seq<nat> { m.periods.GetOr([14]) }

  function PctName(lower: string, period: nat, field: string): string
  {
    lower + "-" + NatToString(period) + "-" + field + "-pct"
  }

  /** `(ma / rf[field]) * 100`. */
  function PctColumn(ma: MaFunction, upper: string, col: seq<Cell>, period: nat): (r: seq<Cell>)
    ensures |r| == |col|
  {
    seq(|col|, i requires 0 <= i < |col| => Scale(100.0, Div(ma(upper, col, period, i), col[i])))
  }

  /** Where the field and the average are finite and the field is not 0 the
      cell is the average as a percentage of the field; a missing field cell
      gives a missing cell; a zero field under a non-zero average gives an
      infinity, which the final `drop_na` removes. */
  lemma PctValue(ma: MaFunction, upper: string, col: seq<Cell>, period: nat, i: nat)
    requires i < |col|
    ensures var a, f, r := ma(upper, col, period, i), col[i], PctColumn(ma, upper, col, period)[i];
      && (a.Val? && f.Val? && f.v != 0.0 ==> r == Val(100.0 * (a.v / f.v)))
      && (f.Missing? || a.Missing? ==> r.Missing?)
      && (a.Val? && f == Val(0.0) && a.v != 0.0 ==> r.PosInf? || r.NegInf?)
  {
  }

  // ---------------------------------------------------------------------------
  // The specification of the three nested loops

  /** `for period in periods`: one column per period. */
  function AddPeriods(t: Table, ma: MaFunction, lower: string, upper: string, field: string, periods: seq<nat>): (r: Table)
    requires t.Valid() && field in t.cols
    ensures r.Valid() && r.index == t.index && t.cols.Keys <= r.cols.Keys
    ensures field in r.cols && r.cols[field] == t.cols[field] && (r.Numeric(field) <==> t.Numeric(field))
  {
    if periods == [] then t
    else
      var s := AddPeriods(t, ma, lower, upper, field, periods[..|periods| - 1]);
      var p := periods[|periods| - 1];
      PctNameLonger(lower, p, field);
      Assign(s, PctName(lower, p, field), PctColumn(ma, upper, s.cols[field], p), true)
  }

  /** `for field in fields`: a field that is absent or not numeric, or a
      method outside the list, adds nothing (the source prints a notice). */
  function AddFields(t: Table, ma: MaFunction, lower: string, upper: string, fields: seq<string>, periods: seq<nat>): (r: Table)
    requires t.Valid()
    ensures r.Valid() && r.index == t.index && t.cols.Keys <= r.cols.Keys
  {
    if fields == [] then t
    else
      var s := AddFields(t, ma, lower, upper, fields[..|fields| - 1], periods);
      var field := fields[|fields| - 1];
      if s.Numeric(field) && lower in MaMethods then AddPeriods(s, ma, lower, upper, field, periods) else s
  }

  /** `for m in mas`: the method is matched lower-case and called upper-case. */
  function AddMovingAverages(t: Table, ma: MaFunction, mas: seq<MaSpec>): (r: Table)
    requires t.Valid()
    ensures r.Valid() && r.index == t.index && t.cols.Keys <= r.cols.Keys
  {
    if mas == [] then t
    else
      var s := AddMovingAverages(t, ma, mas[..|mas| - 1]);
      var m := mas[|mas| - 1];
      AddFields(s, ma, Lower(m.methodName), Upper(m.methodName), Fields(m), Periods(m))
  }

  // ---------------------------------------------------------------------------
  // Names

  lemma PctNameLonger(lower: string, p: nat, field: string)
    ensures PctName(lower, p, field) != field && EndsWith(PctName(lower, p, field), "-pct")
  {
    EndsWithAppend(lower + "-" + NatToString(p) + "-" + field, "-pct");
  }

  /** Within one method, distinct (period, field) pairs get distinct names. */
  lemma PctNameInjective(lower: string, p: nat, f: string, q: nat, g: string)
    ensures PctName(lower, p, f) == PctName(lower, q, g) ==> p == q && f == g
  {
    var a, b := NatToString(p), NatToString(q);
    assert PctName(lower, p, f) == (lower + "-") + ((a + ['-'] + f) + "-pct");
    assert PctName(lower, q, g) == (lower + "-") + ((b + ['-'] + g) + "-pct");
    if PctName(lower, p, f) == PctName(lower, q, g) {
      SamePrefix(lower + "-", (a + ['-'] + f) + "-pct", (b + ['-'] + g) + "-pct");
      SameSuffix(a + ['-'] + f, b + ['-'] + g, "-pct");
      DigitsSplit(a, '-', f, b, g);
      NatToStringInjective(p, q);
    }
  }

  // ---------------------------------------------------------------------------
  // What the loops write

  /** Only `-pct` columns change, and every other column keeps its dtype. */
  ghost predicate KeepsOthers(t: Table, r: Table)
  {
    forall x :: !EndsWith(x, "-pct") ==>
      (x in r.cols <==> x in t.cols) &&
      (x in t.cols ==> r.cols[x] == t.cols[x] && (r.Numeric(x) <==> t.Numeric(x)))
  }

  lemma KeepsOthersTrans(t: Table, s: Table, r: Table)
    requires KeepsOthers(t, s) && KeepsOthers(s, r)
    ensures KeepsOthers(t, r)
  {
  }

  lemma {:induction false} AddPeriodsKeeps(t: Table, ma: MaFunction, lower: string, upper: string, field: string, periods: seq<nat>)
    requires t.Valid() && field in t.cols
    ensures KeepsOthers(t, AddPeriods(t, ma, lower, upper, field, periods))
  {
    if periods != [] {
      var s := AddPeriods(t, ma, lower, upper, field, periods[..|periods| - 1]);
      AddPeriodsKeeps(t, ma, lower, upper, field, periods[..|periods| - 1]);
      var p := periods[|periods| - 1];
      PctNameLonger(lower, p, field);
      forall x | !EndsWith(x, "-pct") ensures x != PctName(lower, p, field) { }
    }
  }

  lemma {:induction false} AddFieldsKeeps(t: Table, ma: MaFunction, lower: string, upper: string, fields: seq<string>, periods: seq<nat>)
    requires t.Valid()
    ensures KeepsOthers(t, AddFields(t, ma, lower, upper, fields, periods))
  {
    if fields != [] {
      var s := AddFields(t, ma, lower, upper, fields[..|fields| - 1], periods);
      AddFieldsKeeps(t, ma, lower, upper, fields[..|fields| - 1], periods);
      var field := fields[|fields| - 1];
      if s.Numeric(field) && lower in MaMethods {
        AddPeriodsKeeps(s, ma, lower, upper, field, periods);
        KeepsOthersTrans(t, s, AddPeriods(s, ma, lower, upper, field, periods));
      }
    }
  }

  /** Every column whose name does not end in `-pct` keeps its cells and dtype. */
  lemma {:induction false} MovingAveragesKeep(t: Table, ma: MaFunction, mas: seq<MaSpec>)
    requires t.Valid()
    ensures KeepsOthers(t, AddMovingAverages(t, ma, mas))
  {
    if mas != [] {
      var s := AddMovingAverages(t, ma, mas[..|mas| - 1]);
      MovingAveragesKeep(t, ma, mas[..|mas| - 1]);
      var m := mas[|mas| - 1];
      AddFieldsKeeps(s, ma, Lower(m.methodName), Upper(m.methodName), Fields(m), Periods(m));
      KeepsOthersTrans(t, s, AddMovingAverages(t, ma, mas));
    }
  }

  /** A method outside the list adds no column at all. */
  lemma {:induction false} UnsupportedMethodAddsNothing(t: Table, ma: MaFunction, lower: string, upper: string, fields: seq<string>, periods: seq<nat>)
    requires t.Valid() && lower !in MaMethods
    ensures AddFields(t, ma, lower, upper, fields, periods) == t
  {
    if fields != [] {
      UnsupportedMethodAddsNothing(t, ma, lower, upper, fields[..|fields| - 1], periods);
    }
  }

  /** The method name is matched without regard to case: "SMA", "sma" and
      "Sma" give the same frame. */
  lemma {:induction false} MethodCaseIgnored(t: Table, ma: MaFunction, mas: seq<MaSpec>)
    requires t.Valid()
    ensures AddMovingAverages(t, ma, mas) ==
      AddMovingAverages(t, ma, seq(|mas|, k requires 0 <= k < |mas| => mas[k].(methodName := Upper(mas[k].methodName))))
  {
    var up := seq(|mas|, k requires 0 <= k < |mas| => mas[k].(methodName := Upper(mas[k].methodName)));
    if mas != [] {
      var init := mas[..|mas| - 1];
      MethodCaseIgnored(t, ma, init);
      assert up[..|up| - 1] == seq(|init|, k requires 0 <= k < |init| => init[k].(methodName := Upper(init[k].methodName)));
      var name := mas[|mas| - 1].methodName;
      LowerIgnoresCase(name);
      UpperIgnoresCase(name);
    }
  }

  /** Column (p, f) holds the percentage of the field's average. */
  ghost predicate HasPct(r: Table, ma: MaFunction, lower: string, upper: string, col: seq<Cell>, p: nat, f: string)
  {
    PctName(lower, p, f) in r.cols && r.cols[PctName(lower, p, f)] == PctColumn(ma, upper, col, p)
  }

  lemma {:induction false} AddPeriodsWrites(t: Table, ma: MaFunction, lower: string, upper: string, field: string, periods: seq<nat>, p: nat)
    requires t.Valid() && field in t.cols && p in periods
    ensures HasPct(AddPeriods(t, ma, lower, upper, field, periods), ma, lower, upper, t.cols[field], p, field)
  {
    var init, last := periods[..|periods| - 1], periods[|periods| - 1];
    SplitLast(periods);
    if p != last {
      AddPeriodsWrites(t, ma, lower, upper, field, init, p);
      PctNameInjective(lower, p, field, last, field);
    }
  }

  /** Another field's periods leave the columns of f alone. */
  lemma {:induction false} HasPctSurvives(s: Table, ma: MaFunction, lower: string, upper: string, col: seq<Cell>, p: nat, f: string, g: string, periods: seq<nat>)
    requires s.Valid() && g in s.cols && f != g
    requires HasPct(s, ma, lower, upper, col, p, f)
    ensures HasPct(AddPeriods(s, ma, lower, upper, g, periods), ma, lower, upper, col, p, f)
  {
    if periods != [] {
      HasPctSurvives(s, ma, lower, upper, col, p, f, g, periods[..|periods| - 1]);
      PctNameInjective(lower, p, f, periods[|periods| - 1], g);
    }
  }

  /** For one entry with a listed method, every numeric field that is not
      itself a `-pct` column gets one column per period, computed from the
      field's cells. */
  lemma {:induction false} AddFieldsWrites(t: Table, ma: MaFunction, lower: string, upper: string, fields: seq<string>, periods: seq<nat>, f: string, p: nat)
    requires t.Valid() && lower in MaMethods
    requires f in fields && t.Numeric(f) && !EndsWith(f, "-pct") && p in periods
    ensures HasPct(AddFields(t, ma, lower, upper, fields, periods), ma, lower, upper, t.cols[f], p, f)
  {
    var init, last := fields[..|fields| - 1], fields[|fields| - 1];
    var s := AddFields(t, ma, lower, upper, init, periods);
    AddFieldsKeeps(t, ma, lower, upper, init, periods);
    SplitLast(fields);
    if last == f {
      AddPeriodsWrites(s, ma, lower, upper, f, periods, p);
    } else {
      AddFieldsWrites(t, ma, lower, upper, init, periods, f, p);
      if s.Numeric(last) {
        HasPctSurvives(s, ma, lower, upper, t.cols[f], p, f, last, periods);
      }
    }
  }

  /** The same for an entry of `mas` as the loop reads it. */
  lemma MaSpecWrites(t: Table, ma: MaFunction, m: MaSpec, f: string, p: nat)
    requires t.Valid() && Lower(m.methodName) in MaMethods
    requires f in Fields(m) && t.Numeric(f) && !EndsWith(f, "-pct") && p in Periods(m)
    ensures var r := AddMovingAverages(t, ma, [m]);
      var name := PctName(Lower(m.methodName), p, f);
      name in r.cols && r.cols[name] == PctColumn(ma, Upper(m.methodName), t.cols[f], p)
  {
    assert [m][..0] == [];
    AddFieldsWrites(t, ma, Lower(m.methodName), Upper(m.methodName), Fields(m), Periods(m), f, p);
  }

  // ---------------------------------------------------------------------------
  // The in-place loops

  lemma PeriodsSnoc(t: Table, ma: MaFunction, lower: string, upper: string, field: string, periods: seq<nat>, j: nat, s: Table)
    requires t.Valid() && field in t.cols && j < |periods|
    requires s == AddPeriods(t, ma, lower, upper, field, periods[..j])
    ensures field in s.cols
    ensures AddPeriods(t, ma, lower, upper, field, periods[..j + 1]) ==
      Assign(s, PctName(lower, periods[j], field), PctColumn(ma, upper, s.cols[field], periods[j]), true)
  {
    TakeSnoc(periods, j);
    TakeTake(periods, j);
  }

  /** One turn of `for period in periods`. */
  method PeriodInPlace(rf: Frame, ghost t0: Table, ma: MaFunction, lower: string, upper: string, field: string, periods: seq<nat>, j: nat)
    requires t0.Valid() && field in t0.cols && j < |periods|
    requires rf.Contents() == AddPeriods(t0, ma, lower, upper, field, periods[..j])
    modifies rf
    ensures rf.Contents() == AddPeriods(t0, ma, lower, upper, field, periods[..j + 1])
  {
    PeriodsSnoc(t0, ma, lower, upper, field, periods, j, rf.Contents());
    var p := periods[j];
    rf.Set(PctName(lower, p, field), PctColumn(ma, upper, rf.cols[field], p), true);
  }

  method PeriodsInPlace(rf: Frame, ma: MaFunction, lower: string, upper: string, field: string, periods: seq<nat>)
    requires rf.Valid() && field in rf.cols
    modifies rf
    ensures rf.Contents() == AddPeriods(old(rf.Contents()), ma, lower, upper, field, periods)
  {
    ghost var t0 := rf.Contents();
    var j := 0;
    while j < |periods|
      invariant 0 <= j <= |periods|
      invariant rf.Contents() == AddPeriods(t0, ma, lower, upper, field, periods[..j])
    {
      PeriodInPlace(rf, t0, ma, lower, upper, field, periods, j);
      j := j + 1;
    }
    assert periods[..j] == periods;
  }

  lemma FieldsSnoc(t: Table, ma: MaFunction, lower: string, upper: string, fields: seq<string>, periods: seq<nat>, i: nat, s: Table)
    requires t.Valid() && i < |fields|
    requires s == AddFields(t, ma, lower, upper, fields[..i], periods)
    ensures s.Valid()
    ensures var field := fields[i];
      AddFields(t, ma, lower, upper, fields[..i + 1], periods) ==
      if s.Numeric(field) && lower in MaMethods then AddPeriods(s, ma, lower, upper, field, periods) else s
  {
    TakeSnoc(fields, i);
    TakeTake(fields, i);
  }

  /** One turn of `for field in fields`. */
  method FieldInPlace(rf: Frame, ghost t0: Table, ma: MaFunction, lower: string, upper: string, fields: seq<string>, periods: seq<nat>, i: nat)
    requires t0.Valid() && i < |fields|
    requires rf.Contents() == AddFields(t0, ma, lower, upper, fields[..i], periods)
    modifies rf
    ensures rf.Contents() == AddFields(t0, ma, lower, upper, fields[..i + 1], periods)
  {
    FieldsSnoc(t0, ma, lower, upper, fields, periods, i, rf.Contents());
    var field := fields[i];
    if field in rf.cols && field !in rf.objects {
      if lower in MaMethods {
        PeriodsInPlace(rf, ma, lower, upper, field, periods);
      }
    }
  }

  method FieldsInPlace(rf: Frame, ma: MaFunction, lower: string, upper: string, fields: seq<string>, periods: seq<nat>)
    requires rf.Valid()
    modifies rf
    ensures rf.Contents() == AddFields(old(rf.Contents()), ma, lower, upper, fields, periods)
  {
    ghost var t0 := rf.Contents();
    var i := 0;
    while i < |fields|
      invariant 0 <= i <= |fields|
      invariant rf.Contents() == AddFields(t0, ma, lower, upper, fields[..i], periods)
    {
      FieldInPlace(rf, t0, ma, lower, upper, fields, periods, i);
      i := i + 1;
    }
    assert fields[..i] == fields;
  }

  lemma MovingAveragesSnoc(t: Table, ma: MaFunction, mas: seq<MaSpec>, k: nat, s: Table)
    requires t.Valid() && k < |mas|
    requires s == AddMovingAverages(t, ma, mas[..k])
    ensures s.Valid()
    ensures var m := mas[k];
      AddMovingAverages(t, ma, mas[..k + 1]) ==
      AddFields(s, ma, Lower(m.methodName), Upper(m.methodName), Fields(m), Periods(m))
  {
    TakeSnoc(mas, k);
    TakeTake(mas, k);
  }

  /** `for m in mas: ...`, updating rf in place. */
  method MovingAveragesInPlace(rf: Frame, ma: MaFunction, mas: seq<MaSpec>)
    requires rf.Valid()
    modifies rf
    ensures rf.Contents() == AddMovingAverages(old(rf.Contents()), ma, mas)
  {
    ghost var t0 := rf.Contents();
    var k := 0;
    while k < |mas|
      invariant 0 <= k <= |mas|
      invariant rf.Contents() == AddMovingAverages(t0, ma, mas[..k])
    {
      var m := mas[k];
      MovingAveragesSnoc(t0, ma, mas, k, rf.Contents());
      FieldsInPlace(rf, ma, Lower(m.methodName), Upper(m.methodName), Fields(m), Periods(m));
      k := k + 1;
    }
    assert mas[..k] == mas;
  }
}

=== FILE: cells.dfy ===
/** Values held in one cell of a numeric column, and the floating-point
    arithmetic of the pipeline's column expressions on them.
    Exact reals stand in for floats; NaN (and Python's None) is `Missing`. */
module Cells {

  datatype Cell = Val(v: real) | Missing | PosInf | NegInf

  /** pandas `notna`: everything but a missing value (infinities count as present). */
  predicate Present(c: Cell) { !c.Missing? }

  function Neg(a: Cell): Cell
  {
    match a
    case Val(x) => Val(-x)
    case Missing => Missing
    case PosInf => NegInf
    case NegInf => PosInf
  }

  /** IEEE addition: NaN propagates, opposite infinities give NaN. */
  function Add(a: Cell, b: Cell): (r: Cell)
    ensures a.Val? && b.Val? ==> r.Val?
    ensures r.Missing? <==> a.Missing? || b.Missing? || (a.PosInf? && b.NegInf?) || (a.NegInf? && b.PosInf?)
  {
    match (a, b)
    case (Missing, _) => Missing
    case (_, Missing) => Missing
    case (Val(x), Val(y)) => Val(x + y)
    case (PosInf, NegInf) => Missing
    case (NegInf, PosInf) => Missing
    case (PosInf, _) => PosInf
    case (NegInf, _) => NegInf
    case (Val(_), PosInf) => PosInf
    case (Val(_), NegInf) => NegInf
  }

  function Sub(a: Cell, b: Cell): Cell { Add(a, Neg(b)) }

  /** Multiplication by a finite constant `k * a`. */
  function Scale(k: real, a: Cell): Cell
  {
    match a
    case Val(x) => Val(k * x)
    case Missing => Missing
    case PosInf => if k > 0.0 then PosInf else if k < 0.0 then NegInf else Missing
    case NegInf => if k > 0.0 then NegInf else if k < 0.0 then PosInf else Missing
  }

  /** IEEE division `a / b`; a zero divisor gives an infinity or, for 0/0, NaN.
      There is no signed zero: every zero divisor is taken as +0. */
  function Div(a: Cell, b: Cell): (r: Cell)
    ensures a.Val? && b.Val? && b.v != 0.0 ==> r == Val(a.v / b.v)
    ensures a.Missing? || b.Missing? ==> r.Missing?
  {
    match (a, b)
    case (Missing, _) => Missing
    case (_, Missing) => Missing
    case (Val(x), Val(y)) =>
      if y != 0.0 then Val(x / y)
      else if x > 0.0 then PosInf
      else if x < 0.0 then NegInf
      else Missing
    case (Val(_), _) => Val(0.0)
    case (PosInf, Val(y)) => if y >= 0.0 then PosInf else NegInf
    case (NegInf, Val(y)) => if y >= 0.0 then NegInf else PosInf
    case (_, _) => Missing
  }

  /** The order on present cells: -inf < every finite value < +inf. */
  predicate Le(a: Cell, b: Cell)
    requires Present(a) && Present(b)
  {
    match (a, b)
    case (NegInf, _) => true
    case (_, PosInf) => true
    case (Val(x), Val(y)) => x <= y
    case (_, _) => false
  }

  /** Python's `a > b` on floats: false whenever either side is NaN. */
  predicate Greater(a: Cell, b: Cell)
  {
    Present(a) && Present(b) && !Le(a, b)
  }

  /** Python's `a <= b` on floats: false whenever either side is NaN. */
  predicate AtMost(a: Cell, b: Cell)
  {
    Present(a) && Present(b) && Le(a, b)
  }

  lemma LeTotal(a: Cell, b: Cell)
    requires Present(a) && Present(b)
    ensures Le(a, b) || Le(b, a)
  {
  }

  lemma LeTrans(a: Cell, b: Cell, c: Cell)
    requires Present(a) && Present(b) && Present(c)
    requires Le(a, b) && Le(b, c)
    ensures Le(a, c)
  {
  }

  function MinCell(a: Cell, b: Cell): (r: Cell)
    requires Present(a) && Present(b)
    ensures Present(r) && Le(r, a) && Le(r, b) && (r == a || r == b)
  {
    if Le(a, b) then a else b
  }

  function MaxCell(a: Cell, b: Cell): (r: Cell)
    requires Present(a) && Present(b)
    ensures Present(r) && Le(a, r) && Le(b, r) && (r == a || r == b)
  {
    if Le(a, b) then b else a
  }

  predicate AllPresent(s: seq<Cell>)
  {
    forall i :: 0 <= i < |s| ==> Present(s[i])
  }

  /** Every cell is a finite value: no NaN and no infinity. */
  predicate AllFinite(s: seq<Cell>)
  {
    forall i :: 0 <= i < |s| ==> s[i].Val?
  }

  /** Smallest element of a non-empty run of present cells. */
  function SeqMin(s: seq<Cell>): (r: Cell)
    requires |s| > 0 && AllPresent(s)
    ensures Present(r) && r in s
    ensures forall i :: 0 <= i < |s| ==> Le(r, s[i])
  {
    if |s| == 1 then s[0]
    else
      var m := SeqMin(s[..|s| - 1]);
      assert forall i :: 0 <= i < |s| - 1 ==> s[..|s| - 1][i] == s[i];
      MinCell(m, s[|s| - 1])
  }

  /** Largest element of a non-empty run of present cells. */
  function SeqMax(s: seq<Cell>): (r: Cell)
    requires |s| > 0 && AllPresent(s)
    ensures Present(r) && r in s
    ensures forall i :: 0 <= i < |s| ==> Le(s[i], r)
  {
    if |s| == 1 then s[0]
    else
      var m := SeqMax(s[..|s| - 1]);
      assert forall i :: 0 <= i < |s| - 1 ==> s[..|s| - 1][i] == s[i];
      MaxCell(m, s[|s| - 1])
  }

  /** Sum of present cells with IEEE rules for the infinities. */
  function SumCells(s: seq<Cell>): Cell
  {
    if s == [] then Val(0.0) else Add(SumCells(s[..|s| - 1]), s[|s| - 1])
  }

  /** `s.dropna()`: the present cells, in order. */
  function PresentOnly(s: seq<Cell>): (r: seq<Cell>)
    ensures AllPresent(r) && |r| <= |s|
  {
    if s == [] then []
    else PresentOnly(s[..|s| - 1]) + (if Present(s[|s| - 1]) then [s[|s| - 1]] else [])
  }

  lemma {:induction false} PresentOnlyMembers(s: seq<Cell>, c: Cell)
    ensures c in PresentOnly(s) <==> c in s && Present(c)
  {
    if s != [] {
      PresentOnlyMembers(s[..|s| - 1], c);
      assert s == s[..|s| - 1] + [s[|s| - 1]];
    }
  }

  /** pandas `mean(axis=1)` across a row: missing values are skipped; a row with
      nothing present gives NaN. */
  function RowMean(s: seq<Cell>): (r: Cell)
    ensures PresentOnly(s) == [] ==> r.Missing?
  {
    var p := PresentOnly(s);
    if p == [] then Missing else Scale(1.0 / (|p| as real), SumCells(p))
  }

  /** `s.shift(p)`: row i holds row i - p where there is such a row and is
      missing elsewhere, that is in the first p rows for p >= 0 and in the
      last -p rows for p < 0. */
  function Shift(s: seq<Cell>, p: int): (r: seq<Cell>)
    ensures |r| == |s|
    ensures forall i :: 0 <= i < |s| ==> r[i] == if 0 <= i - p < |s| then s[i - p] else Missing
  {
    seq(|s|, i requires 0 <= i < |s| => if 0 <= i - p < |s| then s[i - p] else Missing)
  }

  function Missings(n: nat): (r: seq<Cell>)
    ensures |r| == n && forall i :: 0 <= i < n ==> r[i].Missing?
  {
    seq(n, i => Missing)
  }

  /** `s.rolling(w, min_periods=w).max()`: row i covers rows i-w+1..i. pandas
      reads an infinity in the window as NaN, so the row is missing until the
      window is full and while it holds a missing value or an infinity. */
  function RollingMax(s: seq<Cell>, w: nat): (r: seq<Cell>)
    requires w >= 1
    ensures |r| == |s|
    ensures forall i :: 0 <= i < |s| ==>
      r[i] == if i + 1 < w || !AllFinite(s[i + 1 - w..i + 1]) then Missing else SeqMax(s[i + 1 - w..i + 1])
  {
    seq(|s|, i requires 0 <= i < |s| =>
      if i + 1 < w || !AllFinite(s[i + 1 - w..i + 1]) then Missing else SeqMax(s[i + 1 - w..i + 1]))
  }

  /** `s.rolling(w, min_periods=w).min()`. */
  function RollingMin(s: seq<Cell>, w: nat): (r: seq<Cell>)
    requires w >= 1
    ensures |r| == |s|
    ensures forall i :: 0 <= i < |s| ==>
      r[i] == if i + 1 < w || !AllFinite(s[i + 1 - w..i + 1]) then Missing else SeqMin(s[i + 1 - w..i + 1])
  {
    seq(|s|, i requires 0 <= i < |s| =>
      if i + 1 < w || !AllFinite(s[i + 1 - w..i + 1]) then Missing else SeqMin(s[i + 1 - w..i + 1]))
  }

  /** Over the same window the rolling minimum never exceeds the rolling
      maximum, and neither is ever an infinity. */
  lemma RollingMinLeMax(s: seq<Cell>, w: nat, i: nat)
    requires w >= 1 && i < |s|
    ensures var lo := RollingMin(s, w)[i]; var hi := RollingMax(s, w)[i];
      (lo.Missing? <==> hi.Missing?) && (Present(lo) ==> lo.Val? && hi.Val? && Le(lo, hi))
  {
    if i + 1 >= w && AllFinite(s[i + 1 - w..i + 1]) {
      var win := s[i + 1 - w..i + 1];
      LeTrans(SeqMin(win), win[0], SeqMax(win));
    }
  }

  /** `a - b` row by row. */
  function SubCols(a: seq<Cell>, b: seq<Cell>): (r: seq<Cell>)
    requires |a| == |b|
    ensures |r| == |a| && forall i :: 0 <= i < |a| ==> r[i] == Sub(a[i], b[i])
  {
    seq(|a|, i requires 0 <= i < |a| => Sub(a[i], b[i]))
  }
}

=== FILE: denoise.dfy ===
/** `denoise_dataframe`: each selected numeric column is smoothed on its
    present cells (the `dropna()` series) and written back, aligned on the rows
    it came from, under `denoised_<column>` or under its own name. The
    smoothers themselves (pywt, pykalman, pyssa, PyEMD or a caller's function)
    are parameters. */
module Denoise {
  import opened Wrappers
  import opened Cells
  import opened Frames

  /** A smoother maps the present cells of a column to one value per cell. */
  type Smoother = seq<Cell> -> seq<Cell>

  /** The third-party back ends, as `wavelet_denoising`, `kalman_denoising`,
      `ssa_denoising` and `emd_denoising` call them. */
  datatype Backends = Backends(
    wavedec: (seq<Cell>, string, int) -> seq<seq<Cell>>,
    waverec: (seq<seq<Cell>>, string) -> seq<Cell>,
    kalman: (seq<Cell>, map<string, real>) -> seq<Cell>,
    ssa: (seq<Cell>, int, int) -> seq<Cell>,
    emd: (seq<Cell>, int) -> seq<Cell>)

  /** The keyword arguments of `denoise_dataframe`. */
  datatype DenoiseConfig = DenoiseConfig(
    func: Option<Smoother>, methodName: string, wavelet: string, level: int,
    kalmanParams: map<string, real>, ssaParams: map<string, int>, emdParams: map<string, int>,
    applyColumns: seq<string>, preserveColNames: bool)

  datatype DenoiseError =
    | UnsupportedMethod(methodName: string)   // the ValueError for an unknown method
    | NoSuchColumn(column: string)            // `df[column]` on a listed column that is absent
    | LengthMismatch(column: string)          // the smoother's output does not fit its input

  /** `d.get(key, default)`. */
  function Get(d: map<string, int>, key: string, default: int): int
  {
    if key in d then d[key] else default
  }

  function Zeros(n: nat): (r: seq<Cell>)
    ensures |r| == n && forall i :: 0 <= i < n ==> r[i] == Val(0.0)
  {
    seq(n, i => Val(0.0))
  }

  /** `coeff[1:] = [np.zeros_like(c) for c in coeff[1:]]`. */
  function ZeroDetails(coeff: seq<seq<Cell>>): (r: seq<seq<Cell>>)
    ensures |r| == |coeff|
    ensures |coeff| > 0 ==> r[0] == coeff[0]
    ensures forall k :: 1 <= k < |coeff| ==> |r[k]| == |coeff[k]| && forall i :: 0 <= i < |r[k]| ==> r[k][i] == Val(0.0)
  {
    seq(|coeff|, k requires 0 <= k < |coeff| => if k == 0 then coeff[0] else Zeros(|coeff[k]|))
  }

  /** `wavelet_denoising`: keep the approximation band, zero every detail band,
      reconstruct and cut to the input's length. */
  function WaveletDenoise(b: Backends, data: seq<Cell>, wavelet: string, level: int): (r: seq<Cell>)
    ensures |r| <= |data|
    ensures r <= b.waverec(ZeroDetails(b.wavedec(data, wavelet, level)), wavelet)
  {
    var rec := b.waverec(ZeroDetails(b.wavedec(data, wavelet, level)), wavelet);
    if |rec| <= |data| then rec else rec[..|data|]
  }

  /** The smoothed values of one column's present cells; `None` for a method
      that is neither a custom function nor one of the four known names. */
  function Denoised(cfg: DenoiseConfig, b: Backends, data: seq<Cell>): Option<seq<Cell>>
  {
    if cfg.func.Some? then Some(cfg.func.value(data))
    else if cfg.methodName == "wavelet" then Some(WaveletDenoise(b, data, cfg.wavelet, cfg.level))
    else if cfg.methodName == "kalman" then Some(b.kalman(data, cfg.kalmanParams))
    else if cfg.methodName == "ssa" then
      Some(b.ssa(data, Get(cfg.ssaParams, "window_length", 20), Get(cfg.ssaParams, "n_components", 5)))
    else if cfg.methodName == "emd" then Some(b.emd(data, Get(cfg.emdParams, "n_imfs_to_remove", 1)))
    else None
  }

  /** A custom function takes precedence: with one, the method name is never read. */
  lemma CustomTakesPrecedence(cfg: DenoiseConfig, b: Backends, data: seq<Cell>, other: string)
    requires cfg.func.Some?
    ensures Denoised(cfg, b, data) == Denoised(cfg.(methodName := other), b, data) == Some(cfg.func.value(data))
  {
  }

  /** Without a custom function, exactly the four names are accepted. */
  lemma KnownMethods(cfg: DenoiseConfig, b: Backends, data: seq<Cell>)
    requires cfg.func.None?
    ensures Denoised(cfg, b, data).Some? <==> cfg.methodName in {"wavelet", "kalman", "ssa", "emd"}
  {
  }

  /** The `dropna()` series written back by index: the k-th present cell of col
      receives vals[k]; the rows that were missing stay missing. */
  function Scatter(col: seq<Cell>, vals: seq<Cell>): (r: seq<Cell>)
    requires |vals| == |PresentOnly(col)|
    ensures |r| == |col|
  {
    if col == [] then []
    else
      var init := col[..|col| - 1];
      if Present(col[|col| - 1]) then Scatter(init, vals[..|vals| - 1]) + [vals[|vals| - 1]]
      else Scatter(init, vals) + [Missing]
  }

  /** Writing a column's own present cells back gives the column again. */
  lemma {:induction false} ScatterPresentOnly(col: seq<Cell>)
    ensures Scatter(col, PresentOnly(col)) == col
  {
    if col != [] {
      var init := col[..|col| - 1];
      var last := col[|col| - 1];
      var p := PresentOnly(col);
      ScatterPresentOnly(init);
      if Present(last) {
        assert p == PresentOnly(init) + [last];
        assert p[..|p| - 1] == PresentOnly(init);
        assert Scatter(col, p) == init + [last];
      } else {
        assert p == PresentOnly(init);
        assert Scatter(col, p) == init + [Missing];
      }
      SplitLast(col);
    }
  }

  /** And the present cells of a scattered column are the values written,
      provided none of them is missing. */
  lemma {:induction false} PresentOnlyScatter(col: seq<Cell>, vals: seq<Cell>)
    requires |vals| == |PresentOnly(col)| && AllPresent(vals)
    ensures PresentOnly(Scatter(col, vals)) == vals
  {
    if col != [] {
      var init := col[..|col| - 1];
      var r := Scatter(col, vals);
      if Present(col[|col| - 1]) {
        var front := vals[..|vals| - 1];
        var last := vals[|vals| - 1];
        PresentOnlyScatter(init, front);
        assert r == Scatter(init, front) + [last];
        assert r[..|r| - 1] == Scatter(init, front);
        assert PresentOnly(r) == PresentOnly(Scatter(init, front)) + [last];
        SplitLast(vals);
      } else {
        PresentOnlyScatter(init, vals);
        assert r == Scatter(init, vals) + [Missing];
        assert r[..|r| - 1] == Scatter(init, vals);
        assert PresentOnly(r) == PresentOnly(Scatter(init, vals));
      }
    }
  }

  /** A missing row stays missing whatever the smoother returns. */
  lemma {:induction false} ScatterKeepsGaps(col: seq<Cell>, vals: seq<Cell>, i: nat)
    requires |vals| == |PresentOnly(col)| && i < |col| && !Present(col[i])
    ensures Scatter(col, vals)[i] == Missing
  {
    var init := col[..|col| - 1];
    if i < |col| - 1 {
      if Present(col[|col| - 1]) {
        ScatterKeepsGaps(init, vals[..|vals| - 1], i);
      } else {
        ScatterKeepsGaps(init, vals, i);
      }
    }
  }

  function OutName(column: string, preserve: bool): string
  {
    if preserve then column else "denoised_" + column
  }

  /** One turn of the loop over the selected columns. */
  function DenoiseOne(t: Table, cfg: DenoiseConfig, b: Backends, column: string): (r: Result<Table, DenoiseError>)
    requires t.Valid()
    ensures r.Ok? ==> r.value.Valid() && r.value.index == t.index && t.cols.Keys <= r.value.cols.Keys
  {
    if column !in t.cols then Err(NoSuchColumn(column))
    else if !t.Numeric(column) then Ok(t)
    else
      var data := PresentOnly(t.cols[column]);
      match Denoised(cfg, b, data)
      case None => Err(UnsupportedMethod(cfg.methodName))
      case Some(out) =>
        if |out| != |data| then Err(LengthMismatch(column))
        else Ok(Assign(t, OutName(column, cfg.preserveColNames), Scatter(t.cols[column], out), true))
  }

  /** The loop over `columns`, stopping at the first error. */
  function DenoiseAll(t: Table, columns: seq<string>, cfg: DenoiseConfig, b: Backends): (r: Result<Table, DenoiseError>)
    requires t.Valid()
    ensures r.Ok? ==> r.value.Valid() && r.value.index == t.index && t.cols.Keys <= r.value.cols.Keys
  {
    if columns == [] then Ok(t)
    else
      match DenoiseAll(t, columns[..|columns| - 1], cfg, b)
      case Err(e) => Err(e)
      case Ok(t') => DenoiseOne(t', cfg, b, columns[|columns| - 1])
  }

  /** The columns visited: `apply_columns`, or every column when it is empty. */
  function Visited(t: Table, cfg: DenoiseConfig): seq<string>
  {
    if cfg.applyColumns == [] then t.names else cfg.applyColumns
  }

  function DenoiseFrame(t: Table, cfg: DenoiseConfig, b: Backends): (r: Result<Table, DenoiseError>)
    requires t.Valid()
    ensures r.Ok? ==> r.value.Valid() && r.value.index == t.index && t.cols.Keys <= r.value.cols.Keys
  {
    DenoiseAll(t, Visited(t, cfg), cfg, b)
  }

  /** Once a turn raises, the call raises that error. */
  lemma {:induction false} DenoiseStops(t: Table, columns: seq<string>, cfg: DenoiseConfig, b: Backends, k: nat)
    requires t.Valid() && k <= |columns| && DenoiseAll(t, columns[..k], cfg, b).Err?
    ensures DenoiseAll(t, columns, cfg, b) == DenoiseAll(t, columns[..k], cfg, b)
    decreases |columns|
  {
    if k < |columns| {
      var init := columns[..|columns| - 1];
      assert init[..k] == columns[..k];
      DenoiseStops(t, init, cfg, b, k);
    } else {
      assert columns[..k] == columns;
    }
  }

  /** With an unknown method and no custom function, the call fails exactly
      when some visited column is numeric, and otherwise changes nothing. */
  lemma {:induction false} UnknownMethodFails(t: Table, columns: seq<string>, cfg: DenoiseConfig, b: Backends)
    requires t.Valid() && cfg.func.None? && cfg.methodName !in {"wavelet", "kalman", "ssa", "emd"}
    requires forall k :: 0 <= k < |columns| ==> columns[k] in t.cols
    ensures DenoiseAll(t, columns, cfg, b) ==
      if exists k :: 0 <= k < |columns| && t.Numeric(columns[k]) then Err(UnsupportedMethod(cfg.methodName)) else Ok(t)
  {
    if columns != [] {
      var init := columns[..|columns| - 1];
      var c := columns[|columns| - 1];
      UnknownMethodFails(t, init, cfg, b);
      assert forall k :: 0 <= k < |init| ==> init[k] == columns[k];
      if !t.Numeric(c) {
        assert (exists k :: 0 <= k < |columns| && t.Numeric(columns[k])) ==>
               (exists k :: 0 <= k < |init| && t.Numeric(init[k]));
      }
    }
  }

  lemma UnknownMethodFrame(t: Table, cfg: DenoiseConfig, b: Backends)
    requires t.Valid() && cfg.func.None? && cfg.methodName !in {"wavelet", "kalman", "ssa", "emd"}
    requires cfg.applyColumns == []
    ensures DenoiseFrame(t, cfg, b) ==
      if exists c :: c in t.names && t.Numeric(c) then Err(UnsupportedMethod(cfg.methodName)) else Ok(t)
  {
    UnknownMethodFails(t, t.names, cfg, b);
    if exists c :: c in t.names && t.Numeric(c) {
      var c :| c in t.names && t.Numeric(c);
      var k :| 0 <= k < |t.names| && t.names[k] == c;
    }
  }

  /** Smoothing every column with the identity function in place of the
      original names gives back the frame unchanged. */
  lemma {:induction false} IdentityChangesNothing(t: Table, columns: seq<string>, cfg: DenoiseConfig, b: Backends)
    requires t.Valid() && cfg.preserveColNames
    requires cfg.func.Some? && forall s :: cfg.func.value(s) == s
    requires forall k :: 0 <= k < |columns| ==> columns[k] in t.cols
    ensures DenoiseAll(t, columns, cfg, b) == Ok(t)
  {
    if columns != [] {
      var init := columns[..|columns| - 1];
      IdentityChangesNothing(t, init, cfg, b);
      var c := columns[|columns| - 1];
      if t.Numeric(c) {
        var data := PresentOnly(t.cols[c]);
        assert cfg.func.value(data) == data;
        ScatterPresentOnly(t.cols[c]);
        var r := Assign(t, c, Scatter(t.cols[c], data), true);
        assert r.cols == t.cols;
        assert r.objects == t.objects;
        assert r == t;
      }
    }
  }

  /** An original column x is still there, unchanged, with its dtype. */
  ghost predicate KeepsColumn(t: Table, r: Table, x: string)
    requires x in t.cols
  {
    x in r.cols && r.cols[x] == t.cols[x] && (r.Numeric(x) <==> t.Numeric(x))
  }

  /** `denoised_<c>` holds c's smoothed present cells on their own rows. */
  ghost predicate WroteColumn(t: Table, r: Table, c: string, cfg: DenoiseConfig, b: Backends)
  {
    c in t.cols &&
    var data := PresentOnly(t.cols[c]);
    var out := Denoised(cfg, b, data);
    out.Some? && |out.value| == |data| &&
    OutName(c, false) in r.cols &&
    r.cols[OutName(c, false)] == Scatter(t.cols[c], out.value)
  }

  /** What the whole call writes: every original column is untouched, and every
      visited numeric column c has `denoised_<c>`. */
  ghost predicate Written(t: Table, r: Table, columns: seq<string>, cfg: DenoiseConfig, b: Backends)
  {
    (forall x :: x in t.cols ==> KeepsColumn(t, r, x)) &&
    (forall k :: 0 <= k < |columns| && t.Numeric(columns[k]) ==> WroteColumn(t, r, columns[k], cfg, b))
  }

  ghost predicate NoDenoisedColumns(t: Table)
  {
    forall x :: x in t.cols ==> OutName(x, false) !in t.cols
  }

  lemma OutNameInjective(a: string, c: string)
    requires a != c
    ensures OutName(a, false) != OutName(c, false)
  {
    assert OutName(a, false)[9..] == a;
    assert OutName(c, false)[9..] == c;
  }

  /** One turn of the loop, on a frame m reached from t, keeps what was
      already written and writes its own column. */
  lemma DenoiseOneWrites(t: Table, m: Table, c: string, cfg: DenoiseConfig, b: Backends)
    requires m.Valid() && !cfg.preserveColNames && NoDenoisedColumns(t) && c in t.cols
    requires forall x :: x in t.cols ==> KeepsColumn(t, m, x)
    requires DenoiseOne(m, cfg, b, c).Ok?
    ensures var r := DenoiseOne(m, cfg, b, c).value;
      (forall x :: x in t.cols ==> KeepsColumn(t, r, x)) &&
      (forall a :: WroteColumn(t, m, a, cfg, b) ==> WroteColumn(t, r, a, cfg, b)) &&
      (t.Numeric(c) ==> WroteColumn(t, r, c, cfg, b))
  {
    assert KeepsColumn(t, m, c);
    if m.Numeric(c) {
      var d := OutName(c, false);
      var r := DenoiseOne(m, cfg, b, c).value;
      assert d !in t.cols;
      forall x | x in t.cols ensures KeepsColumn(t, r, x) {
        assert KeepsColumn(t, m, x);
      }
      forall a | WroteColumn(t, m, a, cfg, b) ensures WroteColumn(t, r, a, cfg, b) {
        if a != c {
          OutNameInjective(a, c);
        }
      }
    }
  }

  lemma {:induction false} DenoiseWrites(t: Table, columns: seq<string>, cfg: DenoiseConfig, b: Backends)
    requires t.Valid() && !cfg.preserveColNames && NoDenoisedColumns(t)
    requires forall k :: 0 <= k < |columns| ==> columns[k] in t.cols
    requires DenoiseAll(t, columns, cfg, b).Ok?
    ensures Written(t, DenoiseAll(t, columns, cfg, b).value, columns, cfg, b)
  {
    if columns == [] {
      forall x | x in t.cols ensures KeepsColumn(t, t, x) { }
    } else {
      var init := columns[..|columns| - 1];
      var c := columns[|columns| - 1];
      var mid := DenoiseAll(t, init, cfg, b);
      assert mid.Ok?;
      DenoiseWrites(t, init, cfg, b);
      var m := mid.value;
      DenoiseOneWrites(t, m, c, cfg, b);
      assert DenoiseAll(t, columns, cfg, b) == DenoiseOne(m, cfg, b, c);
      WrittenSnoc(t, m, DenoiseOne(m, cfg, b, c).value, columns, cfg, b);
    }
  }

  /** What one more turn keeps and writes extends what the earlier turns wrote. */
  lemma WrittenSnoc(t: Table, m: Table, r: Table, columns: seq<string>, cfg: DenoiseConfig, b: Backends)
    requires columns != [] && Written(t, m, columns[..|columns| - 1], cfg, b)
    requires forall x :: x in t.cols ==> KeepsColumn(t, r, x)
    requires forall a :: WroteColumn(t, m, a, cfg, b) ==> WroteColumn(t, r, a, cfg, b)
    requires t.Numeric(columns[|columns| - 1]) ==> WroteColumn(t, r, columns[|columns| - 1], cfg, b)
    ensures Written(t, r, columns, cfg, b)
  {
    var init := columns[..|columns| - 1];
    forall k | 0 <= k < |columns| && t.Numeric(columns[k]) ensures WroteColumn(t, r, columns[k], cfg, b) {
      if k < |init| {
        assert columns[k] == init[k];
        assert WroteColumn(t, m, init[k], cfg, b);
      }
    }
  }

  /** One more column: the loop goes on from where it stood. */
  lemma DenoiseAllSnoc(t: Table, columns: seq<string>, cfg: DenoiseConfig, b: Backends, k: nat)
    requires t.Valid() && k < |columns|
    ensures var before := DenoiseAll(t, columns[..k], cfg, b);
      DenoiseAll(t, columns[..k + 1], cfg, b) == if before.Err? then before else DenoiseOne(before.value, cfg, b, columns[k])
  {
    TakeTake(columns, k);
  }

  /** One turn of the loop, on df in place. */
  method DenoiseColumn(df: Frame, cfg: DenoiseConfig, b: Backends, column: string) returns (err: Option<DenoiseError>)
    requires df.Valid()
    modifies df
    ensures DenoiseOne(old(df.Contents()), cfg, b, column) == if err.None? then Ok(df.Contents()) else Err(err.value)
  {
    if column !in df.cols {
      return Some(NoSuchColumn(column));
    }
    if column !in df.objects {
      var data := PresentOnly(df.cols[column]);
      var out := Denoised(cfg, b, data);
      if out.None? {
        return Some(UnsupportedMethod(cfg.methodName));
      }
      if |out.value| != |data| {
        return Some(LengthMismatch(column));
      }
      df.Set(OutName(column, cfg.preserveColNames), Scatter(df.cols[column], out.value), true);
    }
    err := None;
  }

  /** `denoise_dataframe(df, ...)`, updating df in place; an exception leaves
      the columns written so far. */
  method DenoiseDataframe(df: Frame, cfg: DenoiseConfig, b: Backends) returns (err: Option<DenoiseError>)
    requires df.Valid()
    modifies df
    ensures DenoiseFrame(old(df.Contents()), cfg, b) == if err.None? then Ok(df.Contents()) else Err(err.value)
  {
    ghost var t0 := df.Contents();
    var columns := Visited(df.Contents(), cfg);
    var k := 0;
    while k < |columns|
      invariant 0 <= k <= |columns|
      invariant DenoiseAll(t0, columns[..k], cfg, b) == Ok(df.Contents())
    {
      DenoiseAllSnoc(t0, columns, cfg, b, k);
      err := DenoiseColumn(df, cfg, b, columns[k]);
      if err.Some? {
        DenoiseStops(t0, columns, cfg, b, k + 1);
        return;
      }
      k := k + 1;
    }
    assert columns[..k] == columns;
    err := None;
  }
}

=== FILE: features.dfy ===
/** The whole-column stages of `fetch` that need no loop of their own: the
    opening gap, filling the empty bars of the time grid, the price summaries,
    the calendar columns, dropping the rows with a missing or infinite value,
    and dropping the columns the caller names. */
module Features {
  import opened Wrappers
  import opened Cells
  import opened Frames

  /** `s.fillna(value=v)`: missing cells become v; infinities stay. */
  function FillNa(s: seq<Cell>, v: real): (r: seq<Cell>)
    ensures |r| == |s| && AllPresent(r)
    ensures forall i :: 0 <= i < |s| && Present(s[i]) ==> r[i] == s[i]
    ensures forall i :: 0 <= i < |s| && s[i].Missing? ==> r[i] == Val(v)
  {
    seq(|s|, i requires 0 <= i < |s| => if s[i].Missing? then Val(v) else s[i])
  }

  // ---------------------------------------------------------------------------
  // gap

  /** `rf['open'] - rf['close'].shift(1)`, then `fillna(value=0)`. */
  function GapColumn(open: seq<Cell>, close: seq<Cell>): (r: seq<Cell>)
    requires |open| == |close|
    ensures |r| == |open|
  {
    FillNa(SubCols(open, Shift(close, 1)), 0.0)
  }

  /** The gap is never missing; on the first bar, or where either price is
      missing, it is 0; elsewhere the previous close plus the gap is the open. */
  lemma GapCloses(open: seq<Cell>, close: seq<Cell>, i: nat)
    requires |open| == |close| && i < |open|
    ensures Present(GapColumn(open, close)[i])
    ensures i == 0 || open[i].Missing? || close[i - 1].Missing? ==> GapColumn(open, close)[i] == Val(0.0)
    ensures i > 0 && open[i].Val? && close[i - 1].Val? ==> Add(close[i - 1], GapColumn(open, close)[i]) == open[i]
  {
  }

  function AddGap(t: Table): (r: Table)
    requires t.Valid() && HasBars(t)
    ensures r.Valid() && HasBars(r) && r.index == t.index
  {
    BarsPresent(t);
    Assign(t, "gap", GapColumn(t.cols["open"], t.cols["close"]), true)
  }

  // ---------------------------------------------------------------------------
  // fill_empty_ranges

  /** The position of timestamp g in an index, if it is there. */
  function IndexOf(index: seq<int>, g: int): (r: Option<nat>)
    ensures r.Some? ==> r.value < |index| && index[r.value] == g
    ensures r.None? ==> g !in index
  {
    if index == [] then None
    else if index[|index| - 1] == g then Some(|index| - 1)
    else
      var r := IndexOf(index[..|index| - 1], g);
      assert index == index[..|index| - 1] + [index[|index| - 1]];
      r
  }

  /** `col.reindex(grid)`: the cell of the row stamped grid[k], or missing for
      a timestamp the index does not hold. */
  function Reindex(col: seq<Cell>, index: seq<int>, grid: seq<int>): (r: seq<Cell>)
    requires |col| == |index|
    ensures |r| == |grid|
  {
    seq(|grid|, k requires 0 <= k < |grid| =>
      match IndexOf(index, grid[k])
      case Some(j) => col[j]
      case None => Missing)
  }

  /** `s.fillna(method='ffill')`: a missing cell takes the last present cell
      above it; leading missing cells stay missing. */
  function FFill(s: seq<Cell>): (r: seq<Cell>)
    ensures |r| == |s|
  {
    if s == [] then []
    else
      var f := FFill(s[..|s| - 1]);
      var last := s[|s| - 1];
      f + [if Present(last) || f == [] then last else f[|f| - 1]]
  }

  /** Row by row, a present cell is kept and a missing one copies the row above. */
  lemma {:induction false} FFillAt(s: seq<Cell>, i: nat)
    requires i < |s|
    ensures FFill(s)[i] == if Present(s[i]) || i == 0 then s[i] else FFill(s)[i - 1]
  {
    if i < |s| - 1 {
      FFillAt(s[..|s| - 1], i);
      assert FFill(s)[..|s| - 1] == FFill(s[..|s| - 1]);
    }
  }

  /** A filled cell is missing exactly when nothing at or above it is present;
      otherwise it is the nearest present cell at or above it. */
  lemma {:induction false} FFillFrom(s: seq<Cell>, i: nat)
    requires i < |s|
    ensures !Present(FFill(s)[i]) <==> forall k :: 0 <= k <= i ==> !Present(s[k])
    ensures Present(FFill(s)[i]) ==>
      exists j :: 0 <= j <= i && FFill(s)[i] == s[j] && Present(s[j]) &&
        forall k :: j < k <= i ==> !Present(s[k])
  {
    FFillAt(s, i);
    if i > 0 && !Present(s[i]) {
      FFillFrom(s, i - 1);
    }
  }

  /** `rf.reindex(grid)`: every column onto the grid; the dtypes are kept. */
  function ReindexAll(t: Table, grid: seq<int>): (r: Table)
    requires t.Valid() && Increasing(grid)
    ensures r.Valid() && r.index == grid && r.names == t.names && r.objects == t.objects
    ensures forall c :: c in r.cols <==> c in t.cols
    ensures forall c :: c in t.cols ==> r.cols[c] == Reindex(t.cols[c], t.index, grid)
  {
    Table(grid, t.names, map c | c in t.cols :: Reindex(t.cols[c], t.index, grid), t.objects)
  }

  /** `rf.fillna(method='ffill', inplace=True)`: every column forward-filled. */
  function FFillAll(t: Table): (r: Table)
    ensures t.Valid() ==> r.Valid()
    ensures r.index == t.index && r.names == t.names && r.objects == t.objects
    ensures forall c :: c in r.cols <==> c in t.cols
    ensures forall c :: c in t.cols ==> r.cols[c] == FFill(t.cols[c])
  {
    Table(t.index, t.names, map c | c in t.cols :: FFill(t.cols[c]), t.objects)
  }

  /** The `fill_empty_ranges` stage on the grid `period_range` gives: reindex,
      volume of the inserted bars 0, then forward fill. */
  function FillEmptyRanges(t: Table, grid: seq<int>): (r: Table)
    requires t.Valid() && HasBars(t) && Increasing(grid)
    ensures r.Valid() && HasBars(r) && r.index == grid
  {
    BarsPresent(t);
    var re := ReindexAll(t, grid);
    FFillAll(Assign(re, "volume", FillNa(re.cols["volume"], 0.0), true))
  }

  /** What a column holds just before the forward fill. */
  function BeforeFill(t: Table, grid: seq<int>, c: string): (r: seq<Cell>)
    requires t.Valid() && c in t.cols
    ensures |r| == |grid|
  {
    var re := Reindex(t.cols[c], t.index, grid);
    if c == "volume" then FillNa(re, 0.0) else re
  }

  lemma FillEmptyRangesCols(t: Table, grid: seq<int>, c: string)
    requires t.Valid() && HasBars(t) && Increasing(grid) && c in t.cols
    ensures var r := FillEmptyRanges(t, grid);
      r.index == grid && r.names == t.names && c in r.cols && r.cols[c] == FFill(BeforeFill(t, grid, c))
  {
    BarsPresent(t);
  }

  /** Reindexing puts a bar's own cell on its grid row. */
  lemma ReindexHit(col: seq<Cell>, index: seq<int>, grid: seq<int>, j: nat, k: nat)
    requires |col| == |index| && Increasing(index)
    requires j < |index| && k < |grid| && index[j] == grid[k]
    ensures Reindex(col, index, grid)[k] == col[j]
  {
    assert IndexOf(index, grid[k]).Some?;
  }

  /** After the fill the frame is the grid, and a bar that was there keeps its
      present cells. */
  lemma FilledKeepsBars(t: Table, grid: seq<int>, c: string, j: nat, k: nat)
    requires t.Valid() && HasBars(t) && Increasing(grid) && c in t.cols
    requires j < t.Rows() && k < |grid| && t.index[j] == grid[k] && Present(t.cols[c][j])
    ensures var r := FillEmptyRanges(t, grid);
      r.index == grid && r.names == t.names && c in r.cols && r.cols[c][k] == t.cols[c][j]
  {
    FillEmptyRangesCols(t, grid, c);
    ReindexHit(t.cols[c], t.index, grid, j, k);
    FFillAt(BeforeFill(t, grid, c), k);
  }

  /** Volume is never left missing, and an inserted bar trades nothing. */
  lemma FilledVolume(t: Table, grid: seq<int>, k: nat)
    requires t.Valid() && HasBars(t) && Increasing(grid) && k < |grid|
    ensures var r := FillEmptyRanges(t, grid);
      "volume" in r.cols && Present(r.cols["volume"][k]) &&
      (grid[k] !in t.index ==> r.cols["volume"][k] == Val(0.0))
  {
    BarsPresent(t);
    FillEmptyRangesCols(t, grid, "volume");
    var b := BeforeFill(t, grid, "volume");
    FFillAt(b, k);
    FFillFrom(b, k);
  }

  /** Any other column is left missing on a grid row exactly when no row at or
      above it had that column present after the reindex. */
  lemma FilledGaps(t: Table, grid: seq<int>, c: string, k: nat)
    requires t.Valid() && HasBars(t) && Increasing(grid) && c in t.cols && c != "volume" && k < |grid|
    ensures var r := FillEmptyRanges(t, grid);
      c in r.cols &&
      (!Present(r.cols[c][k]) <==> forall m :: 0 <= m <= k ==> !Present(Reindex(t.cols[c], t.index, grid)[m]))
  {
    FillEmptyRangesCols(t, grid, c);
    FFillFrom(BeforeFill(t, grid, c), k);
  }

  // ---------------------------------------------------------------------------
  // price summaries

  /** `rf[cols].mean(axis=1)` over the given columns, row by row. */
  function MeanOf(cols: seq<seq<Cell>>, n: nat): (r: seq<Cell>)
    requires forall col :: col in cols ==> |col| == n
    ensures |r| == n
  {
    seq(n, i requires 0 <= i < n => RowMean(seq(|cols|, k requires 0 <= k < |cols| => cols[k][i])))
  }

  function PriceSummaries(t: Table): (r: Table)
    requires t.Valid() && HasBars(t)
    ensures r.Valid() && HasBars(r) && r.index == t.index
  {
    BarsPresent(t);
    var o, h, l, c := t.cols["open"], t.cols["high"], t.cols["low"], t.cols["close"];
    var t1 := Assign(t, "avgPrice", MeanOf([l, h], t.Rows()), true);
    var t2 := Assign(t1, "ohlcPrice", MeanOf([o, h, l, c], t.Rows()), true);
    var t3 := Assign(t2, "range", SubCols(h, l), true);
    Assign(t3, "momentum", SubCols(o, c), true)
  }

  lemma MeanOfTwo(a: Cell, b: Cell)
    ensures a.Val? && b.Val? ==> RowMean([a, b]) == Val((a.v + b.v) / 2.0)
    ensures a.Val? && b.Missing? ==> RowMean([a, b]) == a
    ensures a.Missing? && b.Val? ==> RowMean([a, b]) == b
    ensures a.Missing? && b.Missing? ==> RowMean([a, b]).Missing?
  {
    assert [a, b][..1] == [a];
    assert [a][..0] == [];
    assert PresentOnly([a]) == if Present(a) then [a] else [];
    assert PresentOnly([a, b]) == PresentOnly([a]) + if Present(b) then [b] else [];
    if a.Val? && b.Val? {
      assert SumCells([a, b]) == Val(a.v + b.v) by {
        assert SumCells([a]) == Val(a.v);
      }
    } else if a.Val? && b.Missing? {
      assert PresentOnly([a, b]) == [a];
      assert SumCells([a]) == Val(a.v);
    } else if a.Missing? && b.Val? {
      assert PresentOnly([a, b]) == [b];
      assert SumCells([b]) == Val(b.v) by {
        assert [b][..0] == [];
      }
    }
  }

  lemma MeanOfFour(a: Cell, b: Cell, c: Cell, d: Cell)
    requires a.Val? && b.Val? && c.Val? && d.Val?
    ensures RowMean([a, b, c, d]) == Val((a.v + b.v + c.v + d.v) / 4.0)
  {
    var s := [a, b, c, d];
    assert s[..3] == [a, b, c] && [a, b, c][..2] == [a, b] && [a, b][..1] == [a] && [a][..0] == [];
    assert PresentOnly([a]) == [a] && PresentOnly([a, b]) == [a, b];
    assert PresentOnly([a, b, c]) == [a, b, c];
    assert PresentOnly(s) == s;
    assert SumCells(s) == Val(a.v + b.v + c.v + d.v) by {
      assert SumCells([a]) == Val(a.v);
      assert SumCells([a, b]) == Val(a.v + b.v);
      assert SumCells([a, b, c]) == Val(a.v + b.v + c.v);
    }
  }

  /** The four columns the stage writes. */
  lemma PriceSummaryCols(t: Table)
    requires t.Valid() && HasBars(t)
    ensures var r := PriceSummaries(t);
      "open" in t.cols && "high" in t.cols && "low" in t.cols && "close" in t.cols &&
      var o, h, l, c := t.cols["open"], t.cols["high"], t.cols["low"], t.cols["close"];
      && r.cols == t.cols["avgPrice" := MeanOf([l, h], t.Rows())]["ohlcPrice" := MeanOf([o, h, l, c], t.Rows())]
                         ["range" := SubCols(h, l)]["momentum" := SubCols(o, c)]
  {
    BarsPresent(t);
  }

  /** Where low and high are finite, avgPrice is their midpoint and lies
      between them, range is their difference and avgPrice = low + range / 2;
      where one of them is missing, avgPrice is the other. */
  lemma AvgPriceRow(l: seq<Cell>, h: seq<Cell>, i: nat)
    requires |l| == |h| && i < |l|
    ensures var avg, range := MeanOf([l, h], |l|)[i], SubCols(h, l)[i];
      && (l[i].Val? && h[i].Val? ==>
           && avg == Val((l[i].v + h[i].v) / 2.0)
           && (l[i].v <= h[i].v ==> l[i].v <= avg.v <= h[i].v)
           && range == Val(h[i].v - l[i].v)
           && avg.v == l[i].v + range.v / 2.0)
      && (l[i].Val? && h[i].Missing? ==> avg == l[i])
      && (l[i].Missing? && h[i].Val? ==> avg == h[i])
      && (l[i].Missing? && h[i].Missing? ==> avg.Missing?)
  {
    assert MeanOf([l, h], |l|)[i] == RowMean([l[i], h[i]]) by {
      assert seq(2, k requires 0 <= k < 2 => [l, h][k][i]) == [l[i], h[i]];
    }
    MeanOfTwo(l[i], h[i]);
  }

  /** Where all four prices are finite, ohlcPrice is their mean and momentum
      is open - close. */
  lemma OhlcPriceRow(o: seq<Cell>, h: seq<Cell>, l: seq<Cell>, c: seq<Cell>, i: nat)
    requires |o| == |h| == |l| == |c| && i < |o|
    requires o[i].Val? && h[i].Val? && l[i].Val? && c[i].Val?
    ensures MeanOf([o, h, l, c], |o|)[i] == Val((o[i].v + h[i].v + l[i].v + c[i].v) / 4.0)
    ensures SubCols(o, c)[i] == Val(o[i].v - c[i].v)
  {
    assert MeanOf([o, h, l, c], |o|)[i] == RowMean([o[i], h[i], l[i], c[i]]) by {
      assert seq(4, k requires 0 <= k < 4 => [o, h, l, c][k][i]) == [o[i], h[i], l[i], c[i]];
    }
    MeanOfFour(o[i], h[i], l[i], c[i]);
  }

  /** The four assignments of `add_price_summaries`, in place. */
  method PriceSummariesInPlace(rf: Frame)
    requires rf.Valid() && HasBars(rf.Contents())
    modifies rf
    ensures rf.Contents() == PriceSummaries(old(rf.Contents()))
  {
    BarsPresent(rf.Contents());
    var o, h, l, c := rf.cols["open"], rf.cols["high"], rf.cols["low"], rf.cols["close"];
    var n := rf.Rows();
    rf.Set("avgPrice", MeanOf([l, h], n), true);
    rf.Set("ohlcPrice", MeanOf([o, h, l, c], n), true);
    rf.Set("range", SubCols(h, l), true);
    rf.Set("momentum", SubCols(o, c), true);
  }

  // ---------------------------------------------------------------------------
  // add_meta_dates

  /** The calendar fields pandas reads off a timestamp (`d.dt.minute` and so on). */
  datatype DateFields = DateFields(minute: int, hour: int, day: int, month: int, weekday: int, year: int)

  /** The field a date column holds. */
  function FieldOf(f: DateFields, name: string): int
  {
    if name == "minute" then f.minute
    else if name == "hour" then f.hour
    else if name == "day" then f.day
    else if name == "month" then f.month
    else if name == "weekday" then f.weekday
    else f.year
  }

  function DateColumn(t: Table, calendar: int -> DateFields, name: string): (r: seq<Cell>)
    ensures |r| == t.Rows()
  {
    seq(t.Rows(), i requires 0 <= i < t.Rows() => Val(FieldOf(calendar(t.index[i]), name) as real))
  }

  /** `rf[name] = d.dt.<name>` for each name in turn. */
  function AddDateColumns(t: Table, names: seq<string>, calendar: int -> DateFields): (r: Table)
    ensures t.Valid() ==> r.Valid()
    ensures HasBars(t) ==> HasBars(r)
    ensures r.index == t.index && t.cols.Keys <= r.cols.Keys
  {
    if names == [] then t
    else
      var s := AddDateColumns(t, names[..|names| - 1], calendar);
      Assign(s, names[|names| - 1], DateColumn(s, calendar, names[|names| - 1]), true)
  }

  /** Each named column holds its calendar field of the row's timestamp; every
      other column is as it was. */
  lemma {:induction false} DateColumnsWritten(t: Table, names: seq<string>, calendar: int -> DateFields, x: string)
    ensures var r := AddDateColumns(t, names, calendar);
      && (x in names ==> x in r.cols && r.cols[x] == DateColumn(t, calendar, x) && r.Numeric(x))
      && (x !in names ==> (x in r.cols <==> x in t.cols) && (x in t.cols ==> r.cols[x] == t.cols[x] && (r.Numeric(x) <==> t.Numeric(x))))
  {
    if names != [] {
      var init, last := names[..|names| - 1], names[|names| - 1];
      DateColumnsWritten(t, init, calendar, x);
      var s := AddDateColumns(t, init, calendar);
      SplitLast(names);
      assert DateColumn(s, calendar, last) == DateColumn(t, calendar, last);
      if x != last {
        assert x in names <==> x in init;
      }
    }
  }

  /** `rf['minute'] = d.dt.minute` and the rest, for the names chosen. */
  method DateColumnsInPlace(rf: Frame, names: seq<string>, calendar: int -> DateFields)
    modifies rf
    ensures rf.Contents() == AddDateColumns(old(rf.Contents()), names, calendar)
  {
    ghost var t0 := rf.Contents();
    var k := 0;
    while k < |names|
      invariant 0 <= k <= |names|
      invariant rf.Contents() == AddDateColumns(t0, names[..k], calendar)
    {
      TakeTake(names, k);
      rf.Set(names[k], DateColumn(rf.Contents(), calendar, names[k]), true);
      k := k + 1;
    }
    assert names[..k] == names;
  }

  // ---------------------------------------------------------------------------
  // drop_na

  /** After `replace([inf, -inf], nan)`, a row survives `dropna()` exactly when
      every column holds a finite value there. */
  predicate GoodRow(t: Table, i: nat)
  {
    forall c :: c in t.cols ==> i < |t.cols[c]| && t.cols[c][i].Val?
  }

  function GoodRows(t: Table): (keep: seq<bool>)
    ensures |keep| == t.Rows()
    ensures forall i :: 0 <= i < |keep| ==> (keep[i] <==> GoodRow(t, i))
  {
    seq(t.Rows(), i requires 0 <= i < t.Rows() => GoodRow(t, i))
  }

  function DropBadRows(t: Table): (r: Table)
    requires t.Valid()
    ensures r.Valid()
  {
    KeepRows(t, GoodRows(t))
  }

  lemma {:induction false} SelectHas<T>(s: seq<T>, keep: seq<bool>, i: nat)
    requires |keep| == |s| && i < |s| && keep[i]
    ensures s[i] in Select(s, keep)
  {
    if i < |s| - 1 {
      SelectHas(s[..|s| - 1], keep[..|keep| - 1], i);
    }
  }

  lemma {:induction false} SelectFrom<T>(s: seq<T>, keep: seq<bool>, x: T)
    requires |keep| == |s| && x in Select(s, keep)
    ensures exists i :: 0 <= i < |s| && keep[i] && s[i] == x
  {
    var init := Select(s[..|s| - 1], keep[..|keep| - 1]);
    if x in init {
      SelectFrom(s[..|s| - 1], keep[..|keep| - 1], x);
      var i :| 0 <= i < |s| - 1 && keep[..|keep| - 1][i] && s[..|s| - 1][i] == x;
      assert keep[i] && s[i] == x;
    } else {
      assert keep[|s| - 1] && s[|s| - 1] == x;
    }
  }

  /** After the drop every cell is finite and the columns are the same. */
  lemma DropBadRowsFinite(t: Table)
    requires t.Valid()
    ensures var r := DropBadRows(t);
      && r.names == t.names && r.cols.Keys == t.cols.Keys
      && (forall c :: c in r.cols ==> forall x :: x in r.cols[c] ==> x.Val?)
  {
    var keep := GoodRows(t);
    var r := DropBadRows(t);
    forall c | c in r.cols ensures forall x :: x in r.cols[c] ==> x.Val? {
      SelectAll(t.cols[c], keep, (x: Cell) => x.Val?);
    }
  }

  /** A bar is kept exactly when all its cells were finite (the order is kept
      too, as the index stays increasing). */
  lemma DropBadRowsKeeps(t: Table, i: nat)
    requires t.Valid() && i < t.Rows()
    ensures t.index[i] in DropBadRows(t).index <==> GoodRow(t, i)
  {
    var keep := GoodRows(t);
    if GoodRow(t, i) {
      SelectHas(t.index, keep, i);
    } else if t.index[i] in DropBadRows(t).index {
      SelectFrom(t.index, keep, t.index[i]);
    }
  }

  // ---------------------------------------------------------------------------
  // drop_columns

  /** The first label the table does not hold, if any. */
  function FirstAbsent(t: Table, labels: seq<string>): (r: Option<string>)
    ensures r.None? <==> forall k :: 0 <= k < |labels| ==> labels[k] in t.cols
    ensures r.Some? ==> r.value in labels && r.value !in t.cols
  {
    if labels == [] then None
    else if labels[0] !in t.cols then Some(labels[0])
    else
      var r := FirstAbsent(t, labels[1..]);
      assert forall k :: 1 <= k < |labels| ==> labels[k] == labels[1..][k - 1];
      r
  }

  /** `rf.drop(columns=labels)` when labels is non-empty: a label the frame does
      not hold raises KeyError (reported as that label). */
  function DropListed(t: Table, labels: seq<string>): (r: Result<Table, string>)
    ensures r.Err? <==> exists k :: 0 <= k < |labels| && labels[k] !in t.cols
    ensures r.Err? ==> r.error in labels && r.error !in t.cols
    ensures r.Ok? ==> r.value.index == t.index
    ensures r.Ok? ==> r.value.cols.Keys == t.cols.Keys - set l | l in labels
    ensures r.Ok? ==> forall n :: n in r.value.cols ==> r.value.cols[n] == t.cols[n]
  {
    if labels == [] then Ok(t)
    else
      match FirstAbsent(t, labels)
      case Some(l) => Err(l)
      case None => Ok(DropColumns(t, set l | l in labels))
  }
}

=== FILE: frames.dfy ===
/** The pipeline's working table: a time index, an ordered list of column names,
    the cells of each column, and which columns have a non-numeric (object)
    dtype. `Table` is its value; `Frame` is the object the stages update in place. */
module Frames {
  import opened Cells

  predicate Increasing(s: seq<int>)
  {
    forall i, j :: 0 <= i < j < |s| ==> s[i] < s[j]
  }

  ghost predicate Distinct<T>(s: seq<T>)
  {
    forall i, j :: 0 <= i < j < |s| ==> s[i] != s[j]
  }

  /** Two lists without repeats and without a common element make one list without repeats. */
  lemma DisjointConcat<T>(a: seq<T>, b: seq<T>)
    requires Distinct(a) && Distinct(b)
    requires forall k :: 0 <= k < |b| ==> b[k] !in a
    ensures Distinct(a + b)
  {
    var s := a + b;
    forall i, j | 0 <= i < j < |s| ensures s[i] != s[j] {
      if i < |a| && |a| <= j {
        assert s[j] == b[j - |a|];
      } else if |a| <= i {
        assert s[i] == b[i - |a|] && s[j] == b[j - |a|];
      }
    }
  }

  /** Dropping the last element of a list without repeats leaves one without
      repeats that does not hold that element. */
  lemma DistinctSnoc<T>(a: seq<T>, x: T)
    requires Distinct(a + [x])
    ensures Distinct(a) && x !in a
  {
    var s := a + [x];
    forall i, j | 0 <= i < j < |a| ensures a[i] != a[j] {
      assert s[i] == a[i] && s[j] == a[j];
    }
    forall k | 0 <= k < |a| ensures a[k] != x {
      assert s[k] == a[k] && s[|a|] == x;
    }
  }

  datatype Table = Table(index: seq<int>, names: seq<string>, cols: map<string, seq<Cell>>, objects: set<string>)
  {
    function Rows(): nat { |index| }

    /** Timestamps strictly increase, names are unique and name exactly the
        stored columns, and every column has one cell per row. */
    ghost predicate Valid()
    {
      && Increasing(index)
      && Distinct(names)
      && (forall n :: n in cols <==> n in names)
      && (forall n :: n in cols ==> |cols[n]| == |index|)
      && objects <= cols.Keys
    }

    /** pandas `is_numeric_dtype(df[name])` for a column that exists. */
    predicate Numeric(name: string)
    {
      name in cols && name !in objects
    }
  }

  /** Taking one more element of a sequence appends that element. */
  lemma TakeSnoc<T>(s: seq<T>, j: nat)
    requires j < |s|
    ensures s[..j + 1] == s[..j] + [s[j]]
  {
  }

  /** A non-empty sequence is its front followed by its last element. */
  lemma SplitLast<T>(s: seq<T>)
    requires |s| > 0
    ensures s == s[..|s| - 1] + [s[|s| - 1]]
  {
  }

  /** A prefix of a longer prefix is the shorter prefix. */
  lemma TakeTake<T>(s: seq<T>, k: nat)
    requires k < |s|
    ensures s[..k + 1][..k] == s[..k]
  {
  }

  /** The five columns every bar frame starts with. */
  const BarColumns: seq<string> := ["open", "high", "low", "close", "volume"]

  predicate HasBars(t: Table)
  {
    forall k :: 0 <= k < |BarColumns| ==> BarColumns[k] in t.cols
  }

  lemma BarsPresent(t: Table)
    requires HasBars(t)
    ensures "open" in t.cols && "high" in t.cols && "low" in t.cols && "close" in t.cols && "volume" in t.cols
  {
    assert BarColumns[0] == "open" && BarColumns[1] == "high" && BarColumns[2] == "low";
    assert BarColumns[3] == "close" && BarColumns[4] == "volume";
  }

  /** `df[name] = col`: an existing column is overwritten where it stands, a new
      one is appended after the others. */
  function Assign(t: Table, name: string, col: seq<Cell>, numeric: bool): (r: Table)
    requires |col| == t.Rows()
    ensures t.Valid() ==> r.Valid()
    ensures r.index == t.index && r.cols == t.cols[name := col]
    ensures r.names == if name in t.cols then t.names else t.names + [name]
    ensures r.objects == if numeric then t.objects - {name} else t.objects + {name}
  {
    var r := Table(t.index, if name in t.cols then t.names else t.names + [name],
                   t.cols[name := col], if numeric then t.objects - {name} else t.objects + {name});
    assert t.Valid() ==> forall n :: n in r.cols <==> n in r.names;
    r
  }

  /** Assignment adds no row, removes no column and keeps every other column. */
  lemma AssignKeeps(t: Table, name: string, col: seq<Cell>, numeric: bool, other: string)
    requires |col| == t.Rows() && other != name
    ensures var r := Assign(t, name, col, numeric);
      (other in r.cols <==> other in t.cols) &&
      (other in t.cols ==> r.cols[other] == t.cols[other]) &&
      (r.Numeric(other) <==> t.Numeric(other))
  {
  }

  function Without(names: seq<string>, drop: set<string>): (r: seq<string>)
    ensures forall n :: n in r <==> n in names && n !in drop
    ensures Distinct(names) ==> Distinct(r)
  {
    if names == [] then []
    else
      var rest := Without(names[..|names| - 1], drop);
      var last := names[|names| - 1];
      assert forall n :: n in names <==> n in names[..|names| - 1] || n == last;
      assert Distinct(names) ==> Distinct(names[..|names| - 1]) && last !in names[..|names| - 1];
      if last in drop then rest else rest + [last]
  }

  /** `df.drop(columns=...)` for labels known to be present; the others keep their order. */
  function DropColumns(t: Table, drop: set<string>): (r: Table)
    ensures t.Valid() ==> r.Valid()
    ensures r.index == t.index && r.cols.Keys == t.cols.Keys - drop
    ensures forall n :: n in r.cols ==> r.cols[n] == t.cols[n]
    ensures forall n :: r.Numeric(n) <==> t.Numeric(n) && n !in drop
  {
    Table(t.index, Without(t.names, drop), map n | n in t.cols && n !in drop :: t.cols[n], t.objects - drop)
  }

  function Count(keep: seq<bool>): nat
  {
    if keep == [] then 0 else Count(keep[..|keep| - 1]) + (if keep[|keep| - 1] then 1 else 0)
  }

  /** The elements of s at the positions keep marks, in order. */
  function Select<T>(s: seq<T>, keep: seq<bool>): (r: seq<T>)
    requires |keep| == |s|
    ensures |r| == Count(keep)
    ensures forall x :: x in r ==> x in s
  {
    if s == [] then []
    else Select(s[..|s| - 1], keep[..|keep| - 1]) + (if keep[|keep| - 1] then [s[|s| - 1]] else [])
  }

  lemma {:induction false} SelectIncreasing(s: seq<int>, keep: seq<bool>)
    requires |keep| == |s| && Increasing(s)
    ensures Increasing(Select(s, keep))
  {
    if s != [] {
      var init := s[..|s| - 1];
      SelectIncreasing(init, keep[..|keep| - 1]);
      var sel := Select(init, keep[..|keep| - 1]);
      forall x | x in sel ensures x < s[|s| - 1] {
        var i :| 0 <= i < |init| && init[i] == x;
      }
      var r := Select(s, keep);
      if keep[|keep| - 1] {
        assert r == sel + [s[|s| - 1]];
        forall i, j | 0 <= i < j < |r| ensures r[i] < r[j] {
          assert r[i] == sel[i];
          if j < |r| - 1 {
            assert r[j] == sel[j];
          } else {
            assert r[i] in sel;
          }
        }
      }
    }
  }

  lemma {:induction false} SelectAll<T>(s: seq<T>, keep: seq<bool>, p: T -> bool)
    requires |keep| == |s|
    requires forall i :: 0 <= i < |s| && keep[i] ==> p(s[i])
    ensures forall x :: x in Select(s, keep) ==> p(x)
  {
    if s != [] {
      SelectAll(s[..|s| - 1], keep[..|keep| - 1], p);
    }
  }

  /** The rows keep marks, in their original order, every column alike. */
  function KeepRows(t: Table, keep: seq<bool>): (r: Table)
    requires t.Valid() && |keep| == t.Rows()
    ensures r.Valid() && r.Rows() == Count(keep)
    ensures r.names == t.names && r.objects == t.objects && r.cols.Keys == t.cols.Keys
    ensures r.index == Select(t.index, keep)
    ensures forall n :: n in r.cols ==> r.cols[n] == Select(t.cols[n], keep)
  {
    SelectIncreasing(t.index, keep);
    Table(Select(t.index, keep), t.names, map n | n in t.cols :: Select(t.cols[n], keep), t.objects)
  }

  /** Column `name` exists and every cell of it is present. */
  predicate NoMissing(t: Table, name: string)
  {
    name in t.cols && forall i :: 0 <= i < |t.cols[name]| ==> Present(t.cols[name][i])
  }

  class Frame {
    var index: seq<int>
    var names: seq<string>
    var cols: map<string, seq<Cell>>
    var objects: set<string>

    function Contents(): Table
      reads this
    {
      Table(index, names, cols, objects)
    }

    ghost predicate Valid()
      reads this
    {
      Contents().Valid()
    }

    constructor (t: Table)
      ensures Contents() == t
    {
      index, names, cols, objects := t.index, t.names, t.cols, t.objects;
    }

    function Rows(): nat
      reads this
    {
      |index|
    }

    /** `self[name] = col`. */
    method Set(name: string, col: seq<Cell>, numeric: bool)
      requires |col| == |index|
      modifies this
      ensures Contents() == Assign(old(Contents()), name, col, numeric)
    {
      if name !in cols {
        names := names + [name];
      }
      cols := cols[name := col];
      objects := if numeric then objects - {name} else objects + {name};
    }

    /** `self.drop(columns=drop, inplace=True)`. */
    method Drop(drop: set<string>)
      modifies this
      ensures Contents() == DropColumns(old(Contents()), drop)
    {
      names := Without(names, drop);
      cols := map n | n in cols && n !in drop :: cols[n];
      objects := objects - drop;
    }

    /** `self.dropna(inplace=True)` and its kin: keep the marked rows. */
    method KeepOnly(keep: seq<bool>)
      requires Valid() && |keep| == |index|
      modifies this
      ensures Contents() == KeepRows(old(Contents()), keep)
    {
      var r := KeepRows(Contents(), keep);
      index, cols := r.index, r.cols;
    }

    /** Rebinding the working variable to a frame built by a whole-frame expression. */
    method Load(t: Table)
      modifies this
      ensures Contents() == t
    {
      index, names, cols, objects := t.index, t.names, t.cols, t.objects;
    }
  }
}

=== FILE: gateway.dfy ===
/** `MT5Gateway.fetch` as the program runs it: one working frame that each
    stage updates in place (or rebinds, where pandas returns a new frame), and
    the multi-instrument loop that raises on the first failing instrument.
    Each method is proved equal to the stage functions of `Pipeline`, whose
    properties are proved there. */
module Gateway {
  import opened Wrappers
  import opened Cells
  import opened Frames
  import opened Timeframes
  import opened Features
  import Pivots
  import Denoise
  import SupportResistance
  import Indicators
  import MovingAverages
  import Lookbacks
  import Merge
  import opened Pipeline

  /** `add_gap`: the gap column, 0 on the first bar. */
  method GapInPlace(rf: Frame, cfg: FetchConfig)
    requires rf.Valid() && HasBars(rf.Contents())
    modifies rf
    ensures rf.Contents() == if cfg.addGap then AddGap(old(rf.Contents())) else old(rf.Contents())
  {
    if cfg.addGap {
      BarsPresent(rf.Contents());
      rf.Set("gap", GapColumn(rf.cols["open"], rf.cols["close"]), true);
    }
  }

  /** `add_gap`, then `fill_empty_ranges`: the reindexed frame replaces the
      working one. */
  method FillInPlace(rf: Frame, env: Env, tf: string, cfg: FetchConfig)
    requires rf.Valid() && HasBars(rf.Contents()) && rf.Rows() > 0 && Sound(env)
    modifies rf
    ensures rf.Contents() == Filled(old(rf.Contents()), env, tf, cfg)
  {
    ghost var t0 := rf.Contents();
    GapInPlace(rf, cfg);
    ghost var t1 := rf.Contents();
    FilledAfterGap(t0, t1, env, tf, cfg);
    if cfg.fillEmptyRanges {
      FillRangesInPlace(rf, t1, env, tf);
    }
  }

  /** `fill_empty_ranges(rf, period_range(first, last))`, replacing the frame. */
  method FillRangesInPlace(rf: Frame, ghost t1: Table, env: Env, tf: string)
    requires rf.Contents() == t1 && t1.Valid() && HasBars(t1) && t1.Rows() > 0
    requires Increasing(env.periodRange(t1.index[0], t1.index[t1.Rows() - 1], tf))
    modifies rf
    ensures rf.Contents() == FillEmptyRanges(t1, env.periodRange(t1.index[0], t1.index[t1.Rows() - 1], tf))
  {
    var grid := env.periodRange(rf.index[0], rf.index[|rf.index| - 1], tf);
    rf.Load(FillEmptyRanges(rf.Contents(), grid));
  }

  /** The fill works on the frame the gap step left. */
  lemma FilledAfterGap(t: Table, t1: Table, env: Env, tf: string, cfg: FetchConfig)
    requires t.Valid() && HasBars(t) && t.Rows() > 0 && Sound(env)
    requires t1 == if cfg.addGap then AddGap(t) else t
    ensures t1.Valid() && HasBars(t1) && t1.Rows() > 0
    ensures Increasing(env.periodRange(t1.index[0], t1.index[t1.Rows() - 1], tf))
    ensures !cfg.fillEmptyRanges ==> Filled(t, env, tf, cfg) == t1
    ensures cfg.fillEmptyRanges ==>
      Filled(t, env, tf, cfg) == FillEmptyRanges(t1, env.periodRange(t1.index[0], t1.index[t1.Rows() - 1], tf))
  {
  }

  /** Gap, fill, pivot levels and denoising; `add_pivot_levels` hands back a
      new frame, which becomes the working one. */
  method Prepare(rf: Frame, env: Env, tf: string, cfg: FetchConfig) returns (f: Frame, err: Option<FetchError>)
    requires rf.Valid() && HasBars(rf.Contents()) && rf.Rows() > 0 && Sound(env)
    modifies rf
    ensures f == rf || fresh(f)
    ensures DenoiseStage(Pivoted(Filled(old(rf.Contents()), env, tf, cfg), cfg), env, cfg) ==
      if err.None? then Ok(f.Contents()) else Err(err.value)
  {
    FillInPlace(rf, env, tf, cfg);
    f := rf;
    if cfg.pivotLevels > 0 {
      Pivots.PivotLevelsKeepBars(f.Contents(), 14, cfg.pivotLevels, true);
      f := Pivots.AddPivotLevels(f.Contents(), 14, cfg.pivotLevels, true);
    }
    err := None;
    if cfg.denoiseData.Some? {
      var e := Denoise.DenoiseDataframe(f, DenoiseSettings(cfg.denoiseData.value), env.backends);
      if e.Some? {
        err := Some(DenoiseFailed(e.value));
      }
    }
  }

  /** Price summaries, support/resistance levels and calendar columns. */
  method EnrichInPlace(rf: Frame, env: Env, code: int, cfg: FetchConfig)
    requires rf.Valid() && HasBars(rf.Contents()) && LevelsPositive(cfg)
    modifies rf
    ensures rf.Contents() == Enriched(old(rf.Contents()), env, code, cfg)
  {
    if cfg.addPriceSummaries {
      PriceSummariesInPlace(rf);
    }
    SupportResistance.SupportResistanceInPlace(rf, cfg.srFields, cfg.srLevels);
    DateColumnsInPlace(rf, DateNames(code, cfg), env.calendar);
  }

  /** The four `add_indicators` calls; the first raising backend stops them. */
  method IndicatorsInPlace(rf: Frame, env: Env, cfg: FetchConfig) returns (err: Option<FetchError>)
    requires rf.Valid() && HasBars(rf.Contents())
    modifies rf
    ensures rf.Valid() && HasBars(rf.Contents())
    ensures WithIndicators(old(rf.Contents()), env, cfg) == if err.None? then Ok(rf.Contents()) else Err(err.value)
  {
    var e := Indicators.AddIndicators(env.talib, cfg.talibIndicators, rf);
    if e.Some? { return Some(IndicatorFailed(e.value)); }
    e := Indicators.AddIndicators(env.ta, cfg.taIndicators, rf);
    if e.Some? { return Some(IndicatorFailed(e.value)); }
    e := Indicators.AddIndicators(env.native, cfg.nativeIndicators, rf);
    if e.Some? { return Some(IndicatorFailed(e.value)); }
    e := Indicators.AddIndicators(env.pandasTa, cfg.pandasTaIndicators, rf);
    if e.Some? { return Some(IndicatorFailed(e.value)); }
    return None;
  }

  /** `drop_na`, then `drop_columns`. */
  method CleanInPlace(rf: Frame, cfg: FetchConfig) returns (err: Option<FetchError>)
    requires rf.Valid()
    modifies rf
    ensures Cleaned(old(rf.Contents()), cfg) == if err.None? then Ok(rf.Contents()) else Err(err.value)
  {
    if cfg.dropNa {
      rf.KeepOnly(GoodRows(rf.Contents()));
    }
    if |cfg.dropColumns| > 0 {
      var absent := FirstAbsent(rf.Contents(), cfg.dropColumns);
      if absent.Some? {
        return Some(UnknownColumn(absent.value));
      }
      rf.Drop(set l | l in cfg.dropColumns);
    }
    return None;
  }

  /** Every stage after the bars are read, in order. */
  method Stages(rf: Frame, env: Env, code: int, tf: string, cfg: FetchConfig) returns (r: Result<Table, FetchError>)
    requires rf.Valid() && HasBars(rf.Contents()) && rf.Rows() > 0 && Sound(env) && LevelsPositive(cfg)
    modifies rf
    ensures r == Processed(old(rf.Contents()), env, code, tf, cfg)
  {
    ghost var t0 := rf.Contents();
    var f, e := Prepare(rf, env, tf, cfg);
    if e.Some? {
      return Err(e.value);
    }
    ProcessedAfterDenoise(t0, env, code, tf, cfg, f.Contents());
    EnrichInPlace(f, env, code, cfg);
    e := IndicatorsInPlace(f, env, cfg);
    if e.Some? {
      return Err(e.value);
    }
    MovingAverages.MovingAveragesInPlace(f, env.ma, cfg.mas);
    Lookbacks.LookbacksInPlace(f, cfg.lookbacks);
    e := CleanInPlace(f, cfg);
    if e.Some? {
      return Err(e.value);
    }
    return Ok(f.Contents());
  }

  /** Once the denoise stage has produced d, the rest of the stages start from d. */
  lemma ProcessedAfterDenoise(t: Table, env: Env, code: int, tf: string, cfg: FetchConfig, d: Table)
    requires t.Valid() && HasBars(t) && t.Rows() > 0 && Sound(env) && LevelsPositive(cfg)
    requires DenoiseStage(Pivoted(Filled(t, env, tf, cfg), cfg), env, cfg) == Ok(d)
    ensures d.Valid() && HasBars(d)
    ensures Processed(t, env, code, tf, cfg) ==
      var i := WithIndicators(Enriched(d, env, code, cfg), env, cfg);
      if i.Err? then i else Cleaned(Derived(i.value, env, cfg), cfg)
  {
  }

  /** `fetch(instrument, timeframe, ...)` for one instrument: the timeframe's
      code, the terminal's bars, then the stages; the copy it returns is the
      working frame's contents. */
  method Fetch(env: Env, inst: string, tf: string, cfg: FetchConfig) returns (r: Result<Table, FetchError>)
    requires Sound(env) && LevelsPositive(cfg)
    ensures r == FetchOne(env, inst, tf, cfg)
  {
    var code := Lookup(tf);
    if code.None? {
      return Err(UnsupportedTimeframe(tf));
    }
    var rates := RatesOf(env, inst, code.value, cfg);
    if rates.None? || |rates.value| < 1 {
      return Err(NoData(inst));
    }
    var rf := new Frame(BarsTable(rates.value));
    r := Stages(rf, env, code.value, tf, cfg);
  }

  /** A failure at position k, after k successes, is the list's failure. */
  lemma CollectStops(instruments: seq<string>, results: seq<Result<Table, FetchError>>, k: nat)
    requires |results| == |instruments| && k < |results|
    requires Collect(instruments[..k], results[..k]).Ok? && results[k].Err?
    ensures Collect(instruments, results) == Err(results[k].error)
  {
    assert forall j :: 0 <= j < k ==> results[..k][j] == results[j];
    var r := Collect(instruments, results);
    var j :| 0 <= j < |results| && results[j] == Err(r.error) && forall i :: 0 <= i < j ==> results[i].Ok?;
  }

  /** A success at position k extends the list of k successes. */
  lemma CollectStep(instruments: seq<string>, results: seq<Result<Table, FetchError>>, k: nat, frames: Merge.Instruments)
    requires |results| == |instruments| && k < |results|
    requires Collect(instruments[..k], results[..k]) == Ok(frames) && results[k].Ok?
    ensures Collect(instruments[..k + 1], results[..k + 1]) == Ok(frames + [(instruments[k], results[k].value)])
  {
    assert instruments[..k + 1][..k] == instruments[..k] && results[..k + 1][..k] == results[..k];
  }

  /** The loop over a non-empty list of instruments: each fetched with the
      sub-configuration, the first failure raised. */
  method FetchLoop(env: Env, instruments: seq<string>, tf: string, cfg: FetchConfig) returns (r: Result<Merge.Instruments, FetchError>)
    requires Sound(env) && LevelsPositive(cfg)
    ensures r == Collect(instruments, Fetched(env, instruments, tf, cfg))
  {
    ghost var results := Fetched(env, instruments, tf, cfg);
    var frames: Merge.Instruments := [];
    var k := 0;
    while k < |instruments|
      invariant 0 <= k <= |instruments|
      invariant Collect(instruments[..k], results[..k]) == Ok(frames)
    {
      var f := FetchAt(env, instruments, tf, cfg, results, k);
      if f.Err? {
        CollectStops(instruments, results, k);
        return Err(f.error);
      }
      CollectStep(instruments, results, k, frames);
      frames := frames + [(instruments[k], f.value)];
      k := k + 1;
    }
    assert instruments[..k] == instruments && results[..k] == results;
    return Ok(frames);
  }

  /** The k-th instrument fetched with the sub-configuration. */
  method FetchAt(env: Env, instruments: seq<string>, tf: string, cfg: FetchConfig,
                 ghost results: seq<Result<Table, FetchError>>, k: nat) returns (f: Result<Table, FetchError>)
    requires Sound(env) && LevelsPositive(cfg) && k < |instruments|
    requires results == Fetched(env, instruments, tf, cfg)
    ensures f == results[k]
  {
    f := Fetch(env, instruments[k], tf, SubConfig(cfg));
  }

  /** No instruments is an error before anything is fetched. */
  method FetchAll(env: Env, instruments: seq<string>, tf: string, cfg: FetchConfig) returns (r: Result<Merge.Instruments, FetchError>)
    requires Sound(env) && LevelsPositive(cfg)
    ensures r == FetchEach(env, instruments, tf, cfg)
  {
    if instruments == [] {
      return Err(NoInstruments);
    }
    r := FetchLoop(env, instruments, tf, cfg);
  }

  /** The first failure, or the merge onto the common date range and the
      clean-up of the merged frame, which the multi-instrument path does in
      place. */
  method GatherFrames(env: Env, each: Result<Merge.Instruments, FetchError>, tf: string, cfg: FetchConfig) returns (r: Result<Table, FetchError>)
    requires Sound(env) && (each.Ok? ==> Merge.AllValid(each.value))
    ensures r == Gather(env, each, tf, cfg)
  {
    if each.Err? {
      return Err(each.error);
    }
    var frames := each.value;
    if Firsts(frames) == [] {
      return Err(NoBars);
    }
    var grid := env.dateRange(MinOf(Firsts(frames)), MaxOf(Lasts(frames)), tf);
    var merged := Merge.MergeFrames(grid, frames);
    if merged.Err? {
      return Err(ColumnClash(merged.error));
    }
    var data := new Frame(merged.value);
    Merge.FinishInPlace(data, tf, cfg.addMetaDates, cfg.addYear, env.calendar);
    return Ok(data.Contents());
  }

  /** `fetch([instrument, ...], timeframe, ...)`: each instrument fetched in
      turn with the sub-configuration, then the frames assembled. */
  method FetchMultiple(env: Env, instruments: seq<string>, tf: string, cfg: FetchConfig) returns (r: Result<Table, FetchError>)
    requires Sound(env) && LevelsPositive(cfg)
    ensures r == FetchMany(env, instruments, tf, cfg)
  {
    var each := FetchAll(env, instruments, tf, cfg);
    r := GatherFrames(env, each, tf, cfg);
  }
}

=== FILE: indicators.dfy ===
/** Generic indicator dispatch (`add_indicators`): map the spec's o/h/l/c/v keys
    to columns, look the method up in a backend, call it, and store its result
    under composed names made unique by a suffix counter local to the call. */
module Indicators {
  import opened Wrappers
  import opened Cells
  import opened Text
  import opened Frames
  import opened Registry

  /** One entry of an indicator list: method name, positional keys, keyword
      arguments (as text), optional `name` and `prefix` (default ""). */
  datatype IndicatorSpec = IndicatorSpec(
    methodName: string, args: seq<string>, kwargs: map<string, string>,
    name: Option<string>, prefix: string)

  /** The three return shapes a backend function produces, and no value at all. */
  datatype RetVal =
    | Tuple(parts: seq<seq<Cell>>)
    | TableOut(columns: seq<(string, seq<Cell>)>)
    | Single(values: seq<Cell>)
    | NoValue

  datatype Call = Returned(value: RetVal) | Raised

  /** A backend: the names it exposes as callables, and what calling one gives. */
  datatype Library = Library(
    methods: set<string>,
    call: (string, seq<seq<Cell>>, map<string, string>) -> Call)

  datatype IndicatorError =
    | BackendRaised(methodName: string)   // the backend call threw
    | TooLong(column: string)         // an array longer than the frame cannot be assigned

  /** The positional key map o/h/l/c/v. */
  function KeyColumn(key: string): (r: Option<string>)
    ensures r.Some? ==> r.value in BarColumns
  {
    if key == "o" then Some("open")
    else if key == "h" then Some("high")
    else if key == "l" then Some("low")
    else if key == "c" then Some("close")
    else if key == "v" then Some("volume")
    else None
  }

  /** The columns passed positionally: unknown keys are dropped (with a warning),
      the others keep their order. */
  function PositionalColumns(args: seq<string>): (r: seq<string>)
    ensures forall i :: 0 <= i < |r| ==> r[i] in BarColumns
    ensures |r| <= |args|
  {
    if args == [] then []
    else
      var init := PositionalColumns(args[..|args| - 1]);
      match KeyColumn(args[|args| - 1])
      case Some(c) => init + [c]
      case None => init
  }

  /** Mapping keys distributes over concatenation: each key contributes its own
      column, or nothing, where it stands. */
  lemma {:induction false} PositionalColumnsConcat(a: seq<string>, b: seq<string>)
    ensures PositionalColumns(a + b) == PositionalColumns(a) + PositionalColumns(b)
    decreases |b|
  {
    if b == [] {
      assert a + b == a;
    } else {
      var b' := b[..|b| - 1];
      assert (a + b)[..|a + b| - 1] == a + b';
      PositionalColumnsConcat(a, b');
    }
  }

  /** When every key is known, the i-th positional argument is the i-th key's column. */
  lemma {:induction false} PositionalColumnsKnown(args: seq<string>)
    requires forall i :: 0 <= i < |args| ==> KeyColumn(args[i]).Some?
    ensures |PositionalColumns(args)| == |args|
    ensures forall i :: 0 <= i < |args| ==> PositionalColumns(args)[i] == KeyColumn(args[i]).value
  {
    if args != [] {
      PositionalColumnsKnown(args[..|args| - 1]);
    }
  }

  /** How a result is stored: arrays are left-padded, a table's series is aligned
      on the frame's rows, no value stores an all-missing object column. */
  datatype Placement = PadFront | Align | Absent

  datatype Output = Output(base: string, values: seq<Cell>, placement: Placement)

  /** `ti.get("name", ti["method"]).lower()` */
  function Label(spec: IndicatorSpec): string
  {
    Lower(spec.name.GetOr(spec.methodName))
  }

  /** The composed (not yet de-duplicated) names and values a result yields. */
  function Outputs(spec: IndicatorSpec, ret: RetVal): (r: seq<Output>)
    ensures ret.Tuple? ==> |r| == |ret.parts|
    ensures ret.TableOut? ==> |r| == |ret.columns|
    ensures ret.Single? || ret.NoValue? ==> |r| == 1
  {
    match ret
    case Tuple(parts) =>
      seq(|parts|, i requires 0 <= i < |parts| =>
        Output(spec.prefix + Label(spec) + "_" + NatToString(i), parts[i], PadFront))
    case TableOut(columns) =>
      seq(|columns|, i requires 0 <= i < |columns| =>
        Output(spec.prefix + ReplaceChar(columns[i].0, '_', '|'), columns[i].1, Align))
    case Single(values) => [Output(spec.prefix + Label(spec), values, PadFront)]
    case NoValue => [Output(spec.prefix + Label(spec), [], Absent)]
  }

  /** `np.append(np.full(n - len(r), nan), r)`. */
  function PadLeft(r: seq<Cell>, n: nat): (p: seq<Cell>)
    requires |r| <= n
    ensures |p| == n
    ensures forall i :: 0 <= i < n - |r| ==> p[i].Missing?
    ensures forall i :: 0 <= i < |r| ==> p[n - |r| + i] == r[i]
  {
    Missings(n - |r|) + r
  }

  /** A series aligned on the frame's rows: rows it lacks are missing. */
  function Fit(r: seq<Cell>, n: nat): (p: seq<Cell>)
    ensures |p| == n
    ensures forall i :: 0 <= i < n ==> p[i] == if i < |r| then r[i] else Missing
  {
    seq(n, i requires 0 <= i < n => if i < |r| then r[i] else Missing)
  }

  /** The column actually stored for an output and whether it is numeric;
      `None` when pandas refuses the assignment (array longer than the frame). */
  function Placed(o: Output, rows: nat): (r: Option<(seq<Cell>, bool)>)
    ensures r.Some? ==> |r.value.0| == rows
    ensures r.None? <==> o.placement == PadFront && |o.values| > rows
  {
    match o.placement
    case PadFront => if |o.values| > rows then None else Some((PadLeft(o.values, rows), true))
    case Align => Some((Fit(o.values, rows), true))
    case Absent => Some((Missings(rows), false))
  }

  /** The state of one call: the frame, the suffix counter, the composed names
      met so far, the final names they resolved to, and a fatal error if any. */
  datatype State = State(table: Table, counter: Counter, emitted: seq<string>,
                         resolved: seq<string>, error: Option<IndicatorError>)

  function Start(t: Table): State
  {
    State(t, map[], [], [], None)
  }

  /** The state reached from a fresh counter has resolved exactly what the
      registry resolves for the composed names met so far. */
  ghost predicate Consistent(st: State)
  {
    st.table.Valid() && HasBars(st.table) &&
    ResolveAll(map[], st.emitted) == (st.resolved, st.counter)
  }

  /** Resolve one composed name, then store its column. */
  function EmitOne(st: State, o: Output): (r: State)
    requires st.table.Valid() && HasBars(st.table)
    ensures r.table.Valid() && HasBars(r.table) && r.table.index == st.table.index
  {
    if st.error.Some? then st
    else
      var (name, c) := Resolve(st.counter, o.base);
      var st' := st.(counter := c, emitted := st.emitted + [o.base], resolved := st.resolved + [name]);
      match Placed(o, st.table.Rows())
      case None => st'.(error := Some(TooLong(name)))
      case Some((col, numeric)) => st'.(table := Assign(st.table, name, col, numeric))
  }

  function Emit(st: State, outs: seq<Output>): (r: State)
    requires st.table.Valid() && HasBars(st.table)
    ensures r.table.Valid() && HasBars(r.table) && r.table.index == st.table.index
  {
    if outs == [] then st else EmitOne(Emit(st, outs[..|outs| - 1]), outs[|outs| - 1])
  }

  /** The columns handed to the backend, in the order of the spec's keys. */
  function Arguments(t: Table, spec: IndicatorSpec): (r: seq<seq<Cell>>)
    requires HasBars(t)
    ensures |r| == |PositionalColumns(spec.args)|
  {
    var keys := PositionalColumns(spec.args);
    seq(|keys|, i requires 0 <= i < |keys| => t.cols[keys[i]])
  }

  /** One spec: unknown methods are skipped, a raising backend is fatal. */
  function ApplySpec(lib: Library, st: State, spec: IndicatorSpec): (r: State)
    requires st.table.Valid() && HasBars(st.table)
    ensures r.table.Valid() && HasBars(r.table) && r.table.index == st.table.index
  {
    if st.error.Some? || spec.methodName !in lib.methods then st
    else
      match lib.call(spec.methodName, Arguments(st.table, spec), spec.kwargs)
      case Raised => st.(error := Some(BackendRaised(spec.methodName)))
      case Returned(ret) => Emit(st, Outputs(spec, ret))
  }

  function ApplyAll(lib: Library, st: State, specs: seq<IndicatorSpec>): (r: State)
    requires st.table.Valid() && HasBars(st.table)
    ensures r.table.Valid() && HasBars(r.table) && r.table.index == st.table.index
  {
    if specs == [] then st else ApplySpec(lib, ApplyAll(lib, st, specs[..|specs| - 1]), specs[|specs| - 1])
  }

  /** `add_indicators(library, indicators, rf)` as a whole, from a fresh counter. */
  function AddIndicatorsSpec(lib: Library, specs: seq<IndicatorSpec>, t: Table): (r: State)
    requires t.Valid() && HasBars(t)
    ensures r.table.Valid() && HasBars(r.table) && r.table.index == t.index
  {
    ApplyAll(lib, Start(t), specs)
  }

  // ---------------------------------------------------------------------------
  // Properties

  lemma EmitOneConsistent(st: State, o: Output)
    requires Consistent(st)
    ensures Consistent(EmitOne(st, o))
  {
  }

  lemma {:induction false} EmitConsistent(st: State, outs: seq<Output>)
    requires Consistent(st)
    ensures Consistent(Emit(st, outs))
  {
    if outs != [] {
      EmitConsistent(st, outs[..|outs| - 1]);
      EmitOneConsistent(Emit(st, outs[..|outs| - 1]), outs[|outs| - 1]);
    }
  }

  lemma {:induction false} ApplyAllConsistent(lib: Library, st: State, specs: seq<IndicatorSpec>)
    requires Consistent(st)
    ensures Consistent(ApplyAll(lib, st, specs))
  {
    if specs != [] {
      ApplyAllConsistent(lib, st, specs[..|specs| - 1]);
      var s := ApplyAll(lib, st, specs[..|specs| - 1]);
      var spec := specs[|specs| - 1];
      if s.error.None? && spec.methodName in lib.methods {
        var call := lib.call(spec.methodName, Arguments(s.table, spec), spec.kwargs);
        if call.Returned? {
          EmitConsistent(s, Outputs(spec, call.value));
        }
      }
    }
  }

  /** Within one call, the i-th composed name met is stored as itself on its
      first use and as `name_k` on its k-th use. */
  lemma CallNaming(lib: Library, specs: seq<IndicatorSpec>, t: Table, i: nat)
    requires t.Valid() && HasBars(t)
    requires i < |AddIndicatorsSpec(lib, specs, t).emitted|
    ensures var st := AddIndicatorsSpec(lib, specs, t);
      var k := Occurrences(st.emitted[..i + 1], st.emitted[i]);
      k >= 1 && |st.resolved| == |st.emitted| && st.resolved[i] == Suffixed(st.emitted[i], k)
  {
    ApplyAllConsistent(lib, Start(t), specs);
    ResolvedName(AddIndicatorsSpec(lib, specs, t).emitted, i);
  }

  /** Everything a call does not resolve a name for is left as it was, rows
      included, and the existing columns keep their places. */
  ghost predicate OnlyResolvedChanged(t: Table, st: State)
  {
    st.table.index == t.index &&
    |t.names| <= |st.table.names| && st.table.names[..|t.names|] == t.names &&
    (forall n :: n !in st.resolved ==>
      (n in st.table.cols <==> n in t.cols) &&
      (n in t.cols ==> st.table.cols[n] == t.cols[n] && (st.table.Numeric(n) <==> t.Numeric(n)))) &&
    (forall n :: n in t.cols ==> n in st.table.cols)
  }

  lemma EmitOneOnlyResolved(t: Table, st: State, o: Output)
    requires st.table.Valid() && HasBars(st.table) && OnlyResolvedChanged(t, st)
    ensures OnlyResolvedChanged(t, EmitOne(st, o))
  {
    if st.error.None? {
      var (name, c) := Resolve(st.counter, o.base);
      var placed := Placed(o, st.table.Rows());
      if placed.Some? {
        AssignOnlyResolved(t, st, EmitOne(st, o), name, placed.value.0, placed.value.1);
      }
    }
  }

  /** Storing a column under a resolved name keeps everything else. */
  lemma AssignOnlyResolved(t: Table, st: State, st': State, name: string, col: seq<Cell>, numeric: bool)
    requires st.table.Valid() && HasBars(st.table) && OnlyResolvedChanged(t, st) && |col| == st.table.Rows()
    requires st'.table == Assign(st.table, name, col, numeric) && st'.resolved == st.resolved + [name]
    ensures OnlyResolvedChanged(t, st')
  {
    var nt := st'.table;
    assert nt.names[..|st.table.names|] == st.table.names;
    assert nt.names[..|t.names|] == st.table.names[..|t.names|];
    forall n | n !in st'.resolved
      ensures (n in nt.cols <==> n in t.cols)
      ensures n in t.cols ==> nt.cols[n] == t.cols[n] && (nt.Numeric(n) <==> t.Numeric(n))
    {
      AssignKeeps(st.table, name, col, numeric, n);
    }
  }

  lemma {:induction false} EmitOnlyResolved(t: Table, st: State, outs: seq<Output>)
    requires st.table.Valid() && HasBars(st.table) && OnlyResolvedChanged(t, st)
    ensures OnlyResolvedChanged(t, Emit(st, outs))
  {
    if outs != [] {
      EmitOnlyResolved(t, st, outs[..|outs| - 1]);
      EmitOneOnlyResolved(t, Emit(st, outs[..|outs| - 1]), outs[|outs| - 1]);
    }
  }

  lemma EmitOneTraceGrows(st: State, o: Output)
    requires st.table.Valid() && HasBars(st.table)
    ensures EmitOne(st, o).resolved[..|st.resolved|] == st.resolved
  {
  }

  /** A call assigns or overwrites only the columns it resolved names for;
      every other column, the rows, and the order of existing columns stay. */
  lemma {:induction false} OnlyResolvedColumnsChange(lib: Library, specs: seq<IndicatorSpec>, t: Table)
    requires t.Valid() && HasBars(t)
    ensures OnlyResolvedChanged(t, AddIndicatorsSpec(lib, specs, t))
  {
    ApplyAllOnlyResolved(lib, Start(t), specs, t);
  }

  lemma {:induction false} ApplyAllOnlyResolved(lib: Library, st: State, specs: seq<IndicatorSpec>, t: Table)
    requires st.table.Valid() && HasBars(st.table) && OnlyResolvedChanged(t, st)
    ensures OnlyResolvedChanged(t, ApplyAll(lib, st, specs))
  {
    if specs != [] {
      ApplyAllOnlyResolved(lib, st, specs[..|specs| - 1], t);
      var s := ApplyAll(lib, st, specs[..|specs| - 1]);
      var spec := specs[|specs| - 1];
      if s.error.None? && spec.methodName in lib.methods {
        var call := lib.call(spec.methodName, Arguments(s.table, spec), spec.kwargs);
        if call.Returned? {
          EmitOnlyResolved(t, s, Outputs(spec, call.value));
        }
      }
    }
  }

  /** A list naming no method of the backend leaves the frame as it was. */
  lemma {:induction false} UnknownMethodsChangeNothing(lib: Library, specs: seq<IndicatorSpec>, t: Table)
    requires t.Valid() && HasBars(t)
    requires forall i :: 0 <= i < |specs| ==> specs[i].methodName !in lib.methods
    ensures AddIndicatorsSpec(lib, specs, t) == Start(t)
  {
    if specs != [] {
      UnknownMethodsChangeNothing(lib, specs[..|specs| - 1], t);
    }
  }

  function Bases(outs: seq<Output>): (r: seq<string>)
    ensures |r| == |outs| && forall i :: 0 <= i < |outs| ==> r[i] == outs[i].base
  {
    seq(|outs|, i requires 0 <= i < |outs| => outs[i].base)
  }

  lemma BasesSnoc(outs: seq<Output>)
    requires |outs| > 0
    ensures Bases(outs) == Bases(outs[..|outs| - 1]) + [outs[|outs| - 1].base]
  {
  }

  lemma EmitOneTrace(st: State, o: Output)
    requires st.table.Valid() && HasBars(st.table) && st.error.None?
    requires Placed(o, st.table.Rows()).Some?
    ensures EmitOne(st, o).error.None? && EmitOne(st, o).emitted == st.emitted + [o.base]
  {
  }

  lemma EmitLastTrace(st: State, outs: seq<Output>, s: State)
    requires st.table.Valid() && HasBars(st.table) && |outs| > 0
    requires s == Emit(st, outs[..|outs| - 1]) && s.error.None?
    requires Placed(outs[|outs| - 1], s.table.Rows()).Some?
    ensures Emit(st, outs).error.None?
    ensures Emit(st, outs).emitted == s.emitted + [outs[|outs| - 1].base]
  {
    EmitOneTrace(s, outs[|outs| - 1]);
  }

  /** Every output fits a frame of `rows` rows. */
  ghost predicate AllPlaced(outs: seq<Output>, rows: nat)
  {
    forall i :: 0 <= i < |outs| ==> Placed(outs[i], rows).Some?
  }

  lemma AllPlacedInit(outs: seq<Output>, rows: nat)
    requires |outs| > 0 && AllPlaced(outs, rows)
    ensures AllPlaced(outs[..|outs| - 1], rows) && Placed(outs[|outs| - 1], rows).Some?
  {
  }

  /** Outputs that all fit the frame are stored without error, and their
      composed names are met in order. */
  lemma {:induction false} EmitTrace(st: State, outs: seq<Output>)
    requires st.table.Valid() && HasBars(st.table) && st.error.None?
    requires AllPlaced(outs, st.table.Rows())
    ensures Emit(st, outs).error.None?
    ensures Emit(st, outs).emitted == st.emitted + Bases(outs)
  {
    if outs != [] {
      var init := outs[..|outs| - 1];
      AllPlacedInit(outs, st.table.Rows());
      EmitTrace(st, init);
      var s := Emit(st, init);
      assert s.table.Rows() == st.table.Rows();
      EmitLastTrace(st, outs, s);
      BasesSnoc(outs);
      assert s.emitted + [outs[|outs| - 1].base] == st.emitted + Bases(outs);
    }
  }

  lemma OneSpec(lib: Library, spec: IndicatorSpec, st: State)
    requires st.table.Valid() && HasBars(st.table)
    ensures ApplyAll(lib, st, [spec]) == ApplySpec(lib, st, spec)
  {
    assert [spec][..0] == [];
  }

  /** A single result stored through a fresh counter: its column holds the
      left-padded values under the composed name, as a numeric column. */
  lemma SingleResultPadded(lib: Library, spec: IndicatorSpec, t: Table, v: seq<Cell>)
    requires t.Valid() && HasBars(t) && spec.methodName in lib.methods
    requires lib.call(spec.methodName, Arguments(t, spec), spec.kwargs) == Returned(Single(v))
    requires |v| <= t.Rows()
    ensures var st := AddIndicatorsSpec(lib, [spec], t);
      var base := spec.prefix + Label(spec);
      st.error.None? && st.resolved == [base] &&
      st.table == Assign(t, base, PadLeft(v, t.Rows()), true) &&
      st.table.cols[base] == PadLeft(v, t.Rows()) && st.table.Numeric(base)
  {
    var base := spec.prefix + Label(spec);
    OneSpec(lib, spec, Start(t));
    var outs := Outputs(spec, Single(v));
    assert outs == [Output(base, v, PadFront)];
    assert outs[..0] == [];
    assert Emit(Start(t), outs) == EmitOne(Start(t), outs[0]);
  }

  /** The column an output leaves in a table under its own composed name: the
      placed values, numeric exactly when the placement is. */
  ghost predicate Stores(tb: Table, o: Output)
  {
    var p := Placed(o, tb.Rows());
    p.Some? && o.base in tb.cols && tb.cols[o.base] == p.value.0 && (tb.Numeric(o.base) <==> p.value.1)
  }

  /** Storing outputs leaves the use count of every other composed name alone. */
  lemma {:induction false} EmitCounterElsewhere(st: State, outs: seq<Output>, b: string)
    requires st.table.Valid() && HasBars(st.table)
    requires b !in Bases(outs)
    ensures Uses(Emit(st, outs).counter, b) == Uses(st.counter, b)
  {
    if outs != [] {
      BasesSnoc(outs);
      EmitCounterElsewhere(st, outs[..|outs| - 1], b);
    }
  }

  /** A composed name met for the first time is stored as itself and keeps
      the columns of the other names already stored. */
  lemma EmitOneFresh(s: State, o: Output, done: seq<Output>)
    requires s.table.Valid() && HasBars(s.table) && s.error.None?
    requires Placed(o, s.table.Rows()).Some? && Uses(s.counter, o.base) == 0
    requires o.base !in Bases(done)
    requires forall i :: 0 <= i < |done| ==> Stores(s.table, done[i])
    ensures var r := EmitOne(s, o);
      r.error.None? && r.resolved == s.resolved + [o.base] && Stores(r.table, o) &&
      forall i :: 0 <= i < |done| ==> Stores(r.table, done[i])
  {
    var r := EmitOne(s, o);
    var p := Placed(o, s.table.Rows()).value;
    assert r.table == Assign(s.table, o.base, p.0, p.1);
    forall i | 0 <= i < |done|
      ensures Stores(r.table, done[i])
    {
      assert Bases(done)[i] == done[i].base;
      AssignKeeps(s.table, o.base, p.0, p.1, done[i].base);
    }
  }

  /** Outputs with pairwise different composed names, none used before and
      all fitting the frame, are each stored under their own name. */
  lemma {:induction false} EmitFreshDistinct(st: State, outs: seq<Output>)
    requires st.table.Valid() && HasBars(st.table) && st.error.None?
    requires AllPlaced(outs, st.table.Rows()) && Distinct(Bases(outs))
    requires forall b :: b in Bases(outs) ==> Uses(st.counter, b) == 0
    ensures var r := Emit(st, outs);
      r.error.None? && r.resolved == st.resolved + Bases(outs) &&
      forall i :: 0 <= i < |outs| ==> Stores(r.table, outs[i])
  {
    if outs != [] {
      var init := outs[..|outs| - 1];
      var o := outs[|outs| - 1];
      BasesSnoc(outs);
      DistinctSnoc(Bases(init), o.base);
      AllPlacedInit(outs, st.table.Rows());
      EmitFreshDistinct(st, init);
      var s := Emit(st, init);
      EmitCounterElsewhere(st, init, o.base);
      EmitFreshLast(st, init, o, s);
      SplitLast(outs);
    }
  }

  lemma EmitFreshLast(st: State, init: seq<Output>, o: Output, s: State)
    requires st.table.Valid() && HasBars(st.table)
    requires s == Emit(st, init) && s.error.None?
    requires Placed(o, s.table.Rows()).Some? && Uses(s.counter, o.base) == 0 && o.base !in Bases(init)
    requires forall i :: 0 <= i < |init| ==> Stores(s.table, init[i])
    ensures var r := Emit(st, init + [o]);
      r.error.None? && r.resolved == s.resolved + [o.base] &&
      forall i :: 0 <= i < |init + [o]| ==> Stores(r.table, (init + [o])[i])
  {
    assert (init + [o])[..|init|] == init;
    var r := EmitOne(s, o);
    assert Emit(st, init + [o]) == r;
    EmitOneFresh(s, o, init);
    StoresSnoc(r.table, init, o);
  }

  lemma StoresSnoc(tb: Table, init: seq<Output>, o: Output)
    requires Stores(tb, o) && forall i :: 0 <= i < |init| ==> Stores(tb, init[i])
    ensures forall i :: 0 <= i < |init + [o]| ==> Stores(tb, (init + [o])[i])
  {
    forall i | 0 <= i < |init + [o]| ensures Stores(tb, (init + [o])[i]) {
      if i < |init| {
        assert (init + [o])[i] == init[i];
      }
    }
  }

  /** The outputs of a tuple result: part i under `prefix + label + "_" + i`,
      padded in front; the names differ and parts that fit the frame fit. */
  lemma TupleOutputs(spec: IndicatorSpec, parts: seq<seq<Cell>>, rows: nat)
    requires forall i :: 0 <= i < |parts| ==> |parts[i]| <= rows
    ensures var outs := Outputs(spec, Tuple(parts));
      AllPlaced(outs, rows) && Distinct(Bases(outs)) &&
      forall i :: 0 <= i < |parts| ==>
        outs[i] == Output(spec.prefix + Label(spec) + "_" + NatToString(i), parts[i], PadFront)
  {
    var base := spec.prefix + Label(spec);
    var outs := Outputs(spec, Tuple(parts));
    forall i, j | 0 <= i < j < |outs| ensures Bases(outs)[i] != Bases(outs)[j] {
      SamePrefix(base + "_", NatToString(i), NatToString(j));
      NatToStringInjective(i, j);
    }
  }

  /** A single spec on a fresh counter whose backend returns `ret` stores the
      outputs of `ret`. */
  lemma OneSpecReturns(lib: Library, spec: IndicatorSpec, t: Table, ret: RetVal)
    requires t.Valid() && HasBars(t) && spec.methodName in lib.methods
    requires lib.call(spec.methodName, Arguments(t, spec), spec.kwargs) == Returned(ret)
    ensures AddIndicatorsSpec(lib, [spec], t) == Emit(Start(t), Outputs(spec, ret))
  {
    OneSpec(lib, spec, Start(t));
  }

  /** A tuple result stored through a fresh counter: part i goes to the column
      `prefix + label + "_" + i`, left-padded to the frame, as a numeric column. */
  lemma TupleResultPadded(lib: Library, spec: IndicatorSpec, t: Table, parts: seq<seq<Cell>>)
    requires t.Valid() && HasBars(t) && spec.methodName in lib.methods
    requires lib.call(spec.methodName, Arguments(t, spec), spec.kwargs) == Returned(Tuple(parts))
    requires forall i :: 0 <= i < |parts| ==> |parts[i]| <= t.Rows()
    ensures var st := AddIndicatorsSpec(lib, [spec], t);
      var base := spec.prefix + Label(spec);
      st.error.None? && |st.resolved| == |parts| &&
      forall i :: 0 <= i < |parts| ==>
        st.resolved[i] == base + "_" + NatToString(i) && st.resolved[i] in st.table.cols &&
        st.table.cols[st.resolved[i]] == PadLeft(parts[i], t.Rows()) && st.table.Numeric(st.resolved[i])
  {
    var outs := Outputs(spec, Tuple(parts));
    OneSpecReturns(lib, spec, t, Tuple(parts));
    TupleOutputs(spec, parts, t.Rows());
    EmitFreshDistinct(Start(t), outs);
    var st := Emit(Start(t), outs);
    PaddedStored(st.table, st.resolved, outs, parts, spec.prefix + Label(spec));
  }

  lemma PaddedStored(tb: Table, resolved: seq<string>, outs: seq<Output>, parts: seq<seq<Cell>>, base: string)
    requires resolved == Bases(outs) && |outs| == |parts|
    requires forall i :: 0 <= i < |outs| ==> Stores(tb, outs[i])
    requires forall i :: 0 <= i < |parts| ==>
      outs[i] == Output(base + "_" + NatToString(i), parts[i], PadFront) && |parts[i]| <= tb.Rows()
    ensures forall i :: 0 <= i < |parts| ==>
      resolved[i] == base + "_" + NatToString(i) && resolved[i] in tb.cols &&
      tb.cols[resolved[i]] == PadLeft(parts[i], tb.Rows()) && tb.Numeric(resolved[i])
  {
    forall i | 0 <= i < |parts|
      ensures resolved[i] == base + "_" + NatToString(i) && resolved[i] in tb.cols
      ensures tb.cols[resolved[i]] == PadLeft(parts[i], tb.Rows()) && tb.Numeric(resolved[i])
    {
      assert Stores(tb, outs[i]);
    }
  }

  /** The outputs of a DataFrame result: column c under `prefix + c` with `_`
      read as `|`, aligned on the frame, which always fits. */
  lemma TableOutputs(spec: IndicatorSpec, columns: seq<(string, seq<Cell>)>, rows: nat)
    ensures var outs := Outputs(spec, TableOut(columns));
      AllPlaced(outs, rows) &&
      forall i :: 0 <= i < |columns| ==>
        outs[i] == Output(spec.prefix + ReplaceChar(columns[i].0, '_', '|'), columns[i].1, Align)
  {
  }

  /** A table result stored through a fresh counter whose composed names
      differ: column c goes to `prefix + c` with `_` read as `|`, aligned on
      the frame's rows, as a numeric column. */
  lemma TableResultNamed(lib: Library, spec: IndicatorSpec, t: Table, columns: seq<(string, seq<Cell>)>)
    requires t.Valid() && HasBars(t) && spec.methodName in lib.methods
    requires lib.call(spec.methodName, Arguments(t, spec), spec.kwargs) == Returned(TableOut(columns))
    requires forall i, j :: 0 <= i < j < |columns| ==>
      spec.prefix + ReplaceChar(columns[i].0, '_', '|') != spec.prefix + ReplaceChar(columns[j].0, '_', '|')
    ensures var st := AddIndicatorsSpec(lib, [spec], t);
      st.error.None? && |st.resolved| == |columns| &&
      forall i :: 0 <= i < |columns| ==>
        st.resolved[i] == spec.prefix + ReplaceChar(columns[i].0, '_', '|') && st.resolved[i] in st.table.cols &&
        st.table.cols[st.resolved[i]] == Fit(columns[i].1, t.Rows()) && st.table.Numeric(st.resolved[i])
  {
    var outs := Outputs(spec, TableOut(columns));
    OneSpecReturns(lib, spec, t, TableOut(columns));
    TableOutputs(spec, columns, t.Rows());
    assert Distinct(Bases(outs)) by {
      forall i, j | 0 <= i < j < |outs| ensures Bases(outs)[i] != Bases(outs)[j] {
        assert outs[i].base == spec.prefix + ReplaceChar(columns[i].0, '_', '|');
      }
    }
    EmitFreshDistinct(Start(t), outs);
    var st := Emit(Start(t), outs);
    AlignedStored(st.table, st.resolved, outs, columns, spec.prefix);
  }

  lemma AlignedStored(tb: Table, resolved: seq<string>, outs: seq<Output>, columns: seq<(string, seq<Cell>)>, prefix: string)
    requires resolved == Bases(outs) && |outs| == |columns|
    requires forall i :: 0 <= i < |outs| ==> Stores(tb, outs[i])
    requires forall i :: 0 <= i < |columns| ==>
      outs[i] == Output(prefix + ReplaceChar(columns[i].0, '_', '|'), columns[i].1, Align)
    ensures forall i :: 0 <= i < |columns| ==>
      resolved[i] == prefix + ReplaceChar(columns[i].0, '_', '|') && resolved[i] in tb.cols &&
      tb.cols[resolved[i]] == Fit(columns[i].1, tb.Rows()) && tb.Numeric(resolved[i])
  {
    forall i | 0 <= i < |columns|
      ensures resolved[i] == prefix + ReplaceChar(columns[i].0, '_', '|') && resolved[i] in tb.cols
      ensures tb.cols[resolved[i]] == Fit(columns[i].1, tb.Rows()) && tb.Numeric(resolved[i])
    {
      assert Stores(tb, outs[i]);
    }
  }

  /** The counter restarts with every call: storing the same single result in a
      second call reuses the first call's name and overwrites its column
      instead of adding a `_2` column. */
  lemma SecondCallOverwrites(lib: Library, spec: IndicatorSpec, t: Table, v: seq<Cell>)
    requires t.Valid() && HasBars(t) && spec.methodName in lib.methods
    requires spec.prefix + Label(spec) !in BarColumns
    requires lib.call(spec.methodName, Arguments(t, spec), spec.kwargs) == Returned(Single(v))
    requires |v| <= t.Rows()
    ensures var first := AddIndicatorsSpec(lib, [spec], t);
      var second := AddIndicatorsSpec(lib, [spec], first.table);
      second.resolved == first.resolved && second.table.names == first.table.names
  {
    SingleResultPadded(lib, spec, t, v);
    var first := AddIndicatorsSpec(lib, [spec], t);
    var base := spec.prefix + Label(spec);
    var keys := PositionalColumns(spec.args);
    forall i | 0 <= i < |keys| ensures first.table.cols[keys[i]] == t.cols[keys[i]] {
      assert keys[i] in BarColumns;
    }
    assert Arguments(first.table, spec) == Arguments(t, spec);
    SingleResultPadded(lib, spec, first.table, v);
  }

  /** Two distinct names met twice each: the second round gets `_2`. */
  lemma ResolveTwice(x: string, y: string)
    requires x != y
    ensures ResolveAll(map[], [x, y, x, y]).0 == [x, y, x + "_2", y + "_2"]
  {
    var e := [x, y, x, y];
    TwiceCounts(x, y);
    ResolvedName(e, 0);
    ResolvedName(e, 1);
    ResolvedName(e, 2);
    ResolvedName(e, 3);
    assert Suffixed(x, 2) == x + "_2" && Suffixed(y, 2) == y + "_2" by {
      assert NatToString(2) == "2";
    }
  }

  /** How often each of two distinct names has been met at each step of `x, y, x, y`. */
  lemma TwiceCounts(x: string, y: string)
    requires x != y
    ensures var e := [x, y, x, y];
      Occurrences(e[..1], x) == 1 && Occurrences(e[..2], y) == 1 &&
      Occurrences(e[..3], x) == 2 && Occurrences(e[..4], y) == 2
  {
    var e := [x, y, x, y];
    assert e[..1] == [x] && e[..2] == [x, y] && e[..3] == [x, y, x] && e[..4] == e;
    assert [x][..0] == [] && [x, y][..1] == [x] && [x, y, x][..2] == [x, y] && e[..3] == [x, y, x];
    assert Occurrences([x], x) == 1;
    assert Occurrences([x], y) == 0;
    assert Occurrences([x, y], y) == 1;
    assert Occurrences([x, y], x) == 1;
  }

  lemma ApplyTwo(lib: Library, st: State, a: IndicatorSpec, b: IndicatorSpec)
    requires st.table.Valid() && HasBars(st.table)
    ensures ApplyAll(lib, st, [a, b]) == ApplySpec(lib, ApplySpec(lib, st, a), b)
  {
    OneSpec(lib, a, st);
    assert [a, b][..1] == [a];
  }

  lemma ConstantCall(lib: Library, spec: IndicatorSpec, st: State, ret: RetVal)
    requires st.table.Valid() && HasBars(st.table) && st.error.None? && spec.methodName in lib.methods
    requires forall args :: lib.call(spec.methodName, args, spec.kwargs) == Returned(ret)
    ensures ApplySpec(lib, st, spec) == Emit(st, Outputs(spec, ret))
  {
    assert lib.call(spec.methodName, Arguments(st.table, spec), spec.kwargs) == Returned(ret);
  }

  /** A spec whose backend always returns the same fitting outputs, listed
      twice, meets their composed names twice in a row. */
  lemma TwiceTrace(lib: Library, spec: IndicatorSpec, t: Table, ret: RetVal)
    requires t.Valid() && HasBars(t) && spec.methodName in lib.methods
    requires forall args :: lib.call(spec.methodName, args, spec.kwargs) == Returned(ret)
    requires forall i :: 0 <= i < |Outputs(spec, ret)| ==> Placed(Outputs(spec, ret)[i], t.Rows()).Some?
    ensures var outs := Outputs(spec, ret);
      AddIndicatorsSpec(lib, [spec, spec], t).emitted == Bases(outs) + Bases(outs)
  {
    var outs := Outputs(spec, ret);
    ApplyTwo(lib, Start(t), spec, spec);
    ConstantCall(lib, spec, Start(t), ret);
    EmitTrace(Start(t), outs);
    var s1 := Emit(Start(t), outs);
    ConstantCall(lib, spec, s1, ret);
    EmitTrace(s1, outs);
    var s2 := Emit(s1, outs);
    assert s1.emitted == Bases(outs);
    assert AddIndicatorsSpec(lib, [spec, spec], t) == s2;
  }

  /** The same two-part tuple method listed twice in one call gives
      `b_0`, `b_1`, then `b_0_2`, `b_1_2`. */
  lemma RepeatedTupleNames(lib: Library, spec: IndicatorSpec, t: Table, p0: seq<Cell>, p1: seq<Cell>)
    requires t.Valid() && HasBars(t) && spec.methodName in lib.methods
    requires forall args :: lib.call(spec.methodName, args, spec.kwargs) == Returned(Tuple([p0, p1]))
    requires |p0| <= t.Rows() && |p1| <= t.Rows()
    ensures var b := spec.prefix + Label(spec);
      AddIndicatorsSpec(lib, [spec, spec], t).resolved == [b + "_0", b + "_1", b + "_0_2", b + "_1_2"]
  {
    var b := spec.prefix + Label(spec);
    TupleBases(spec, p0, p1);
    TwiceTrace(lib, spec, t, Tuple([p0, p1]));
    ApplyAllConsistent(lib, Start(t), [spec, spec]);
    TupleNamesTwice(b);
    var st := AddIndicatorsSpec(lib, [spec, spec], t);
    assert st.emitted == [b + "_0", b + "_1", b + "_0", b + "_1"];
  }

  lemma TupleBases(spec: IndicatorSpec, p0: seq<Cell>, p1: seq<Cell>)
    ensures var b := spec.prefix + Label(spec);
      Bases(Outputs(spec, Tuple([p0, p1]))) == [b + "_0", b + "_1"]
  {
    assert NatToString(0) == "0" && NatToString(1) == "1";
    var b := spec.prefix + Label(spec);
    var outs := Outputs(spec, Tuple([p0, p1]));
    assert outs[0].base == b + "_0" && outs[1].base == b + "_1";
  }

  lemma TupleNamesTwice(b: string)
    ensures ResolveAll(map[], [b + "_0", b + "_1", b + "_0", b + "_1"]).0 == [b + "_0", b + "_1", b + "_0_2", b + "_1_2"]
  {
    var b0, b1 := b + "_0", b + "_1";
    SamePrefix(b, "_0", "_1");
    ResolveTwice(b0, b1);
    assert b0 + "_2" == b + "_0_2";
    assert b1 + "_2" == b + "_1_2";
  }

  // ---------------------------------------------------------------------------
  // The in-place implementation

  /** Store a list of outputs into the frame through the counter. */
  method EmitAll(rf: Frame, counter: Counter, outs: seq<Output>, ghost st0: State)
    returns (counter': Counter, err: Option<IndicatorError>)
    requires rf.Valid() && HasBars(rf.Contents())
    requires st0.table == rf.Contents() && st0.counter == counter && st0.error.None?
    modifies rf
    ensures var st := Emit(st0, outs);
      rf.Contents() == st.table && counter' == st.counter && err == st.error
  {
    counter' := counter;
    var i := 0;
    while i < |outs|
      invariant 0 <= i <= |outs|
      invariant var st := Emit(st0, outs[..i]);
        rf.Contents() == st.table && counter' == st.counter && st.error.None?
    {
      assert outs[..i + 1][..i] == outs[..i];
      var o := outs[i];
      var resolved := Resolve(counter', o.base);
      var name := resolved.0;
      counter' := resolved.1;
      var placed := Placed(o, |rf.index|);
      if placed.None? {
        err := Some(TooLong(name));
        EmitStopsAt(st0, outs, i + 1);
        return;
      }
      rf.Set(name, placed.value.0, placed.value.1);
      i := i + 1;
    }
    assert outs[..i] == outs;
    err := None;
  }

  /** Once an output raised, the rest of the list is not stored. */
  lemma {:induction false} EmitStopsAt(st0: State, outs: seq<Output>, j: nat)
    requires st0.table.Valid() && HasBars(st0.table)
    requires j <= |outs| && Emit(st0, outs[..j]).error.Some?
    ensures Emit(st0, outs) == Emit(st0, outs[..j])
  {
    if j < |outs| {
      var init := outs[..|outs| - 1];
      assert init[..j] == outs[..j];
      EmitStopsAt(st0, init, j);
    } else {
      assert outs[..j] == outs;
    }
  }

  /** Once a spec raised, the remaining specs are not applied. */
  lemma {:induction false} ApplyAllStopsAt(lib: Library, st0: State, specs: seq<IndicatorSpec>, j: nat)
    requires st0.table.Valid() && HasBars(st0.table)
    requires j <= |specs| && ApplyAll(lib, st0, specs[..j]).error.Some?
    ensures ApplyAll(lib, st0, specs) == ApplyAll(lib, st0, specs[..j])
  {
    if j < |specs| {
      var init := specs[..|specs| - 1];
      assert init[..j] == specs[..j];
      ApplyAllStopsAt(lib, st0, init, j);
    } else {
      assert specs[..j] == specs;
    }
  }

  /** `add_indicators(library, indicators, rf)`: updates rf in place; a fatal
      error stops the call at the spec that raised it. */
  method AddIndicators(lib: Library, specs: seq<IndicatorSpec>, rf: Frame)
    returns (err: Option<IndicatorError>)
    requires rf.Valid() && HasBars(rf.Contents())
    modifies rf
    ensures rf.Valid() && HasBars(rf.Contents())
    ensures var st := AddIndicatorsSpec(lib, specs, old(rf.Contents()));
      rf.Contents() == st.table && err == st.error
  {
    ghost var t0 := rf.Contents();
    var counter: Counter := map[];
    var k := 0;
    while k < |specs|
      invariant 0 <= k <= |specs|
      invariant var st := ApplyAll(lib, Start(t0), specs[..k]);
        rf.Contents() == st.table && counter == st.counter && st.error.None?
      invariant rf.Valid() && HasBars(rf.Contents())
    {
      counter, err := SpecInPlace(lib, specs, rf, counter, t0, k);
      if err.Some? {
        ApplyAllStopsAt(lib, Start(t0), specs, k + 1);
        return;
      }
      k := k + 1;
    }
    assert specs[..k] == specs;
    err := None;
  }

  /** One spec of the list, applied to the frame in place. */
  method SpecInPlace(lib: Library, specs: seq<IndicatorSpec>, rf: Frame, counter: Counter, ghost t0: Table, k: nat)
    returns (counter': Counter, err: Option<IndicatorError>)
    requires t0.Valid() && HasBars(t0) && k < |specs|
    requires rf.Valid() && HasBars(rf.Contents())
    requires var st := ApplyAll(lib, Start(t0), specs[..k]);
      rf.Contents() == st.table && counter == st.counter && st.error.None?
    modifies rf
    ensures rf.Valid() && HasBars(rf.Contents())
    ensures var st := ApplyAll(lib, Start(t0), specs[..k + 1]);
      rf.Contents() == st.table && counter' == st.counter && err == st.error
  {
    ghost var st := ApplyAll(lib, Start(t0), specs[..k]);
    ApplyAllSnoc(lib, Start(t0), specs, k);
    var ti := specs[k];
    counter', err := counter, None;
    if ti.methodName in lib.methods {
      var posArgs := PositionalArguments(rf, ti);
      var ret := lib.call(ti.methodName, posArgs, ti.kwargs);
      if ret.Raised? {
        err := Some(BackendRaised(ti.methodName));
        return;
      }
      var outs := Outputs(ti, ret.value);
      counter', err := EmitAll(rf, counter, outs, st);
    }
  }

  /** `[rf[key] for key in positional keys]`: the columns handed to the backend. */
  method PositionalArguments(rf: Frame, ti: IndicatorSpec) returns (posArgs: seq<seq<Cell>>)
    requires HasBars(rf.Contents())
    ensures posArgs == Arguments(rf.Contents(), ti)
  {
    var keys := PositionalColumns(ti.args);
    posArgs := [];
    var j := 0;
    while j < |keys|
      invariant 0 <= j <= |keys| && |posArgs| == j
      invariant forall i :: 0 <= i < j ==> posArgs[i] == rf.cols[keys[i]]
    {
      posArgs := posArgs + [rf.cols[keys[j]]];
      j := j + 1;
    }
  }

  lemma ApplyAllSnoc(lib: Library, st0: State, specs: seq<IndicatorSpec>, k: nat)
    requires st0.table.Valid() && HasBars(st0.table) && k < |specs|
    ensures ApplyAll(lib, st0, specs[..k + 1]) == ApplySpec(lib, ApplyAll(lib, st0, specs[..k]), specs[k])
  {
    TakeSnoc(specs, k);
    TakeTake(specs, k);
  }
}

=== FILE: lookbacks.dfy ===
/** Lookback columns: for each entry of `lookbacks` whose field the frame
    holds, `lb_<period>_<field>` is the field `period` bars back, or the
    field divided by that value in ratio mode. */
module Lookbacks {
  import opened Wrappers
  import opened Cells
  import opened Text
  import opened Frames

  /** One entry of `lookbacks`; `periods` defaults to [1, 2] and `ratio` to
      false. A period is `int(period)`: a negative one looks forward. */
  datatype LookbackSpec = LookbackSpec(field: string, periods: Option<seq<int>>, ratio: bool)

  function Periods(lb: LookbackSpec): seq<int> { lb.periods.GetOr([1, 2]) }

  function LbName(period: int, field: string): string
  {
    "lb_" + IntToString(period) + "_" + field
  }

  /** `rf[field].shift(p)`, or `rf[field] / rf[field].shift(p)` in ratio mode. */
  function LbColumn(col: seq<Cell>, p: int, ratio: bool): (r: seq<Cell>)
    ensures |r| == |col|
  {
    var back := Shift(col, p);
    if ratio then seq(|col|, i requires 0 <= i < |col| => Div(col[i], back[i])) else back
  }

  /** Row i is the field at i - p, or the field at i divided by it; it is
      missing where there is no row i - p: the first p rows for p >= 0, the
      last -p rows for p < 0. */
  lemma LookbackValue(col: seq<Cell>, p: int, ratio: bool, i: nat)
    requires i < |col|
    ensures (p >= 0 && i < p) || (p < 0 && i >= |col| + p) ==> LbColumn(col, p, ratio)[i].Missing?
    ensures 0 <= i - p < |col| && !ratio ==> LbColumn(col, p, ratio)[i] == col[i - p]
    ensures 0 <= i - p < |col| && ratio ==> LbColumn(col, p, ratio)[i] == Div(col[i], col[i - p])
  {
  }

  /** A period of -1 reads the next bar, under `lb_-1_<field>`; the last row
      has no next bar. */
  lemma NextBar()
    ensures LbName(-1, "close") == "lb_-1_close"
    ensures LbColumn([Val(1.0), Val(2.0), Val(3.0)], -1, false) == [Val(2.0), Val(3.0), Missing]
  {
    assert IntToString(-1) == "-1";
  }

  /** A doubling series read two bars back in ratio mode grows fourfold. */
  lemma DoublingSeries()
    ensures LbColumn([Val(1.0), Val(2.0), Val(4.0), Val(8.0), Val(16.0)], 2, true) ==
            [Missing, Missing, Val(4.0), Val(4.0), Val(4.0)]
  {
    var col := [Val(1.0), Val(2.0), Val(4.0), Val(8.0), Val(16.0)];
    var r := LbColumn(col, 2, true);
    assert r[2] == Div(Val(4.0), Val(1.0));
    assert r[3] == Div(Val(8.0), Val(2.0));
    assert r[4] == Div(Val(16.0), Val(4.0));
  }

  // ---------------------------------------------------------------------------
  // The specification of the two nested loops

  /** `for period in periods`; the field is read afresh each time. */
  function AddPeriods(t: Table, field: string, periods: seq<int>, ratio: bool): (r: Table)
    requires t.Valid() && field in t.cols
    ensures r.Valid() && r.index == t.index && t.cols.Keys <= r.cols.Keys
    ensures field in r.cols && r.cols[field] == t.cols[field] && (r.Numeric(field) <==> t.Numeric(field))
  {
    if periods == [] then t
    else
      var s := AddPeriods(t, field, periods[..|periods| - 1], ratio);
      var p := periods[|periods| - 1];
      LbNameFacts(p, field);
      Assign(s, LbName(p, field), LbColumn(s.cols[field], p, ratio), ratio || s.Numeric(field))
  }

  /** `for lb in lookbacks`: an entry whose field the frame does not hold adds nothing. */
  function AddLookbacks(t: Table, lookbacks: seq<LookbackSpec>): (r: Table)
    requires t.Valid()
    ensures r.Valid() && r.index == t.index && t.cols.Keys <= r.cols.Keys
  {
    if lookbacks == [] then t
    else
      var s := AddLookbacks(t, lookbacks[..|lookbacks| - 1]);
      var lb := lookbacks[|lookbacks| - 1];
      if lb.field in s.cols then AddPeriods(s, lb.field, Periods(lb), lb.ratio) else s
  }

  // ---------------------------------------------------------------------------
  // Names

  lemma LbNameFacts(p: int, field: string)
    ensures LbName(p, field) != field && StartsWith(LbName(p, field), "lb_")
  {
    assert LbName(p, field) == "lb_" + (IntToString(p) + "_" + field);
    StartsWithAppend("lb_", IntToString(p) + "_" + field);
  }

  lemma LbNameInjective(p: int, f: string, q: int, g: string)
    ensures LbName(p, f) == LbName(q, g) ==> p == q && f == g
  {
    var a, b := IntToString(p), IntToString(q);
    assert LbName(p, f) == "lb_" + (a + ['_'] + f);
    assert LbName(q, g) == "lb_" + (b + ['_'] + g);
    if LbName(p, f) == LbName(q, g) {
      SamePrefix("lb_", a + ['_'] + f, b + ['_'] + g);
      assert '_' !in a && '_' !in b;
      SplitAtFirst(a, '_', f, b, g);
      IntToStringInjective(p, q);
    }
  }

  // ---------------------------------------------------------------------------
  // What the loops write

  /** Only `lb_` columns change, and every other column keeps its dtype. */
  ghost predicate KeepsOthers(t: Table, r: Table)
  {
    forall x :: !StartsWith(x, "lb_") ==>
      (x in r.cols <==> x in t.cols) &&
      (x in t.cols ==> r.cols[x] == t.cols[x] && (r.Numeric(x) <==> t.Numeric(x)))
  }

  lemma {:induction false} AddPeriodsKeeps(t: Table, field: string, periods: seq<int>, ratio: bool)
    requires t.Valid() && field in t.cols
    ensures KeepsOthers(t, AddPeriods(t, field, periods, ratio))
  {
    if periods != [] {
      AddPeriodsKeeps(t, field, periods[..|periods| - 1], ratio);
      var p := periods[|periods| - 1];
      LbNameFacts(p, field);
      forall x | !StartsWith(x, "lb_") ensures x != LbName(p, field) { }
    }
  }

  /** Every column whose name does not start with `lb_` keeps its cells and dtype. */
  lemma {:induction false} LookbacksKeep(t: Table, lookbacks: seq<LookbackSpec>)
    requires t.Valid()
    ensures KeepsOthers(t, AddLookbacks(t, lookbacks))
  {
    if lookbacks != [] {
      var s := AddLookbacks(t, lookbacks[..|lookbacks| - 1]);
      LookbacksKeep(t, lookbacks[..|lookbacks| - 1]);
      var lb := lookbacks[|lookbacks| - 1];
      if lb.field in s.cols {
        AddPeriodsKeeps(s, lb.field, Periods(lb), lb.ratio);
      }
    }
  }

  lemma {:induction false} AddPeriodsWrites(t: Table, field: string, periods: seq<int>, ratio: bool, p: int)
    requires t.Valid() && field in t.cols && p in periods
    ensures var r := AddPeriods(t, field, periods, ratio);
      LbName(p, field) in r.cols && r.cols[LbName(p, field)] == LbColumn(t.cols[field], p, ratio)
  {
    var init, last := periods[..|periods| - 1], periods[|periods| - 1];
    SplitLast(periods);
    if p != last {
      AddPeriodsWrites(t, field, init, ratio, p);
      LbNameInjective(p, field, last, field);
    }
  }

  /** One entry: a field the frame holds gets one column per period, computed
      from its cells; an absent field adds nothing. */
  lemma LookbackWrites(t: Table, lb: LookbackSpec, p: int)
    requires t.Valid() && p in Periods(lb)
    ensures var r := AddLookbacks(t, [lb]);
      && (lb.field in t.cols ==>
           LbName(p, lb.field) in r.cols && r.cols[LbName(p, lb.field)] == LbColumn(t.cols[lb.field], p, lb.ratio))
      && (lb.field !in t.cols ==> r == t)
  {
    assert [lb][..0] == [];
    if lb.field in t.cols {
      AddPeriodsWrites(t, lb.field, Periods(lb), lb.ratio, p);
    }
  }

  // ---------------------------------------------------------------------------
  // The in-place loops

  /** One more period appends one assignment to the fold. */
  lemma PeriodsStep(t0: Table, field: string, periods: seq<int>, ratio: bool, j: nat, s: Table)
    requires t0.Valid() && field in t0.cols && j < |periods|
    requires s == AddPeriods(t0, field, periods[..j], ratio)
    ensures field in s.cols
    ensures AddPeriods(t0, field, periods[..j + 1], ratio) ==
      Assign(s, LbName(periods[j], field), LbColumn(s.cols[field], periods[j], ratio), ratio || s.Numeric(field))
  {
    TakeSnoc(periods, j);
    TakeTake(periods, j);
  }

  /** One turn of `for period in periods`: `rf[lb_<p>_<field>] = ...`. */
  method PeriodInPlace(rf: Frame, ghost t0: Table, field: string, periods: seq<int>, ratio: bool, j: nat)
    requires t0.Valid() && field in t0.cols && j < |periods|
    requires rf.Contents() == AddPeriods(t0, field, periods[..j], ratio)
    modifies rf
    ensures rf.Contents() == AddPeriods(t0, field, periods[..j + 1], ratio)
  {
    PeriodsStep(t0, field, periods, ratio, j, rf.Contents());
    var col := LbColumn(rf.cols[field], periods[j], ratio);
    var numeric := ratio || rf.Contents().Numeric(field);
    rf.Set(LbName(periods[j], field), col, numeric);
  }

  method PeriodsInPlace(rf: Frame, field: string, periods: seq<int>, ratio: bool)
    requires rf.Valid() && field in rf.cols
    modifies rf
    ensures rf.Contents() == AddPeriods(old(rf.Contents()), field, periods, ratio)
  {
    ghost var t0 := rf.Contents();
    var j := 0;
    while j < |periods|
      invariant 0 <= j <= |periods|
      invariant rf.Contents() == AddPeriods(t0, field, periods[..j], ratio)
    {
      PeriodInPlace(rf, t0, field, periods, ratio, j);
      j := j + 1;
    }
    assert periods[..j] == periods;
  }

  /** `for lb in lookbacks: ...`, updating rf in place. */
  method LookbacksInPlace(rf: Frame, lookbacks: seq<LookbackSpec>)
    requires rf.Valid()
    modifies rf
    ensures rf.Contents() == AddLookbacks(old(rf.Contents()), lookbacks)
  {
    ghost var t0 := rf.Contents();
    var k := 0;
    while k < |lookbacks|
      invariant 0 <= k <= |lookbacks|
      invariant rf.Contents() == AddLookbacks(t0, lookbacks[..k])
    {
      TakeTake(lookbacks, k);
      var lb := lookbacks[k];
      if lb.field in rf.cols {
        PeriodsInPlace(rf, lb.field, Periods(lb), lb.ratio);
      }
      k := k + 1;
    }
    assert lookbacks[..k] == lookbacks;
  }
}

=== FILE: merge.dfy ===
/** The multi-instrument path of `fetch`: each instrument's finished frame has
    its columns prefixed with the instrument's name, the frames are left-merged
    one after the other onto a common time grid, every volume column's gaps
    become 0, everything else is back-filled, calendar columns may be added, and
    the rows still holding a missing or infinite cell are dropped. */
module Merge {
  import opened Wrappers
  import opened Cells
  import opened Text
  import opened Frames
  import opened Features
  import opened Timeframes

  /** `"%s-%s" % (instrument, col)`. */
  function Prefix(inst: string, c: string): string
  {
    inst + "-" + c
  }

  lemma PrefixInjective(inst: string, c: string, d: string)
    ensures Prefix(inst, c) == Prefix(inst, d) <==> c == d
  {
    SamePrefix(inst + "-", c, d);
  }

  /** With instrument names free of '-', a merged name tells both the
      instrument and the column it came from. */
  lemma PrefixSplits(a: string, c: string, b: string, d: string)
    requires '-' !in a && '-' !in b
    requires Prefix(a, c) == Prefix(b, d)
    ensures a == b && c == d
  {
    SplitAtFirst(a, '-', c, b, d);
  }

  /** A merged name is never one of the calendar column names. */
  lemma PrefixNotDateName(inst: string, c: string)
    ensures Prefix(inst, c) !in ["minute", "hour", "day", "month", "weekday", "year"]
  {
    assert Prefix(inst, c)[|inst|] == '-';
  }

  /** The new column labels, in the old order. */
  function PrefixAll(names: seq<string>, inst: string): (r: seq<string>)
    ensures |r| == |names| && forall k :: 0 <= k < |names| ==> r[k] == Prefix(inst, names[k])
    ensures Distinct(names) ==> Distinct(r)
  {
    var r := seq(|names|, k requires 0 <= k < |names| => Prefix(inst, names[k]));
    assert Distinct(names) ==> Distinct(r) by {
      forall i, j | 0 <= i < j < |names| ensures r[i] == r[j] ==> names[i] == names[j] {
        PrefixInjective(inst, names[i], names[j]);
      }
    }
    r
  }

  lemma PrefixInjectiveOn(keys: set<string>, inst: string)
    ensures forall c, d :: c in keys && d in keys && Prefix(inst, c) == Prefix(inst, d) ==> c == d
  {
    forall c, d | c in keys && d in keys && Prefix(inst, c) == Prefix(inst, d) ensures c == d {
      PrefixInjective(inst, c, d);
    }
  }

  /** `tmpdf.columns = [...]`: every column renamed to `<instrument>-<column>`. */
  function Prefixed(t: Table, inst: string): (r: Table)
    requires t.Valid()
    ensures r.Valid() && r.index == t.index
    ensures forall c :: c in t.cols ==> Prefix(inst, c) in r.cols && r.cols[Prefix(inst, c)] == t.cols[c]
    ensures forall x :: x in r.cols ==> exists c :: c in t.cols && x == Prefix(inst, c)
  {
    PrefixInjectiveOn(t.cols.Keys, inst);
    var names := PrefixAll(t.names, inst);
    var cols := map c | c in t.cols :: Prefix(inst, c) := t.cols[c];
    PrefixedKeys(t, inst, names, cols);
    Table(t.index, names, cols, set c | c in t.objects :: Prefix(inst, c))
  }

  /** The prefixed names are exactly the keys of the prefixed columns. */
  lemma PrefixedKeys(t: Table, inst: string, names: seq<string>, cols: map<string, seq<Cell>>)
    requires t.Valid() && names == PrefixAll(t.names, inst)
    requires forall x :: x in cols <==> exists c :: c in t.cols && x == Prefix(inst, c)
    ensures forall x :: x in cols <==> x in names
  {
    forall x | x in names ensures x in cols {
      var k :| 0 <= k < |names| && names[k] == x;
      assert t.names[k] in t.cols;
    }
    forall x | x in cols ensures x in names {
      var c :| c in t.cols && x == Prefix(inst, c);
      var k :| 0 <= k < |t.names| && t.names[k] == c;
      assert names[k] == x;
    }
  }

  /** The first of the names that the table already holds, if any. */
  function FirstShared(data: Table, names: seq<string>): (r: Option<string>)
    ensures r.None? <==> forall k :: 0 <= k < |names| ==> names[k] !in data.cols
    ensures r.Some? ==> r.value in names && r.value in data.cols
  {
    if names == [] then None
    else if names[0] in data.cols then Some(names[0])
    else
      var r := FirstShared(data, names[1..]);
      assert forall k :: 1 <= k < |names| ==> names[k] == names[1..][k - 1];
      r
  }

  /** `data.merge(df, left_index=True, right_index=True, how='left')`: the rows
      of `data` are kept, and each column of `df` is read at data's timestamps,
      missing where df has no row. A name both frames hold is reported as an
      error (pandas would suffix the two copies). */
  function LeftMerge(data: Table, df: Table): (r: Result<Table, string>)
    requires data.Valid() && df.Valid()
    ensures r.Err? <==> exists k :: 0 <= k < |df.names| && df.names[k] in data.cols
    ensures r.Err? ==> r.error in data.cols && r.error in df.cols
    ensures r.Ok? ==> r.value.Valid() && r.value.index == data.index
    ensures r.Ok? ==> forall c :: c in r.value.cols <==> c in data.cols || c in df.cols
    ensures r.Ok? ==> forall c :: c in data.cols ==> r.value.cols[c] == data.cols[c]
    ensures r.Ok? ==> forall c :: c in df.cols ==> r.value.cols[c] == Reindex(df.cols[c], df.index, data.index)
  {
    match FirstShared(data, df.names)
    case Some(c) => Err(c)
    case None =>
      var cols := map c | c in data.cols.Keys + df.cols.Keys ::
        if c in data.cols then data.cols[c] else Reindex(df.cols[c], df.index, data.index);
      var names := data.names + df.names;
      DisjointConcat(data.names, df.names);
      Ok(Table(data.index, names, cols, data.objects + df.objects))
  }

  /** The frames of the instruments, in the caller's order. */
  type Instruments = seq<(string, Table)>

  ghost predicate AllValid(frames: Instruments)
  {
    forall k :: 0 <= k < |frames| ==> frames[k].1.Valid()
  }

  /** `data = pd.DataFrame(index=grid)`, then each prefixed frame merged in turn. */
  function MergeAll(grid: seq<int>, frames: Instruments): (r: Result<Table, string>)
    requires Increasing(grid) && AllValid(frames)
    ensures r.Ok? ==> r.value.Valid() && r.value.index == grid
  {
    if frames == [] then Ok(Table(grid, [], map[], {}))
    else
      var m := MergeAll(grid, frames[..|frames| - 1]);
      if m.Err? then m
      else
        var last := frames[|frames| - 1];
        LeftMerge(m.value, Prefixed(last.1, last.0))
  }

  /** Column c of instrument k. */
  predicate FromInstrument(frames: Instruments, x: string, k: nat, c: string)
  {
    k < |frames| && c in frames[k].1.cols && x == Prefix(frames[k].0, c)
  }

  /** A successful merge of n + 1 frames is a successful merge of the first n
      followed by one left merge. */
  lemma MergeAllStep(grid: seq<int>, frames: Instruments)
    requires Increasing(grid) && AllValid(frames) && frames != []
    requires MergeAll(grid, frames).Ok?
    ensures AllValid(frames[..|frames| - 1]) && MergeAll(grid, frames[..|frames| - 1]).Ok?
    ensures var last := frames[|frames| - 1];
      MergeAll(grid, frames) == LeftMerge(MergeAll(grid, frames[..|frames| - 1]).value, Prefixed(last.1, last.0))
  {
    AllValidPrefix(frames, |frames| - 1);
  }

  lemma AllValidPrefix(frames: Instruments, n: nat)
    requires AllValid(frames) && n <= |frames|
    ensures AllValid(frames[..n])
  {
    forall k | 0 <= k < n ensures frames[..n][k].1.Valid() {
      assert frames[..n][k] == frames[k];
    }
  }

  /** Every merged column is some instrument's column read on the grid. */
  lemma {:induction false} MergedFrom(grid: seq<int>, frames: Instruments, x: string) returns (k: nat, c: string)
    requires Increasing(grid) && AllValid(frames)
    requires MergeAll(grid, frames).Ok? && x in MergeAll(grid, frames).value.cols
    ensures FromInstrument(frames, x, k, c)
  {
    assert frames != [];
    var init := frames[..|frames| - 1];
    MergeAllStep(grid, frames);
    if x in MergeAll(grid, init).value.cols {
      k, c := MergedFrom(grid, init, x);
      assert init[k] == frames[k];
    } else {
      k, c := FromLast(grid, frames, x);
    }
  }

  /** A merged column the first n frames did not give comes from the last frame. */
  lemma FromLast(grid: seq<int>, frames: Instruments, x: string) returns (k: nat, c: string)
    requires Increasing(grid) && AllValid(frames) && frames != []
    requires AllValid(frames[..|frames| - 1]) && MergeAll(grid, frames[..|frames| - 1]).Ok?
    requires var last := frames[|frames| - 1];
      MergeAll(grid, frames) == LeftMerge(MergeAll(grid, frames[..|frames| - 1]).value, Prefixed(last.1, last.0))
    requires MergeAll(grid, frames).Ok? && x in MergeAll(grid, frames).value.cols
    requires x !in MergeAll(grid, frames[..|frames| - 1]).value.cols
    ensures FromInstrument(frames, x, k, c)
  {
    var last := frames[|frames| - 1];
    var p := Prefixed(last.1, last.0);
    assert x in p.cols;
    k := |frames| - 1;
    c :| c in last.1.cols && x == Prefix(last.0, c);
  }

  /** After a successful merge, column c of instrument k holds that
      instrument's column reindexed onto the grid. */
  lemma {:induction false} MergedColumn(grid: seq<int>, frames: Instruments, k: nat, c: string)
    requires Increasing(grid) && AllValid(frames)
    requires MergeAll(grid, frames).Ok? && k < |frames| && c in frames[k].1.cols
    ensures var d := MergeAll(grid, frames).value;
      Prefix(frames[k].0, c) in d.cols &&
      d.cols[Prefix(frames[k].0, c)] == Reindex(frames[k].1.cols[c], frames[k].1.index, grid)
  {
    var init := frames[..|frames| - 1];
    MergeAllStep(grid, frames);
    if k < |frames| - 1 {
      assert init[k] == frames[k];
      MergedColumn(grid, init, k, c);
    }
  }

  /** An instrument name that differs from every earlier one, none holding
      '-', gives names the merged frame does not hold yet. */
  lemma FreshName(grid: seq<int>, init: Instruments, inst: string, e: string)
    requires Increasing(grid) && AllValid(init) && MergeAll(grid, init).Ok?
    requires forall k :: 0 <= k < |init| ==> '-' !in init[k].0 && init[k].0 != inst
    requires '-' !in inst
    ensures Prefix(inst, e) !in MergeAll(grid, init).value.cols
  {
    var x := Prefix(inst, e);
    if x in MergeAll(grid, init).value.cols {
      var j, c := MergedFrom(grid, init, x);
      PrefixSplits(init[j].0, c, inst, e);
    }
  }

  /** Distinct instrument names without '-' never clash, so the merge succeeds. */
  lemma {:induction false} MergeSucceeds(grid: seq<int>, frames: Instruments)
    requires Increasing(grid) && AllValid(frames)
    requires forall k :: 0 <= k < |frames| ==> '-' !in frames[k].0
    requires forall i, j :: 0 <= i < j < |frames| ==> frames[i].0 != frames[j].0
    ensures MergeAll(grid, frames).Ok?
  {
    if frames != [] {
      AllValidPrefix(frames, |frames| - 1);
      NamesPrefix(frames);
      MergeSucceeds(grid, frames[..|frames| - 1]);
      LastMergeOk(grid, frames);
    }
  }

  /** The name conditions carry over to the first n - 1 frames, whose names
      all differ from the last one. */
  lemma NamesPrefix(frames: Instruments)
    requires frames != []
    requires forall k :: 0 <= k < |frames| ==> '-' !in frames[k].0
    requires forall i, j :: 0 <= i < j < |frames| ==> frames[i].0 != frames[j].0
    ensures var init := frames[..|frames| - 1];
      && (forall k :: 0 <= k < |init| ==> '-' !in init[k].0 && init[k].0 != frames[|frames| - 1].0)
      && (forall i, j :: 0 <= i < j < |init| ==> init[i].0 != init[j].0)
  {
    var init := frames[..|frames| - 1];
    assert forall k :: 0 <= k < |init| ==> init[k] == frames[k];
  }

  /** Merging the last frame into a successful merge of the others succeeds
      when its names are fresh. */
  lemma LastMergeOk(grid: seq<int>, frames: Instruments)
    requires Increasing(grid) && AllValid(frames) && frames != []
    requires AllValid(frames[..|frames| - 1]) && MergeAll(grid, frames[..|frames| - 1]).Ok?
    requires '-' !in frames[|frames| - 1].0
    requires var init := frames[..|frames| - 1];
      forall k :: 0 <= k < |init| ==> '-' !in init[k].0 && init[k].0 != frames[|frames| - 1].0
    ensures MergeAll(grid, frames).Ok?
  {
    var init := frames[..|frames| - 1];
    var last := frames[|frames| - 1];
    var m := MergeAll(grid, init).value;
    var p := Prefixed(last.1, last.0);
    forall n | 0 <= n < |p.names| ensures p.names[n] !in m.cols {
      assert p.names[n] in p.cols;
      var e :| e in last.1.cols && p.names[n] == Prefix(last.0, e);
      FreshName(grid, init, last.0, e);
    }
    assert MergeAll(grid, frames) == LeftMerge(m, p);
  }

  // ---------------------------------------------------------------------------
  // volumes and back fill

  predicate VolumeName(c: string)
  {
    EndsWith(c, "-volume")
  }

  /** `for col in data.columns: if col.endswith("-volume"): data[col].fillna(value=0, inplace=True)`. */
  function ZeroVolumes(t: Table, names: seq<string>): (r: Table)
    requires t.Valid()
    ensures r.Valid() && r.index == t.index && r.names == t.names && r.objects == t.objects
    ensures r.cols.Keys == t.cols.Keys
  {
    if names == [] then t
    else
      var s := ZeroVolumes(t, names[..|names| - 1]);
      var c := names[|names| - 1];
      if VolumeName(c) && c in s.cols then Assign(s, c, FillNa(s.cols[c], 0.0), s.Numeric(c)) else s
  }

  lemma FillNaTwice(s: seq<Cell>, v: real)
    ensures FillNa(FillNa(s, v), v) == FillNa(s, v)
  {
  }

  /** A listed volume column has its gaps replaced by 0; every other column is
      unchanged. */
  lemma {:induction false} ZeroVolumesCols(t: Table, names: seq<string>, c: string)
    requires t.Valid() && c in t.cols
    ensures ZeroVolumes(t, names).cols[c] == if VolumeName(c) && c in names then FillNa(t.cols[c], 0.0) else t.cols[c]
  {
    if names != [] {
      var init, last := names[..|names| - 1], names[|names| - 1];
      ZeroVolumesCols(t, init, c);
      var s := ZeroVolumes(t, init);
      assert c in names <==> c in init || c == last by {
        SplitLast(names);
      }
      if VolumeName(last) && last in s.cols {
        var r := Assign(s, last, FillNa(s.cols[last], 0.0), s.Numeric(last));
        assert ZeroVolumes(t, names) == r;
        if c == last {
          FillNaTwice(t.cols[c], 0.0);
        }
      }
    }
  }

  /** `s.fillna(method='bfill')`: a missing cell takes the next present cell
      below it; trailing missing cells stay missing. */
  function BFill(s: seq<Cell>): (r: seq<Cell>)
    ensures |r| == |s|
  {
    if s == [] then []
    else
      var f := BFill(s[1..]);
      [if Present(s[0]) || f == [] then s[0] else f[0]] + f
  }

  /** Row by row, a present cell is kept and a missing one copies the row below. */
  lemma {:induction false} BFillAt(s: seq<Cell>, i: nat)
    requires i < |s|
    ensures BFill(s)[i] == if Present(s[i]) || i == |s| - 1 then s[i] else BFill(s)[i + 1]
  {
    if i > 0 {
      BFillAt(s[1..], i - 1);
    }
  }

  /** A filled cell is missing exactly when nothing at or below it is present;
      otherwise it is the nearest present cell at or below it. */
  lemma {:induction false} BFillFrom(s: seq<Cell>, i: nat)
    requires i < |s|
    ensures !Present(BFill(s)[i]) <==> forall k :: i <= k < |s| ==> !Present(s[k])
    ensures Present(BFill(s)[i]) ==>
      exists j :: i <= j < |s| && BFill(s)[i] == s[j] && Present(s[j]) &&
        forall k :: i <= k < j ==> !Present(s[k])
    decreases |s| - i
  {
    BFillAt(s, i);
    if i < |s| - 1 && !Present(s[i]) {
      BFillFrom(s, i + 1);
    }
  }

  /** `data.fillna(method='bfill', inplace=True)`. */
  function BFillAll(t: Table): (r: Table)
    ensures t.Valid() ==> r.Valid()
    ensures r.index == t.index && r.names == t.names && r.objects == t.objects
    ensures forall c :: c in r.cols <==> c in t.cols
    ensures forall c :: c in t.cols ==> r.cols[c] == BFill(t.cols[c])
  {
    Table(t.index, t.names, map c | c in t.cols :: BFill(t.cols[c]), t.objects)
  }

  lemma {:induction false} BFillKeepsPresent(s: seq<Cell>)
    requires AllPresent(s)
    ensures BFill(s) == s
  {
    if s != [] {
      BFillKeepsPresent(s[1..]);
      assert s == [s[0]] + s[1..];
    }
  }

  // ---------------------------------------------------------------------------
  // the combined frame

  /** The calendar columns of the combined frame: chosen by the timeframe's
      string ("min" in it for the minute, anything but "1d" for the hour). */
  function MultiDateNames(tf: string, addMetaDates: bool, addYear: bool): (r: seq<string>)
  {
    if addMetaDates then DateColumns(MultiMinuteColumn(tf), MultiHourColumn(tf), addYear) else []
  }

  /** The merged frame just before `dropna`. */
  function Prepared(d: Table, tf: string, addMetaDates: bool, addYear: bool, calendar: int -> DateFields): (r: Table)
    requires d.Valid()
    ensures r.Valid() && r.index == d.index
  {
    AddDateColumns(BFillAll(ZeroVolumes(d, d.names)), MultiDateNames(tf, addMetaDates, addYear), calendar)
  }

  /** The multi-instrument result: merged, filled, dated and cleaned. */
  function Combine(grid: seq<int>, frames: Instruments, tf: string, addMetaDates: bool, addYear: bool,
                   calendar: int -> DateFields): (r: Result<Table, string>)
    requires Increasing(grid) && AllValid(frames)
    ensures r.Ok? ==> r.value.Valid()
    ensures r.Err? <==> MergeAll(grid, frames).Err?
  {
    var m := MergeAll(grid, frames);
    if m.Err? then m else Ok(DropBadRows(Prepared(m.value, tf, addMetaDates, addYear, calendar)))
  }

  /** Before the drop, a merged column is the instrument's column on the grid,
      with a volume column's gaps set to 0 and any other column back-filled. */
  lemma PreparedColumn(grid: seq<int>, frames: Instruments, tf: string, addMetaDates: bool, addYear: bool,
                       calendar: int -> DateFields, k: nat, c: string)
    requires Increasing(grid) && AllValid(frames)
    requires MergeAll(grid, frames).Ok? && k < |frames| && c in frames[k].1.cols
    ensures var d := MergeAll(grid, frames).value;
      var p := Prepared(d, tf, addMetaDates, addYear, calendar);
      var x := Prefix(frames[k].0, c);
      var re := Reindex(frames[k].1.cols[c], frames[k].1.index, grid);
      x in p.cols && p.cols[x] == if VolumeName(x) then FillNa(re, 0.0) else BFill(re)
  {
    var d := MergeAll(grid, frames).value;
    var x := Prefix(frames[k].0, c);
    MergedColumn(grid, frames, k, c);
    ZeroVolumesCols(d, d.names, x);
    var z := ZeroVolumes(d, d.names);
    if VolumeName(x) {
      BFillKeepsPresent(FillNa(d.cols[x], 0.0));
    }
    PrefixNotDateName(frames[k].0, c);
    DateColumnsWritten(BFillAll(z), MultiDateNames(tf, addMetaDates, addYear), calendar, x);
  }

  lemma VolumeIsVolumeName(inst: string)
    ensures VolumeName(Prefix(inst, "volume"))
  {
    var x := Prefix(inst, "volume");
    assert x == (inst + "-") + "volume";
    assert x[|x| - 7..] == "-volume";
  }

  /** An instrument's volume on the grid is never missing, and is 0 where the
      instrument has no bar. */
  lemma VolumeOnGrid(grid: seq<int>, frames: Instruments, tf: string, addMetaDates: bool, addYear: bool,
                     calendar: int -> DateFields, k: nat, j: nat)
    requires Increasing(grid) && AllValid(frames)
    requires MergeAll(grid, frames).Ok? && k < |frames| && "volume" in frames[k].1.cols && j < |grid|
    ensures var p := Prepared(MergeAll(grid, frames).value, tf, addMetaDates, addYear, calendar);
      var x := Prefix(frames[k].0, "volume");
      x in p.cols && Present(p.cols[x][j]) &&
      (grid[j] !in frames[k].1.index ==> p.cols[x][j] == Val(0.0))
  {
    var f := frames[k].1;
    VolumeIsVolumeName(frames[k].0);
    PreparedColumn(grid, frames, tf, addMetaDates, addYear, calendar, k, "volume");
    ReindexFilled(f.cols["volume"], f.index, grid, j);
  }

  /** A column read on the grid with its gaps set to 0 is present at every
      grid row, and 0 where the instrument has no bar. */
  lemma ReindexFilled(col: seq<Cell>, index: seq<int>, grid: seq<int>, j: nat)
    requires |col| == |index| && j < |grid|
    ensures var z := FillNa(Reindex(col, index, grid), 0.0);
      Present(z[j]) && (grid[j] !in index ==> z[j] == Val(0.0))
  {
    var re := Reindex(col, index, grid);
    if grid[j] !in index {
      assert IndexOf(index, grid[j]).None?;
      assert re[j].Missing?;
    }
  }

  /** Where the instrument has a bar with a volume, that volume is kept. */
  lemma VolumeOfBar(grid: seq<int>, frames: Instruments, tf: string, addMetaDates: bool, addYear: bool,
                    calendar: int -> DateFields, k: nat, i: nat, j: nat)
    requires Increasing(grid) && AllValid(frames)
    requires MergeAll(grid, frames).Ok? && k < |frames| && "volume" in frames[k].1.cols && j < |grid|
    requires i < frames[k].1.Rows() && frames[k].1.index[i] == grid[j] && Present(frames[k].1.cols["volume"][i])
    ensures var p := Prepared(MergeAll(grid, frames).value, tf, addMetaDates, addYear, calendar);
      var x := Prefix(frames[k].0, "volume");
      x in p.cols && p.cols[x][j] == frames[k].1.cols["volume"][i]
  {
    var f := frames[k].1;
    VolumeIsVolumeName(frames[k].0);
    PreparedColumn(grid, frames, tf, addMetaDates, addYear, calendar, k, "volume");
    ReindexHit(f.cols["volume"], f.index, grid, i, j);
  }

  /** The combined frame holds finite values only, on grid timestamps; a grid
      row survives exactly when every column is finite there before the drop. */
  lemma CombineClean(grid: seq<int>, frames: Instruments, tf: string, addMetaDates: bool, addYear: bool,
                     calendar: int -> DateFields, j: nat)
    requires Increasing(grid) && AllValid(frames)
    requires Combine(grid, frames, tf, addMetaDates, addYear, calendar).Ok? && j < |grid|
    ensures var d := MergeAll(grid, frames).value;
      var p := Prepared(d, tf, addMetaDates, addYear, calendar);
      var r := Combine(grid, frames, tf, addMetaDates, addYear, calendar).value;
      && (forall c :: c in r.cols ==> forall v :: v in r.cols[c] ==> v.Val?)
      && (forall g :: g in r.index ==> g in grid)
      && (grid[j] in r.index <==> GoodRow(p, j))
  {
    var p := Prepared(MergeAll(grid, frames).value, tf, addMetaDates, addYear, calendar);
    DropBadRowsFinite(p);
    DropBadRowsKeeps(p, j);
  }

  // ---------------------------------------------------------------------------
  // the loops of the source

  /** Merging one more frame onto a successful prefix. */
  lemma MergeStep(grid: seq<int>, frames: Instruments, k: nat)
    requires Increasing(grid) && AllValid(frames) && k < |frames|
    ensures AllValid(frames[..k]) && AllValid(frames[..k + 1])
    ensures var m := MergeAll(grid, frames[..k]);
      m.Ok? ==> MergeAll(grid, frames[..k + 1]) == LeftMerge(m.value, Prefixed(frames[k].1, frames[k].0))
  {
    AllValidPrefix(frames, k);
    AllValidPrefix(frames, k + 1);
    TakeTake(frames, k);
  }

  /** `data.merge(df, ...)` for the k-th frame. */
  method MergeNext(grid: seq<int>, frames: Instruments, k: nat, data: Table) returns (m: Result<Table, string>)
    requires Increasing(grid) && AllValid(frames) && k < |frames|
    requires AllValid(frames[..k]) && MergeAll(grid, frames[..k]) == Ok(data)
    ensures AllValid(frames[..k + 1]) && m == MergeAll(grid, frames[..k + 1])
  {
    MergeStep(grid, frames, k);
    m := LeftMerge(data, Prefixed(frames[k].1, frames[k].0));
  }

  /** `for df in dataframes: data = data.merge(df, ...)`, stopping at a clash. */
  method MergeFrames(grid: seq<int>, frames: Instruments) returns (r: Result<Table, string>)
    requires Increasing(grid) && AllValid(frames)
    ensures r == MergeAll(grid, frames)
  {
    var data := Table(grid, [], map[], {});
    var k := 0;
    while k < |frames|
      invariant 0 <= k <= |frames|
      invariant AllValid(frames[..k]) && MergeAll(grid, frames[..k]) == Ok(data)
    {
      var m := MergeNext(grid, frames, k, data);
      if m.Err? {
        MergeStops(grid, frames, k + 1);
        return m;
      }
      data := m.value;
      k := k + 1;
    }
    assert frames[..k] == frames;
    r := Ok(data);
  }

  /** Once a prefix of the frames fails to merge, so does the whole list, with
      the same error. */
  lemma {:induction false} MergeStops(grid: seq<int>, frames: Instruments, n: nat)
    requires Increasing(grid) && AllValid(frames)
    requires n <= |frames| && MergeAll(grid, frames[..n]).Err?
    ensures MergeAll(grid, frames) == MergeAll(grid, frames[..n])
    decreases |frames| - n
  {
    if n < |frames| {
      assert frames[..n + 1][..n] == frames[..n];
      MergeStops(grid, frames, n + 1);
    } else {
      assert frames[..n] == frames;
    }
  }

  /** One more name appends one step to the fold. */
  lemma ZeroVolumesSnoc(t: Table, names: seq<string>, k: nat, s: Table)
    requires t.Valid() && k < |names|
    requires s == ZeroVolumes(t, names[..k])
    ensures var c := names[k];
      ZeroVolumes(t, names[..k + 1]) ==
      if VolumeName(c) && c in s.cols then Assign(s, c, FillNa(s.cols[c], 0.0), s.Numeric(c)) else s
  {
    TakeSnoc(names, k);
    TakeTake(names, k);
  }

  /** One turn of the volume loop. */
  method ZeroVolumeInPlace(rf: Frame, ghost t0: Table, names: seq<string>, k: nat)
    requires t0.Valid() && k < |names|
    requires rf.Contents() == ZeroVolumes(t0, names[..k])
    modifies rf
    ensures rf.Contents() == ZeroVolumes(t0, names[..k + 1])
  {
    ZeroVolumesSnoc(t0, names, k, rf.Contents());
    var c := names[k];
    if VolumeName(c) && c in rf.cols {
      var numeric := rf.Contents().Numeric(c);
      rf.Set(c, FillNa(rf.cols[c], 0.0), numeric);
    }
  }

  /** The volume loop, filling each `-volume` column in place. */
  method ZeroVolumesInPlace(rf: Frame)
    requires rf.Valid()
    modifies rf
    ensures rf.Contents() == ZeroVolumes(old(rf.Contents()), old(rf.names))
  {
    ghost var t0 := rf.Contents();
    var names := rf.names;
    var k := 0;
    while k < |names|
      invariant 0 <= k <= |names|
      invariant rf.Contents() == ZeroVolumes(t0, names[..k])
    {
      ZeroVolumeInPlace(rf, t0, names, k);
      k := k + 1;
    }
    assert names[..k] == names;
  }

  /** The steps after the merge, on the combined frame in place. */
  method FinishInPlace(rf: Frame, tf: string, addMetaDates: bool, addYear: bool, calendar: int -> DateFields)
    requires rf.Valid()
    modifies rf
    ensures rf.Contents() == DropBadRows(Prepared(old(rf.Contents()), tf, addMetaDates, addYear, calendar))
  {
    ZeroVolumesInPlace(rf);
    rf.Load(BFillAll(rf.Contents()));
    DateColumnsInPlace(rf, MultiDateNames(tf, addMetaDates, addYear), calendar);
    rf.KeepOnly(GoodRows(rf.Contents()));
  }
}

=== FILE: pipeline.dfy ===
/** `MT5Gateway.fetch`: one instrument's bars from the terminal through every
    stage in the fixed order (gap, fill, pivots, denoise, price summaries,
    support/resistance, calendar columns, the four indicator libraries, moving
    averages, lookbacks, drop_na, drop_columns), and the multi-instrument path
    that fetches each instrument with a forced sub-configuration and combines
    the frames. */
module Pipeline {
  import opened Wrappers
  import opened Cells
  import opened Frames
  import opened Timeframes
  import opened Features
  import Pivots
  import Denoise
  import SupportResistance
  import Indicators
  import MovingAverages
  import Lookbacks
  import Merge

  /** One row of `copy_rates_*`: the structured array the terminal returns. */
  datatype Bar = Bar(time: int, open: real, high: real, low: real, close: real,
                     tickVolume: nat, spread: int, realVolume: nat)

  /** `copy_rates_from_pos(instrument, tf, start, count)` or
      `copy_rates_range(instrument, tf, date_from, date_to)`. */
  datatype Request = FromPos(start: nat, count: nat) | Range(dateFrom: int, dateTo: int)

  /** Everything outside the pipeline: the terminal, pandas' period and date
      ranges, the calendar, the indicator libraries (talib, ta, the native
      module, pandas_ta), talib's moving averages and the denoising back ends. */
  datatype Env = Env(
    rates: (string, int, Request) -> Option<seq<Bar>>,
    periodRange: (int, int, string) -> seq<int>,
    dateRange: (int, int, string) -> seq<int>,
    calendar: int -> DateFields,
    talib: Indicators.Library, ta: Indicators.Library,
    native: Indicators.Library, pandasTa: Indicators.Library,
    ma: MovingAverages.MaFunction,
    backends: Denoise.Backends)

  function Times(bars: seq<Bar>): (r: seq<int>)
    ensures |r| == |bars| && forall i :: 0 <= i < |bars| ==> r[i] == bars[i].time
  {
    seq(|bars|, i requires 0 <= i < |bars| => bars[i].time)
  }

  /** The terminal delivers bars in time order, and pandas' ranges are
      increasing. */
  ghost predicate Sound(env: Env)
  {
    && (forall inst, code, req :: env.rates(inst, code, req).Some? ==> Increasing(Times(env.rates(inst, code, req).value)))
    && (forall lo, hi, tf :: Increasing(env.periodRange(lo, hi, tf)))
    && (forall lo, hi, tf :: Increasing(env.dateRange(lo, hi, tf)))
  }

  /** The `denoise_data` dictionary; an absent key reads as its default. */
  datatype DenoiseData = DenoiseData(
    func: Option<Denoise.Smoother>, methodName: Option<string>, wavelet: Option<string>, level: Option<int>,
    kalmanParams: Option<map<string, real>>, ssaParams: Option<map<string, int>>, emdParams: Option<map<string, int>>)

  /** The keyword arguments `fetch` passes to `denoise_dataframe`: `apply_columns`
      and `preserve_col_names` are not passed, so every column is visited and
      the results go to `denoised_<column>`. */
  function DenoiseSettings(d: DenoiseData): Denoise.DenoiseConfig
  {
    Denoise.DenoiseConfig(d.func, d.methodName.GetOr("wavelet"), d.wavelet.GetOr("rbio2.8"), d.level.GetOr(2),
      d.kalmanParams.GetOr(map[]), d.ssaParams.GetOr(map[]), d.emdParams.GetOr(map[]), [], false)
  }

  /** The keyword arguments of `fetch` that the model follows. */
  datatype FetchConfig = FetchConfig(
    bars: Option<nat>, dateFrom: Option<int>, dateTo: int,
    mas: seq<MovingAverages.MaSpec>, lookbacks: seq<Lookbacks.LookbackSpec>,
    nativeIndicators: seq<Indicators.IndicatorSpec>, taIndicators: seq<Indicators.IndicatorSpec>,
    pandasTaIndicators: seq<Indicators.IndicatorSpec>, talibIndicators: seq<Indicators.IndicatorSpec>,
    denoiseData: Option<DenoiseData>,
    addMetaDates: bool, addYear: bool, addPriceSummaries: bool, addGap: bool,
    srLevels: seq<nat>, srFields: seq<string>, pivotLevels: nat,
    fillEmptyRanges: bool, provideOpenBar: bool, dropNa: bool, dropColumns: seq<string>)

  /** `rolling(int(level))` needs a window of at least one bar. */
  predicate LevelsPositive(cfg: FetchConfig)
  {
    forall k :: 0 <= k < |cfg.srLevels| ==> cfg.srLevels[k] >= 1
  }

  /** The exceptions `fetch` raises. */
  datatype FetchError =
    | UnsupportedTimeframe(timeframe: string)
    | NoData(instrument: string)
    | DenoiseFailed(denoise: Denoise.DenoiseError)
    | IndicatorFailed(indicator: Indicators.IndicatorError)
    | UnknownColumn(column: string)      // `drop(columns=...)` on a label the frame lacks
    | ColumnClash(name: string)         // two instruments produce the same merged name
    | NoInstruments                     // `min()` over an empty list of frames
    | NoBars                            // every instrument's frame came back empty

  /** `bars` wins over `date_from`; the open bar is skipped by starting at 1. */
  function RequestOf(cfg: FetchConfig): Option<Request>
  {
    if cfg.bars.Some? then Some(FromPos(if cfg.provideOpenBar then 0 else 1, cfg.bars.value))
    else if cfg.dateFrom.Some? then Some(Range(cfg.dateFrom.value, cfg.dateTo))
    else None
  }

  /** What the terminal returned, if a request was made. */
  function RatesOf(env: Env, inst: string, code: int, cfg: FetchConfig): Option<seq<Bar>>
  {
    var req := RequestOf(cfg);
    if req.Some? then env.rates(inst, code, req.value) else None
  }

  function Column(bars: seq<Bar>, field: Bar -> real): (r: seq<Cell>)
    ensures |r| == |bars| && forall i :: 0 <= i < |bars| ==> r[i] == Val(field(bars[i]))
  {
    seq(|bars|, i requires 0 <= i < |bars| => Val(field(bars[i])))
  }

  /** The five bar columns of `pd.DataFrame(rates)`, tick_volume as volume. */
  function BarCols(bars: seq<Bar>): (r: map<string, seq<Cell>>)
    ensures r.Keys == {"open", "high", "low", "close", "volume"}
    ensures forall n :: n in r ==> |r[n]| == |bars|
    ensures forall i :: 0 <= i < |bars| ==>
      r["open"][i] == Val(bars[i].open) && r["high"][i] == Val(bars[i].high) &&
      r["low"][i] == Val(bars[i].low) && r["close"][i] == Val(bars[i].close) &&
      r["volume"][i] == Val(bars[i].tickVolume as real)
  {
    map[
      "open" := Column(bars, (b: Bar) => b.open),
      "high" := Column(bars, (b: Bar) => b.high),
      "low" := Column(bars, (b: Bar) => b.low),
      "close" := Column(bars, (b: Bar) => b.close),
      "volume" := Column(bars, (b: Bar) => b.tickVolume as real)]
  }

  /** `pd.DataFrame(rates)` without spread and real_volume, tick_volume renamed
      to volume, indexed by the bar's time. */
  function BarsTable(bars: seq<Bar>): (r: Table)
    requires Increasing(Times(bars))
    ensures r.Valid() && HasBars(r) && r.index == Times(bars) && r.objects == {}
    ensures r.cols.Keys == {"open", "high", "low", "close", "volume"}
    ensures forall i :: 0 <= i < |bars| ==>
      r.cols["open"][i] == Val(bars[i].open) && r.cols["high"][i] == Val(bars[i].high) &&
      r.cols["low"][i] == Val(bars[i].low) && r.cols["close"][i] == Val(bars[i].close) &&
      r.cols["volume"][i] == Val(bars[i].tickVolume as real)
  {
    var r := Table(Times(bars), BarColumns, BarCols(bars), {});
    assert r.Valid() && HasBars(r) by {
      assert BarColumns[0] == "open" && BarColumns[1] == "high" && BarColumns[2] == "low";
      assert BarColumns[3] == "close" && BarColumns[4] == "volume";
    }
    r
  }

  // ---------------------------------------------------------------------------
  // The stages, in order

  /** Gap, then the fill onto `period_range(first, last)`. */
  function Filled(t: Table, env: Env, tf: string, cfg: FetchConfig): (r: Table)
    requires t.Valid() && HasBars(t) && t.Rows() > 0 && Sound(env)
    ensures r.Valid() && HasBars(r)
    ensures r.index == if cfg.fillEmptyRanges then env.periodRange(t.index[0], t.index[t.Rows() - 1], tf) else t.index
  {
    var t1 := if cfg.addGap then AddGap(t) else t;
    if cfg.fillEmptyRanges then
      FillEmptyRanges(t1, env.periodRange(t1.index[0], t1.index[t1.Rows() - 1], tf))
    else t1
  }

  /** `add_pivot_levels(df=rf, num_levels=pivot_levels)`: 14 bars, and only the
      distance columns kept; skipped unless pivot_levels > 0. */
  function Pivoted(t: Table, cfg: FetchConfig): (r: Table)
    requires t.Valid() && HasBars(t)
    ensures r.Valid() && HasBars(r) && r.index == t.index
  {
    if cfg.pivotLevels > 0 then
      Pivots.PivotLevelsKeepBars(t, 14, cfg.pivotLevels, true);
      Pivots.PivotLevels(t, 14, cfg.pivotLevels, true)
    else t
  }

  /** `denoise_dataframe` with the settings read from `denoise_data`, if given. */
  function DenoiseStage(t: Table, env: Env, cfg: FetchConfig): (r: Result<Table, FetchError>)
    requires t.Valid() && HasBars(t)
    ensures r.Ok? ==> r.value.Valid() && HasBars(r.value) && r.value.index == t.index
    ensures r.Err? ==> r.error.DenoiseFailed?
  {
    if cfg.denoiseData.None? then Ok(t)
    else
      var d := Denoise.DenoiseFrame(t, DenoiseSettings(cfg.denoiseData.value), env.backends);
      if d.Err? then Err(DenoiseFailed(d.error)) else Ok(d.value)
  }

  /** The calendar columns of the single-instrument path, chosen by the
      timeframe's code. */
  function DateNames(code: int, cfg: FetchConfig): seq<string>
  {
    if cfg.addMetaDates then DateColumns(MinuteColumn(code), HourColumn(code), cfg.addYear) else []
  }

  /** Price summaries, support/resistance, calendar columns. */
  function Enriched(t: Table, env: Env, code: int, cfg: FetchConfig): (r: Table)
    requires t.Valid() && HasBars(t) && LevelsPositive(cfg)
    ensures r.Valid() && HasBars(r) && r.index == t.index
  {
    var t1 := if cfg.addPriceSummaries then PriceSummaries(t) else t;
    var t2 := SupportResistance.AddSupportResistance(t1, cfg.srFields, cfg.srLevels);
    AddDateColumns(t2, DateNames(code, cfg), env.calendar)
  }

  /** One `add_indicators` call; a raising backend ends the fetch. */
  function IndicatorStage(lib: Indicators.Library, specs: seq<Indicators.IndicatorSpec>, t: Table): (r: Result<Table, FetchError>)
    requires t.Valid() && HasBars(t)
    ensures r.Ok? ==> r.value.Valid() && HasBars(r.value) && r.value.index == t.index
    ensures r.Err? ==> r.error.IndicatorFailed?
  {
    var st := Indicators.AddIndicatorsSpec(lib, specs, t);
    if st.error.Some? then Err(IndicatorFailed(st.error.value)) else Ok(st.table)
  }

  /** talib, ta, the native indicators and pandas_ta, in that order. */
  function WithIndicators(t: Table, env: Env, cfg: FetchConfig): (r: Result<Table, FetchError>)
    requires t.Valid() && HasBars(t)
    ensures r.Ok? ==> r.value.Valid() && HasBars(r.value) && r.value.index == t.index
    ensures r.Err? ==> r.error.IndicatorFailed?
  {
    var s1 := IndicatorStage(env.talib, cfg.talibIndicators, t);
    if s1.Err? then s1
    else
      var s2 := IndicatorStage(env.ta, cfg.taIndicators, s1.value);
      if s2.Err? then s2
      else
        var s3 := IndicatorStage(env.native, cfg.nativeIndicators, s2.value);
        if s3.Err? then s3 else IndicatorStage(env.pandasTa, cfg.pandasTaIndicators, s3.value)
  }

  /** Moving averages and lookbacks. */
  function Derived(t: Table, env: Env, cfg: FetchConfig): (r: Table)
    requires t.Valid()
    ensures r.Valid() && r.index == t.index
  {
    Lookbacks.AddLookbacks(MovingAverages.AddMovingAverages(t, env.ma, cfg.mas), cfg.lookbacks)
  }

  /** drop_na, then drop_columns. With drop_na every cell left is a finite
      number; a listed label the frame lacks raises; without drop_na no row is
      removed, and with it the surviving rows are rows of the input. */
  function Cleaned(t: Table, cfg: FetchConfig): (r: Result<Table, FetchError>)
    requires t.Valid()
    ensures r.Ok? ==> r.value.Valid()
    ensures r.Err? <==> exists k :: 0 <= k < |cfg.dropColumns| && cfg.dropColumns[k] !in t.cols
    ensures r.Err? ==> r.error.UnknownColumn? && r.error.column in cfg.dropColumns
    ensures r.Ok? ==> forall k :: 0 <= k < |cfg.dropColumns| ==> cfg.dropColumns[k] !in r.value.cols
    ensures r.Ok? ==> forall g :: g in r.value.index ==> g in t.index
    ensures r.Ok? && !cfg.dropNa ==> r.value.index == t.index
    ensures r.Ok? && cfg.dropNa ==> forall c :: c in r.value.cols ==> forall x :: x in r.value.cols[c] ==> x.Val?
  {
    DropBadRowsFinite(t);
    var t3 := if cfg.dropNa then DropBadRows(t) else t;
    if |cfg.dropColumns| > 0 then
      var d := DropListed(t3, cfg.dropColumns);
      if d.Err? then Err(UnknownColumn(d.error)) else Ok(d.value)
    else Ok(t3)
  }

  /** Everything after the bars are read: the stages in order. */
  function Processed(t: Table, env: Env, code: int, tf: string, cfg: FetchConfig): (r: Result<Table, FetchError>)
    requires t.Valid() && HasBars(t) && t.Rows() > 0 && Sound(env) && LevelsPositive(cfg)
    ensures r.Ok? ==> r.value.Valid()
    ensures r.Err? ==> r.error.DenoiseFailed? || r.error.IndicatorFailed? || r.error.UnknownColumn?
    ensures var line := Filled(t, env, tf, cfg).index;
      r.Ok? ==> (forall g :: g in r.value.index ==> g in line) && (!cfg.dropNa ==> r.value.index == line)
    ensures r.Ok? && cfg.dropNa ==> forall c :: c in r.value.cols ==> forall x :: x in r.value.cols[c] ==> x.Val?
    ensures r.Ok? ==> forall k :: 0 <= k < |cfg.dropColumns| ==> cfg.dropColumns[k] !in r.value.cols
  {
    var d := DenoiseStage(Pivoted(Filled(t, env, tf, cfg), cfg), env, cfg);
    if d.Err? then d
    else
      var i := WithIndicators(Enriched(d.value, env, code, cfg), env, cfg);
      if i.Err? then i else Cleaned(Derived(i.value, env, cfg), cfg)
  }

  /** The fetch once the timeframe's code is known: the terminal's bars, or
      `NoData` when no request was made or nothing came back, then the stages. */
  function FetchCoded(env: Env, inst: string, tf: string, code: int, cfg: FetchConfig): (r: Result<Table, FetchError>)
    requires Sound(env) && LevelsPositive(cfg)
    ensures r.Ok? ==> r.value.Valid()
    ensures r.Err? ==> !r.error.UnsupportedTimeframe?
  {
    var rates := RatesOf(env, inst, code, cfg);
    if rates.None? || |rates.value| < 1 then Err(NoData(inst))
    else FromBars(rates.value, env, code, tf, cfg)
  }

  /** `pd.DataFrame(rates)`, then the stages. */
  function FromBars(bars: seq<Bar>, env: Env, code: int, tf: string, cfg: FetchConfig): (r: Result<Table, FetchError>)
    requires Increasing(Times(bars)) && |bars| > 0 && Sound(env) && LevelsPositive(cfg)
    ensures r.Ok? ==> r.value.Valid()
    ensures r.Err? ==> r.error.DenoiseFailed? || r.error.IndicatorFailed? || r.error.UnknownColumn?
  {
    Processed(BarsTable(bars), env, code, tf, cfg)
  }

  /** "No data" is raised exactly when the terminal was not asked or returned
      no bars; without `bars` or `date_from` nothing is asked. */
  lemma NoDataIff(env: Env, inst: string, tf: string, code: int, cfg: FetchConfig)
    requires Sound(env) && LevelsPositive(cfg)
    ensures var r := FetchCoded(env, inst, tf, code, cfg);
      var rates := RatesOf(env, inst, code, cfg);
      (r.Err? && r.error.NoData?) <==> rates.None? || |rates.value| == 0
    ensures RequestOf(cfg).None? ==> FetchCoded(env, inst, tf, code, cfg) == Err(NoData(inst))
  {
    var rates := RatesOf(env, inst, code, cfg);
    if rates.Some? && |rates.value| > 0 {
      var p := FromBars(rates.value, env, code, tf, cfg);
      assert FetchCoded(env, inst, tf, code, cfg) == p;
    }
  }

  /** `fetch(instrument, timeframe, ...)` for one instrument. */
  function FetchOne(env: Env, inst: string, tf: string, cfg: FetchConfig): (r: Result<Table, FetchError>)
    requires Sound(env) && LevelsPositive(cfg)
    ensures r.Ok? ==> r.value.Valid()
  {
    var code := Lookup(tf);
    if code.None? then Err(UnsupportedTimeframe(tf)) else FetchCoded(env, inst, tf, code.value, cfg)
  }

  // ---------------------------------------------------------------------------
  // Properties of the single-instrument path

  /** An unsupported timeframe is refused before the terminal is asked; no
      other failure is reported as one. */
  lemma UnsupportedTimeframeFails(env: Env, inst: string, tf: string, cfg: FetchConfig)
    requires Sound(env) && LevelsPositive(cfg)
    ensures var r := FetchOne(env, inst, tf, cfg);
      (r.Err? && r.error.UnsupportedTimeframe?) <==> tf !in SupportedTimeframes()
    ensures tf !in SupportedTimeframes() ==> FetchOne(env, inst, tf, cfg) == Err(UnsupportedTimeframe(tf))
    ensures tf in SupportedTimeframes() ==> FetchOne(env, inst, tf, cfg) == FetchCoded(env, inst, tf, Lookup(tf).value, cfg)
  {
    LookupIffSupported(tf);
  }

  /** The timestamps the frame has before drop_na: the bars' own, or the
      period range between the first and the last when empty ranges are filled. */
  function Timeline(env: Env, tf: string, cfg: FetchConfig, bars: seq<Bar>): seq<int>
    requires |bars| > 0
  {
    if cfg.fillEmptyRanges then env.periodRange(bars[0].time, bars[|bars| - 1].time, tf) else Times(bars)
  }

  /** No stage but the fill adds a row and none but drop_na removes one; with
      drop_na only finite cells are left; no label of drop_columns is left. */
  lemma FetchResult(env: Env, inst: string, tf: string, code: int, cfg: FetchConfig)
    requires Sound(env) && LevelsPositive(cfg)
    requires FetchCoded(env, inst, tf, code, cfg).Ok?
    ensures var rates := RatesOf(env, inst, code, cfg);
      rates.Some? && |rates.value| > 0 &&
      var line := Timeline(env, tf, cfg, rates.value);
      var r := FetchCoded(env, inst, tf, code, cfg).value;
      && (forall g :: g in r.index ==> g in line)
      && (!cfg.dropNa ==> r.index == line)
      && (cfg.dropNa ==> forall c :: c in r.cols ==> forall x :: x in r.cols[c] ==> x.Val?)
      && (forall k :: 0 <= k < |cfg.dropColumns| ==> cfg.dropColumns[k] !in r.cols)
  {
    var rates := RatesOf(env, inst, code, cfg);
    NoDataIff(env, inst, tf, code, cfg);
    var bars := rates.value;
    var t := BarsTable(bars);
    assert FetchCoded(env, inst, tf, code, cfg) == Processed(t, env, code, tf, cfg);
    FilledLine(env, tf, cfg, bars);
  }

  /** The filled frame of the bars has the timeline as its index. */
  lemma FilledLine(env: Env, tf: string, cfg: FetchConfig, bars: seq<Bar>)
    requires Sound(env) && Increasing(Times(bars)) && |bars| > 0
    ensures Filled(BarsTable(bars), env, tf, cfg).index == Timeline(env, tf, cfg, bars)
  {
    var t := BarsTable(bars);
    assert t.index[0] == bars[0].time && t.index[t.Rows() - 1] == bars[|bars| - 1].time;
  }

  // ---------------------------------------------------------------------------
  // The multi-instrument path

  /** The keyword arguments each instrument is fetched with: calendar columns
      off, empty ranges filled, missing rows dropped; everything else passed on. */
  function SubConfig(cfg: FetchConfig): (r: FetchConfig)
    ensures !r.addMetaDates && !r.addYear && r.fillEmptyRanges && r.dropNa
    ensures r.srLevels == cfg.srLevels
  {
    cfg.(addMetaDates := false, addYear := false, fillEmptyRanges := true, dropNa := true)
  }

  /** Each instrument's fetch, in the order given. */
  function Fetched(env: Env, instruments: seq<string>, tf: string, cfg: FetchConfig): (r: seq<Result<Table, FetchError>>)
    requires Sound(env) && LevelsPositive(cfg)
    ensures |r| == |instruments|
    ensures forall k {:trigger FetchOne(env, instruments[k], tf, SubConfig(cfg))} :: 0 <= k < |r| ==>
      r[k] == FetchOne(env, instruments[k], tf, SubConfig(cfg))
    ensures forall k :: 0 <= k < |r| && r[k].Ok? ==> r[k].value.Valid()
  {
    seq(|instruments|, k requires 0 <= k < |instruments| => FetchOne(env, instruments[k], tf, SubConfig(cfg)))
  }

  /** The instruments paired with their frames when every fetch succeeded,
      otherwise the first failure, which is what a loop that raises on the
      first error reports. */
  function Collect(instruments: seq<string>, results: seq<Result<Table, FetchError>>): (r: Result<Merge.Instruments, FetchError>)
    requires |results| == |instruments|
    ensures r.Ok? <==> forall k :: 0 <= k < |results| ==> results[k].Ok?
    ensures r.Ok? ==> |r.value| == |instruments|
    ensures r.Ok? ==> forall k :: 0 <= k < |instruments| ==> r.value[k] == (instruments[k], results[k].value)
    ensures r.Err? ==>
      exists k :: 0 <= k < |results| && results[k] == Err(r.error) && forall j :: 0 <= j < k ==> results[j].Ok?
  {
    if instruments == [] then Ok([])
    else
      var n := |instruments| - 1;
      var m := Collect(instruments[..n], results[..n]);
      assert forall k :: 0 <= k < n ==> results[..n][k] == results[k];
      if m.Err? then m
      else if results[n].Err? then Err(results[n].error)
      else Ok(m.value + [(instruments[n], results[n].value)])
  }

  /** The first and the last timestamps of the frames that have rows. */
  function Firsts(frames: Merge.Instruments): (r: seq<int>)
  {
    if frames == [] then []
    else
      var f := frames[|frames| - 1].1;
      Firsts(frames[..|frames| - 1]) + (if f.Rows() > 0 then [f.index[0]] else [])
  }

  function Lasts(frames: Merge.Instruments): (r: seq<int>)
    ensures |r| == |Firsts(frames)|
  {
    if frames == [] then []
    else
      var f := frames[|frames| - 1].1;
      Lasts(frames[..|frames| - 1]) + (if f.Rows() > 0 then [f.index[f.Rows() - 1]] else [])
  }

  function MinOf(s: seq<int>): (r: int)
    requires |s| > 0
    ensures r in s && forall i :: 0 <= i < |s| ==> r <= s[i]
  {
    if |s| == 1 then s[0]
    else
      var m := MinOf(s[..|s| - 1]);
      assert forall i :: 0 <= i < |s| - 1 ==> s[..|s| - 1][i] == s[i];
      if s[|s| - 1] < m then s[|s| - 1] else m
  }

  function MaxOf(s: seq<int>): (r: int)
    requires |s| > 0
    ensures r in s && forall i :: 0 <= i < |s| ==> s[i] <= r
  {
    if |s| == 1 then s[0]
    else
      var m := MaxOf(s[..|s| - 1]);
      assert forall i :: 0 <= i < |s| - 1 ==> s[..|s| - 1][i] == s[i];
      if s[|s| - 1] > m then s[|s| - 1] else m
  }

  /** The instruments' frames merged onto `date_range(min, max)` of their
      first and last timestamps, then the volume zero-fill, the back fill, the
      calendar columns and the drop of incomplete rows. */
  function Assemble(env: Env, frames: Merge.Instruments, tf: string, cfg: FetchConfig): (r: Result<Table, FetchError>)
    requires Sound(env) && Merge.AllValid(frames)
    ensures r.Ok? ==> r.value.Valid()
    ensures r.Err? ==> r.error == NoBars || r.error.ColumnClash?
  {
    if Firsts(frames) == [] then Err(NoBars)
    else
      var grid := env.dateRange(MinOf(Firsts(frames)), MaxOf(Lasts(frames)), tf);
      var c := Merge.Combine(grid, frames, tf, cfg.addMetaDates, cfg.addYear, env.calendar);
      if c.Err? then Err(ColumnClash(c.error)) else Ok(c.value)
  }

  /** The per-instrument loop: `min()` over no frames raises, otherwise
      the first failing fetch is raised. */
  function FetchEach(env: Env, instruments: seq<string>, tf: string, cfg: FetchConfig): (r: Result<Merge.Instruments, FetchError>)
    requires Sound(env) && LevelsPositive(cfg)
    ensures r.Ok? ==> Merge.AllValid(r.value)
  {
    if instruments == [] then Err(NoInstruments) else Collect(instruments, Fetched(env, instruments, tf, cfg))
  }

  /** The first failing instrument's error, or the assembled frame. */
  function Gather(env: Env, each: Result<Merge.Instruments, FetchError>, tf: string, cfg: FetchConfig): Result<Table, FetchError>
    requires Sound(env) && (each.Ok? ==> Merge.AllValid(each.value))
  {
    if each.Err? then Err(each.error) else Assemble(env, each.value, tf, cfg)
  }

  /** `fetch([instrument, ...], timeframe, ...)`. */
  function FetchMany(env: Env, instruments: seq<string>, tf: string, cfg: FetchConfig): Result<Table, FetchError>
    requires Sound(env) && LevelsPositive(cfg)
  {
    Gather(env, FetchEach(env, instruments, tf, cfg), tf, cfg)
  }

  /** The combined frame: finite cells only, and every column is a calendar
      column or some instrument's column under `<instrument>-<column>`. */
  lemma AssembledColumns(env: Env, frames: Merge.Instruments, tf: string, cfg: FetchConfig)
    requires Sound(env) && Merge.AllValid(frames)
    requires Assemble(env, frames, tf, cfg).Ok?
    ensures var r := Assemble(env, frames, tf, cfg).value;
      && (forall c :: c in r.cols ==> forall x :: x in r.cols[c] ==> x.Val?)
      && (forall x :: x in r.cols ==>
            x in Merge.MultiDateNames(tf, cfg.addMetaDates, cfg.addYear) ||
            exists k, c :: 0 <= k < |frames| && x == Merge.Prefix(frames[k].0, c))
  {
    var grid := env.dateRange(MinOf(Firsts(frames)), MaxOf(Lasts(frames)), tf);
    var d := Merge.MergeAll(grid, frames).value;
    var names := Merge.MultiDateNames(tf, cfg.addMetaDates, cfg.addYear);
    var p := Merge.Prepared(d, tf, cfg.addMetaDates, cfg.addYear, env.calendar);
    DropBadRowsFinite(p);
    forall x | x in p.cols && x !in names
      ensures exists k, c :: 0 <= k < |frames| && x == Merge.Prefix(frames[k].0, c)
    {
      var z := Merge.BFillAll(Merge.ZeroVolumes(d, d.names));
      DateColumnsWritten(z, names, env.calendar, x);
      var k, c := Merge.MergedFrom(grid, frames, x);
    }
  }
}

=== FILE: pivots.dfy ===
/** `add_pivot_levels`: five pivot-point systems over a rolling high/low window
    and the previous bar's close and open, the signed distance of the close to
    every resistance and support level, and the optional drop of the levels. */
module Pivots {
  import opened Cells
  import opened Text
  import opened Frames

  datatype System = Standard | Fibonacci | Camarilla | Woodie | Demark

  /** A level column: the pivot of a system, or its j-th resistance or support. */
  datatype Level = P(system: System) | R(system: System, j: nat) | S(system: System, j: nat)

  function SystemName(s: System): (r: string)
    ensures |r| >= 6 && '_' !in r
  {
    match s
    case Standard => "standard"
    case Fibonacci => "fibonacci"
    case Camarilla => "camarilla"
    case Woodie => "woodie"
    case Demark => "demark"
  }

  /** `f'{prefix}_{letter}{j}'` */
  function Rung(prefix: string, letter: char, j: nat): string
  {
    prefix + ['_'] + ([letter] + NatToString(j))
  }

  function LevelName(l: Level): string
  {
    match l
    case P(s) => SystemName(s) + ['_'] + "P"
    case R(s, j) => Rung(SystemName(s), 'R', j)
    case S(s, j) => Rung(SystemName(s), 'S', j)
  }

  function DistanceName(col: string): string
  {
    "distance_to_" + col
  }

  function MinNat(a: nat, b: nat): nat { if a < b then a else b }

  // ---------------------------------------------------------------------------
  // Level arithmetic on one row

  /** What one row's levels are computed from: the rolling high and low, the
      previous close and the previous open. */
  datatype Anchor = Anchor(high: Cell, low: Cell, prevClose: Cell, prevOpen: Cell)

  const FibRatios: seq<real> := [0.236, 0.382, 0.5, 0.618, 0.786, 1.0, 1.272, 1.618]

  function Range(a: Anchor): Cell { Sub(a.high, a.low) }

  /** `1.1 / (12 / j)`; rung 0 is never created. */
  function CamarillaFactor(j: nat): real
  {
    if j == 0 then 0.0 else 1.1 / (12.0 / (j as real))
  }

  function StandardPivot(a: Anchor): Cell
  {
    Div(Add(Add(a.high, a.low), a.prevClose), Val(3.0))
  }

  function WoodiePivot(a: Anchor): Cell
  {
    Div(Add(Add(a.high, a.low), Scale(2.0, a.prevOpen)), Val(4.0))
  }

  /** `np.where(pc < po, H+2L+pc, np.where(pc > po, 2H+L+pc, H+L+2pc))`;
      both comparisons are false when either side is missing. */
  function DemarkX(a: Anchor): Cell
  {
    if Greater(a.prevOpen, a.prevClose) then Add(Add(a.high, Scale(2.0, a.low)), a.prevClose)
    else if Greater(a.prevClose, a.prevOpen) then Add(Add(Scale(2.0, a.high), a.low), a.prevClose)
    else Add(Add(a.high, a.low), Scale(2.0, a.prevClose))
  }

  /** The Fibonacci ratio of rung j; only rungs 1..8 are ever created. */
  function FibRatio(j: nat): real
  {
    if 1 <= j <= |FibRatios| then FibRatios[j - 1] else 0.0
  }

  /** The value of a level on one row; the pivots of Fibonacci and Camarilla
      are never created and read as the standard pivot. */
  function LevelValue(l: Level, a: Anchor): Cell
  {
    match l
    case P(s) =>
      if s == Woodie then WoodiePivot(a)
      else if s == Demark then Div(DemarkX(a), Val(4.0))
      else StandardPivot(a)
    case R(s, j) =>
      (match s
       case Standard => Add(StandardPivot(a), Scale(j as real, Range(a)))
       case Fibonacci => Add(StandardPivot(a), Scale(FibRatio(j), Range(a)))
       case Camarilla => Add(a.prevClose, Scale(CamarillaFactor(j), Range(a)))
       case Woodie => Add(WoodiePivot(a), Scale(j as real, Range(a)))
       case Demark => Sub(Div(DemarkX(a), Val(2.0)), a.low))
    case S(s, j) =>
      match s
      case Standard => Sub(StandardPivot(a), Scale(j as real, Range(a)))
      case Fibonacci => Sub(StandardPivot(a), Scale(FibRatio(j), Range(a)))
      case Camarilla => Sub(a.prevClose, Scale(CamarillaFactor(j), Range(a)))
      case Woodie => Sub(WoodiePivot(a), Scale(j as real, Range(a)))
      case Demark => Sub(Div(DemarkX(a), Val(2.0)), a.high)
  }

  /** Standard and Woodie: supports below the pivot, resistances above, and
      the j-th pair spans 2·j ranges. */
  lemma StandardBands(a: Anchor, j: nat)
    requires j >= 1 && a.high.Val? && a.low.Val? && a.prevClose.Val? && a.high.v >= a.low.v
    ensures var p := LevelValue(P(Standard), a);
      var r := LevelValue(R(Standard, j), a); var s := LevelValue(S(Standard, j), a);
      p.Val? && r.Val? && s.Val? && s.v <= p.v <= r.v &&
      r.v - s.v == 2.0 * (j as real) * (a.high.v - a.low.v)
  {
  }

  lemma WoodieBands(a: Anchor, j: nat)
    requires j >= 1 && a.high.Val? && a.low.Val? && a.prevOpen.Val? && a.high.v >= a.low.v
    ensures var p := LevelValue(P(Woodie), a);
      var r := LevelValue(R(Woodie, j), a); var s := LevelValue(S(Woodie, j), a);
      p.Val? && r.Val? && s.Val? && s.v <= p.v <= r.v &&
      r.v - s.v == 2.0 * (j as real) * (a.high.v - a.low.v)
  {
  }

  /** Fibonacci levels sit a ratio of the range either side of the standard pivot. */
  lemma FibonacciBands(a: Anchor, j: nat)
    requires 1 <= j <= 8 && a.high.Val? && a.low.Val? && a.prevClose.Val? && a.high.v >= a.low.v
    ensures var p := LevelValue(P(Standard), a);
      var r := LevelValue(R(Fibonacci, j), a); var s := LevelValue(S(Fibonacci, j), a);
      r.Val? && s.Val? && s.v <= p.v <= r.v &&
      r.v - p.v == p.v - s.v == FibRatios[j - 1] * (a.high.v - a.low.v)
  {
  }

  /** Camarilla levels sit 1.1·j/12 ranges either side of the previous close. */
  lemma CamarillaBands(a: Anchor, j: nat)
    requires j >= 1 && a.high.Val? && a.low.Val? && a.prevClose.Val?
    ensures var r := LevelValue(R(Camarilla, j), a); var s := LevelValue(S(Camarilla, j), a);
      r.Val? && s.Val? &&
      r.v - a.prevClose.v == a.prevClose.v - s.v == 1.1 * (j as real) / 12.0 * (a.high.v - a.low.v)
  {
    assert CamarillaFactor(j) == 1.1 * (j as real) / 12.0;
  }

  /** Demark: whichever branch X takes, R1 and S1 are exactly one range apart. */
  lemma DemarkSpread(a: Anchor)
    requires a.high.Val? && a.low.Val? && a.prevClose.Val? && a.prevOpen.Val?
    ensures var r := LevelValue(R(Demark, 1), a); var s := LevelValue(S(Demark, 1), a);
      r.Val? && s.Val? && r.v - s.v == a.high.v - a.low.v
  {
  }

  /** A row without a full window, or without a previous bar, has no level. */
  lemma LevelMissingWithoutHistory(l: Level, a: Anchor)
    requires a.high.Missing? || (a.prevClose.Missing? && a.prevOpen.Missing?)
    ensures LevelValue(l, a).Missing?
  {
  }

  // ---------------------------------------------------------------------------
  // Which levels are created

  /** R1, S1, …, Rm, Sm of one system. */
  function Pairs(s: System, m: nat): (r: seq<Level>)
    ensures |r| == 2 * m
  {
    if m == 0 then [] else Pairs(s, m - 1) + [R(s, m), S(s, m)]
  }

  lemma {:induction false} PairsMembership(s: System, m: nat, l: Level)
    ensures l in Pairs(s, m) <==> !l.P? && l.system == s && 1 <= l.j <= m
  {
    if m > 0 {
      PairsMembership(s, m - 1, l);
    }
  }

  /** `created_columns`, in the order the levels are assigned. */
  function Created(n: nat): seq<Level>
  {
    [P(Standard)] + Pairs(Standard, n) + Pairs(Fibonacci, MinNat(n, 8))
      + Pairs(Camarilla, MinNat(n, 4)) + [P(Woodie)] + Pairs(Woodie, n)
      + [P(Demark)] + [R(Demark, 1)] + [S(Demark, 1)]
  }

  /** How many R/S pairs a system gets for `num_levels = n`. */
  function Bound(s: System, n: nat): nat
  {
    match s
    case Standard => n
    case Fibonacci => MinNat(n, 8)
    case Camarilla => MinNat(n, 4)
    case Woodie => n
    case Demark => 1
  }

  /** The created level columns are fixed by n: the Standard, Woodie and Demark
      pivots, and pairs j = 1..Bound(system, n) — Demark always exactly one. */
  lemma CreatedLevels(n: nat, l: Level)
    ensures l in Created(n) <==>
      if l.P? then l.system in {Standard, Woodie, Demark} else 1 <= l.j <= Bound(l.system, n)
  {
    var a := [P(Standard)] + Pairs(Standard, n);
    var b := a + Pairs(Fibonacci, MinNat(n, 8));
    var c := b + Pairs(Camarilla, MinNat(n, 4));
    var d := c + [P(Woodie)];
    var e := d + Pairs(Woodie, n);
    assert Created(n) == e + [P(Demark)] + [R(Demark, 1)] + [S(Demark, 1)];
    PairsMembership(Standard, n, l);
    assert l in a <==> l == P(Standard) || l in Pairs(Standard, n);
    PairsMembership(Fibonacci, MinNat(n, 8), l);
    assert l in b <==> l in a || l in Pairs(Fibonacci, MinNat(n, 8));
    PairsMembership(Camarilla, MinNat(n, 4), l);
    assert l in c <==> l in b || l in Pairs(Camarilla, MinNat(n, 4));
    PairsMembership(Woodie, n, l);
    assert l in e <==> l in c || l == P(Woodie) || l in Pairs(Woodie, n);
  }

  lemma BoundAtMost(s: System, n: nat)
    requires n >= 1
    ensures Bound(s, n) <= n
  {
  }

  function Names(ls: seq<Level>): (r: seq<string>)
    ensures |r| == |ls| && forall i :: 0 <= i < |ls| ==> r[i] == LevelName(ls[i])
  {
    seq(|ls|, i requires 0 <= i < |ls| => LevelName(ls[i]))
  }

  lemma SystemNameInjective(a: System, b: System)
    ensures SystemName(a) == SystemName(b) ==> a == b
  {
  }

  lemma FirstFieldOfLevel(l: Level)
    ensures FirstField(LevelName(l), '_') == SystemName(l.system)
  {
    match l
    case P(s) => FirstFieldOfPrefix(SystemName(s), '_', "P");
    case R(s, j) => FirstFieldOfPrefix(SystemName(s), '_', ['R'] + NatToString(j));
    case S(s, j) => FirstFieldOfPrefix(SystemName(s), '_', ['S'] + NatToString(j));
  }

  /** Different levels never share a column name. */
  lemma LevelNameInjective(a: Level, b: Level)
    ensures LevelName(a) == LevelName(b) ==> a == b
  {
    if LevelName(a) == LevelName(b) {
      FirstFieldOfLevel(a);
      FirstFieldOfLevel(b);
      SystemNameInjective(a.system, b.system);
      var p := SystemName(a.system) + ['_'];
      var ta := LevelName(a)[|p|..];
      var tb := LevelName(b)[|p|..];
      assert ta[0] == (if a.P? then 'P' else if a.R? then 'R' else 'S');
      assert tb[0] == (if b.P? then 'P' else if b.R? then 'R' else 'S');
      if !a.P? {
        assert ta[1..] == NatToString(a.j);
        assert tb[1..] == NatToString(b.j);
        NatToStringInjective(a.j, b.j);
      }
    }
  }

  // ---------------------------------------------------------------------------
  // Names by shape: level names are never distance names or base columns,
  // and resistance/support names end in a digit while pivot names do not.

  predicate IsDistance(x: string)
  {
    |x| >= 12 && x[..12] == "distance_to_"
  }

  predicate EndsInDigit(x: string)
  {
    |x| > 0 && IsDigit(x[|x| - 1])
  }

  lemma SystemPrefixNotDistance(s: System, rest: string)
    ensures !IsDistance(SystemName(s) + ['_'] + rest)
  {
    var x := SystemName(s) + ['_'] + rest;
    assert x[0] == SystemName(s)[0] && x[1] == SystemName(s)[1];
    if |x| >= 12 {
      assert x[..12][0] == x[0] && x[..12][1] == x[1];
    }
  }

  lemma LevelNameShape(l: Level)
    ensures !IsDistance(LevelName(l)) && LevelName(l) !in BarColumns
    ensures EndsInDigit(LevelName(l)) <==> !l.P?
  {
    match l
    case P(s) => SystemPrefixNotDistance(s, "P");
    case R(s, j) => SystemPrefixNotDistance(s, ['R'] + NatToString(j));
    case S(s, j) => SystemPrefixNotDistance(s, ['S'] + NatToString(j));
    var x := LevelName(l);
    assert x[0] == SystemName(l.system)[0] && x[1] == SystemName(l.system)[1];
  }

  lemma DistanceNameShape(y: string)
    ensures IsDistance(DistanceName(y)) && DistanceName(y) !in BarColumns
    ensures EndsInDigit(DistanceName(y)) <==> EndsInDigit(y)
  {
    assert DistanceName(y)[..12] == "distance_to_";
  }

  lemma DistanceNameInjective(y: string, z: string)
    ensures DistanceName(y) == DistanceName(z) <==> y == z
  {
    SamePrefix("distance_to_", y, z);
  }

  // ---------------------------------------------------------------------------
  // The frame-level stages

  /** The rolling high/low over `num_candles` bars and the previous close/open, per row. */
  function Anchors(t: Table, w: nat): (r: seq<Anchor>)
    requires t.Valid() && HasBars(t) && w >= 1
    ensures |r| == t.Rows()
  {
    BarsPresent(t);
    var hi := RollingMax(t.cols["high"], w);
    var lo := RollingMin(t.cols["low"], w);
    var pc := Shift(t.cols["close"], 1);
    var po := Shift(t.cols["open"], 1);
    seq(t.Rows(), i requires 0 <= i < t.Rows() => Anchor(hi[i], lo[i], pc[i], po[i]))
  }

  function LevelColumn(l: Level, anchors: seq<Anchor>): (r: seq<Cell>)
    ensures |r| == |anchors| && forall i :: 0 <= i < |anchors| ==> r[i] == LevelValue(l, anchors[i])
  {
    seq(|anchors|, i requires 0 <= i < |anchors| => LevelValue(l, anchors[i]))
  }

  /** Assign the level columns one after another. */
  function AddLevels(t: Table, ls: seq<Level>, anchors: seq<Anchor>): (r: Table)
    requires t.Valid() && HasBars(t) && |anchors| == t.Rows()
    ensures r.Valid() && HasBars(r) && r.index == t.index
  {
    if ls == [] then t
    else
      var init := ls[..|ls| - 1];
      var last := ls[|ls| - 1];
      Assign(AddLevels(t, init, anchors), LevelName(last), LevelColumn(last, anchors), true)
  }

  lemma {:induction false} AddLevelsConcat(t: Table, a: seq<Level>, b: seq<Level>, anchors: seq<Anchor>)
    requires t.Valid() && HasBars(t) && |anchors| == t.Rows()
    ensures AddLevels(t, a + b, anchors) == AddLevels(AddLevels(t, a, anchors), b, anchors)
    decreases |b|
  {
    if b == [] {
      assert a + b == a;
    } else {
      assert (a + b)[..|a + b| - 1] == a + b[..|b| - 1];
      AddLevelsConcat(t, a, b[..|b| - 1], anchors);
    }
  }

  /** After the assignments every level of ls holds its column. */
  lemma {:induction false} AddLevelsHas(t: Table, ls: seq<Level>, anchors: seq<Anchor>, l: Level)
    requires t.Valid() && HasBars(t) && |anchors| == t.Rows() && l in ls
    ensures var r := AddLevels(t, ls, anchors);
      LevelName(l) in r.cols && r.cols[LevelName(l)] == LevelColumn(l, anchors)
  {
    var init := ls[..|ls| - 1];
    var last := ls[|ls| - 1];
    if l != last {
      assert l in init;
      AddLevelsHas(t, init, anchors, l);
      LevelNameInjective(l, last);
    }
  }

  /** A column whose name is no level of ls is as it was. */
  lemma {:induction false} AddLevelsKeeps(t: Table, ls: seq<Level>, anchors: seq<Anchor>, x: string)
    requires t.Valid() && HasBars(t) && |anchors| == t.Rows() && x !in Names(ls)
    ensures var r := AddLevels(t, ls, anchors);
      (x in r.cols <==> x in t.cols) && (x in t.cols ==> r.cols[x] == t.cols[x])
  {
    if ls != [] {
      var init := ls[..|ls| - 1];
      assert Names(ls)[|ls| - 1] == LevelName(ls[|ls| - 1]);
      assert x !in Names(init);
      AddLevelsKeeps(t, init, anchors, x);
    }
  }

  /** The assignments add only level columns of ls. */
  lemma {:induction false} AddLevelsOnly(t: Table, ls: seq<Level>, anchors: seq<Anchor>, x: string)
    requires t.Valid() && HasBars(t) && |anchors| == t.Rows()
    requires x in AddLevels(t, ls, anchors).cols
    ensures x in t.cols || x in Names(ls)
  {
    if ls != [] {
      var init, last := ls[..|ls| - 1], ls[|ls| - 1];
      SplitLast(ls);
      AddLevelsSnoc(t, init, last, anchors);
      NamesConcat(init, [last]);
      if x != LevelName(last) {
        AddLevelsOnly(t, init, anchors, x);
      }
    }
  }

  /** After the assignments every column of ls holds its level, and every
      column whose name is no level of ls is as it was. */
  lemma AddLevelsColumns(t: Table, ls: seq<Level>, anchors: seq<Anchor>)
    requires t.Valid() && HasBars(t) && |anchors| == t.Rows()
    ensures var r := AddLevels(t, ls, anchors);
      (forall l :: l in ls ==> LevelName(l) in r.cols && r.cols[LevelName(l)] == LevelColumn(l, anchors)) &&
      (forall x :: x !in Names(ls) ==> (x in r.cols <==> x in t.cols) && (x in t.cols ==> r.cols[x] == t.cols[x])) &&
      (forall x :: x in r.cols ==> x in t.cols || x in Names(ls))
  {
    var r := AddLevels(t, ls, anchors);
    forall l | l in ls ensures LevelName(l) in r.cols && r.cols[LevelName(l)] == LevelColumn(l, anchors) {
      AddLevelsHas(t, ls, anchors, l);
    }
    forall x | x !in Names(ls) ensures (x in r.cols <==> x in t.cols) && (x in t.cols ==> r.cols[x] == t.cols[x]) {
      AddLevelsKeeps(t, ls, anchors, x);
    }
    forall x | x in r.cols ensures x in t.cols || x in Names(ls) {
      AddLevelsOnly(t, ls, anchors, x);
    }
  }

  /** If the rung column exists, store `close - column` under `distance_to_<column>`. */
  function RungDistance(t: Table, rn: string): (r: Table)
    requires t.Valid() && HasBars(t)
    ensures r.Valid() && HasBars(r) && r.index == t.index && t.cols.Keys <= r.cols.Keys
  {
    BarsPresent(t);
    if rn in t.cols then Assign(t, DistanceName(rn), SubCols(t.cols["close"], t.cols[rn]), true) else t
  }

  /** One turn of the inner distance loop: the R and then the S rung j of a prefix. */
  function DistanceStep(t: Table, prefix: string, j: nat): (r: Table)
    requires t.Valid() && HasBars(t)
    ensures r.Valid() && HasBars(r) && r.index == t.index && t.cols.Keys <= r.cols.Keys
  {
    RungDistance(RungDistance(t, Rung(prefix, 'R', j)), Rung(prefix, 'S', j))
  }

  /** The inner loop `for j in range(1, m + 1)`. */
  function DistancesFor(t: Table, prefix: string, m: nat): (r: Table)
    requires t.Valid() && HasBars(t)
    ensures r.Valid() && HasBars(r) && r.index == t.index && t.cols.Keys <= r.cols.Keys
  {
    if m == 0 then t else DistanceStep(DistancesFor(t, prefix, m - 1), prefix, m)
  }

  /** The outer loop over `created_columns`, with `split('_')[0]` as prefix. */
  function Distances(t: Table, created: seq<string>, n: nat): (r: Table)
    requires t.Valid() && HasBars(t)
    ensures r.Valid() && HasBars(r) && r.index == t.index && t.cols.Keys <= r.cols.Keys
  {
    if created == [] then t
    else DistancesFor(Distances(t, created[..|created| - 1], n), FirstField(created[|created| - 1], '_'), n)
  }

  /** The frame after the level assignments. */
  function WithLevels(df: Table, w: nat, n: nat): (r: Table)
    requires df.Valid() && HasBars(df) && w >= 1
    ensures r.Valid() && HasBars(r) && r.index == df.index
  {
    AddLevels(df, Created(n), Anchors(df, w))
  }

  /** The frame after the distance loops. */
  function WithDistances(df: Table, w: nat, n: nat): (r: Table)
    requires df.Valid() && HasBars(df) && w >= 1
    ensures r.Valid() && HasBars(r) && r.index == df.index
  {
    Distances(WithLevels(df, w, n), Names(Created(n)), n)
  }

  /** `add_pivot_levels(df, num_candles, num_levels, keep_distance_only)`. */
  function PivotLevels(df: Table, w: nat, n: nat, keep: bool): (r: Table)
    requires df.Valid() && HasBars(df) && w >= 1
    ensures r.Valid() && r.index == df.index
  {
    if keep then DropColumns(WithDistances(df, w, n), set x | x in Names(Created(n)))
    else WithDistances(df, w, n)
  }

  /** Whether or not the levels are dropped again, the bar columns stay. */
  lemma PivotLevelsKeepBars(df: Table, w: nat, n: nat, keep: bool)
    requires df.Valid() && HasBars(df) && w >= 1
    ensures HasBars(PivotLevels(df, w, n, keep))
  {
    BarsNotCreated(n);
    if keep {
      var wd := WithDistances(df, w, n);
      var drop := set x | x in Names(Created(n));
      assert forall k :: 0 <= k < |BarColumns| ==> BarColumns[k] !in drop;
      assert PivotLevels(df, w, n, keep) == DropColumns(wd, drop);
    }
  }

  /** No level name is a bar column. */
  lemma BarsNotCreated(n: nat)
    ensures forall k :: 0 <= k < |BarColumns| ==> BarColumns[k] !in Names(Created(n))
  {
    var ls := Created(n);
    forall k | 0 <= k < |BarColumns| ensures BarColumns[k] !in Names(ls) {
      if BarColumns[k] in Names(ls) {
        var i :| 0 <= i < |ls| && Names(ls)[i] == BarColumns[k];
        LevelNameShape(ls[i]);
      }
    }
  }

  // ---------------------------------------------------------------------------
  // What the distance loops add

  ghost predicate NoDistanceColumns(t: Table)
  {
    forall x :: x in t.cols ==> !IsDistance(x)
  }

  /** t grew from t1 by distance columns only, each `close - y` for a column y of t1
      whose name ends in a digit. */
  ghost predicate Grown(t1: Table, t: Table)
  {
    t1.Valid() && HasBars(t1) && NoDistanceColumns(t1) &&
    t.Valid() && HasBars(t) && t.index == t1.index &&
    (forall x :: x in t1.cols ==> x in t.cols && t.cols[x] == t1.cols[x]) &&
    (forall x :: x in t.cols && !IsDistance(x) ==> x in t1.cols) &&
    (forall y :: DistanceName(y) in t.cols ==> DistanceOf(t1, t, y))
  }

  /** `distance_to_<y>` in t holds `close - y` for a column y of t1 that ends in a digit. */
  ghost predicate DistanceOf(t1: Table, t: Table, y: string)
    requires DistanceName(y) in t.cols
  {
    y in t1.cols && EndsInDigit(y) && "close" in t1.cols && |t1.cols["close"]| == |t1.cols[y]| &&
    t.cols[DistanceName(y)] == SubCols(t1.cols["close"], t1.cols[y])
  }

  lemma GrownStart(t1: Table)
    requires t1.Valid() && HasBars(t1) && NoDistanceColumns(t1)
    ensures Grown(t1, t1)
  {
    BarsPresent(t1);
    forall y | DistanceName(y) in t1.cols ensures false {
      DistanceNameShape(y);
    }
  }

  lemma RungShape(prefix: string, letter: char, j: nat)
    ensures EndsInDigit(Rung(prefix, letter, j))
  {
    var x := Rung(prefix, letter, j);
    assert x[|x| - 1] == NatToString(j)[|NatToString(j)| - 1];
  }

  lemma AssignDistanceGrown(t1: Table, t: Table, y: string)
    requires Grown(t1, t) && y in t.cols && !IsDistance(y) && EndsInDigit(y)
    ensures "close" in t.cols
    ensures Grown(t1, Assign(t, DistanceName(y), SubCols(t.cols["close"], t.cols[y]), true))
  {
    BarsPresent(t);
    DistanceNameShape("close");
    var d := DistanceName(y);
    DistanceNameShape(y);
    assert d !in t1.cols;
    var r := Assign(t, d, SubCols(t.cols["close"], t.cols[y]), true);
    BarsPresent(t1);
    forall z | DistanceName(z) in r.cols ensures DistanceOf(t1, r, z) {
      DistanceNameInjective(y, z);
      if z == y {
        assert y in t1.cols;
        assert t.cols["close"] == t1.cols["close"] && t.cols[y] == t1.cols[y];
      } else {
        assert DistanceOf(t1, t, z);
      }
    }
  }

  lemma StepGrown(t1: Table, t: Table, s: System, j: nat)
    requires Grown(t1, t)
    ensures Grown(t1, DistanceStep(t, SystemName(s), j))
  {
    BarsPresent(t);
    var p := SystemName(s);
    var rn := Rung(p, 'R', j);
    var sn := Rung(p, 'S', j);
    SystemPrefixNotDistance(s, ['R'] + NatToString(j));
    SystemPrefixNotDistance(s, ['S'] + NatToString(j));
    RungShape(p, 'R', j);
    RungShape(p, 'S', j);
    var ta := RungDistance(t, rn);
    if rn in t.cols {
      AssignDistanceGrown(t1, t, rn);
    }
    if sn in ta.cols {
      AssignDistanceGrown(t1, ta, sn);
    }
  }

  lemma ForGrown(t1: Table, t: Table, s: System, m: nat)
    requires Grown(t1, t)
    ensures Grown(t1, DistancesFor(t, SystemName(s), m))
  {
    ForGrownFrom(t1, t, s, 0, m);
  }

  lemma {:induction false} ForGrownFrom(t1: Table, t: Table, s: System, a: nat, m: nat)
    requires t.Valid() && HasBars(t) && a <= m
    requires Grown(t1, DistancesFor(t, SystemName(s), a))
    ensures Grown(t1, DistancesFor(t, SystemName(s), m))
    decreases m - a
  {
    if a < m {
      var p := SystemName(s);
      StepGrown(t1, DistancesFor(t, p, a), s, a + 1);
      assert DistancesFor(t, p, a + 1) == DistanceStep(DistancesFor(t, p, a), p, a + 1);
      ForGrownFrom(t1, t, s, a + 1, m);
    }
  }

  lemma {:induction false} DistancesGrown(t1: Table, t: Table, ls: seq<Level>, n: nat)
    requires Grown(t1, t)
    ensures Grown(t1, Distances(t, Names(ls), n))
  {
    if ls != [] {
      var init := ls[..|ls| - 1];
      assert Names(ls)[..|ls| - 1] == Names(init);
      DistancesGrown(t1, t, init, n);
      FirstFieldOfLevel(ls[|ls| - 1]);
      ForGrown(t1, Distances(t, Names(init), n), ls[|ls| - 1].system, n);
    }
  }

  /** One turn stores the distance of the rung it finds. */
  lemma StepAdds(t: Table, prefix: string, j: nat, letter: char)
    requires t.Valid() && HasBars(t)
    requires (letter == 'R' || letter == 'S') && Rung(prefix, letter, j) in t.cols
    ensures DistanceName(Rung(prefix, letter, j)) in DistanceStep(t, prefix, j).cols
  {
    BarsPresent(t);
    var t1 := RungDistance(t, Rung(prefix, 'R', j));
    assert t.cols.Keys <= t1.cols.Keys;
  }

  /** Later turns of the inner loop remove no column. */
  lemma {:induction false} ForKeeps(t: Table, prefix: string, a: nat, b: nat)
    requires t.Valid() && HasBars(t) && a <= b
    ensures DistancesFor(t, prefix, a).cols.Keys <= DistancesFor(t, prefix, b).cols.Keys
    decreases b - a
  {
    if a < b {
      assert DistancesFor(t, prefix, a + 1) == DistanceStep(DistancesFor(t, prefix, a), prefix, a + 1);
      ForKeeps(t, prefix, a + 1, b);
    }
  }

  /** The inner loop stores the distance of every rung 1..m it finds. */
  lemma ForAdds(t: Table, prefix: string, m: nat, letter: char, j: nat)
    requires t.Valid() && HasBars(t)
    requires 1 <= j <= m && (letter == 'R' || letter == 'S') && Rung(prefix, letter, j) in t.cols
    ensures DistanceName(Rung(prefix, letter, j)) in DistancesFor(t, prefix, m).cols
  {
    var before := DistancesFor(t, prefix, j - 1);
    ForKeeps(t, prefix, 0, j - 1);
    StepAdds(before, prefix, j, letter);
    assert DistancesFor(t, prefix, j) == DistanceStep(before, prefix, j);
    ForKeeps(t, prefix, j, m);
  }

  lemma {:induction false} DistancesConcat(t: Table, a: seq<string>, b: seq<string>, n: nat)
    requires t.Valid() && HasBars(t)
    ensures Distances(t, a + b, n) == Distances(Distances(t, a, n), b, n)
    decreases |b|
  {
    if b == [] {
      assert a + b == a;
    } else {
      assert (a + b)[..|a + b| - 1] == a + b[..|b| - 1];
      DistancesConcat(t, a, b[..|b| - 1], n);
    }
  }

  /** Every resistance or support level listed, with j within the loop bound,
      gets its distance column. */
  lemma DistancesAdd(t: Table, ls: seq<Level>, n: nat, k: nat)
    requires t.Valid() && HasBars(t) && k < |ls| && !ls[k].P? && 1 <= ls[k].j <= n
    requires LevelName(ls[k]) in t.cols
    ensures DistanceName(LevelName(ls[k])) in Distances(t, Names(ls), n).cols
  {
    PrefixAdds(t, ls, n, k);
    DistancesPrefixKeys(t, Names(ls), k + 1, n);
  }

  /** The outer loop has stored the distance by the time it passes the level. */
  lemma PrefixAdds(t: Table, ls: seq<Level>, n: nat, k: nat)
    requires t.Valid() && HasBars(t) && k < |ls| && !ls[k].P? && 1 <= ls[k].j <= n
    requires LevelName(ls[k]) in t.cols
    ensures DistanceName(LevelName(ls[k])) in Distances(t, Names(ls)[..k + 1], n).cols
  {
    var names := Names(ls);
    var l := ls[k];
    var before := Distances(t, names[..k], n);
    assert LevelName(l) in before.cols;
    FirstFieldOfLevel(l);
    DistancesSnoc(t, names, k, n);
    var letter := if l.R? then 'R' else 'S';
    assert LevelName(l) == Rung(SystemName(l.system), letter, l.j);
    ForAdds(before, SystemName(l.system), n, letter, l.j);
  }

  /** The later turns of the outer loop remove no column. */
  lemma DistancesPrefixKeys(t: Table, names: seq<string>, k: nat, n: nat)
    requires t.Valid() && HasBars(t) && k <= |names|
    ensures Distances(t, names[..k], n).cols.Keys <= Distances(t, names, n).cols.Keys
  {
    assert names == names[..k] + names[k..];
    DistancesConcat(t, names[..k], names[k..], n);
  }

  lemma DistancesSnoc(t: Table, created: seq<string>, k: nat, n: nat)
    requires t.Valid() && HasBars(t) && k < |created|
    ensures Distances(t, created[..k + 1], n) ==
      DistancesFor(Distances(t, created[..k], n), FirstField(created[k], '_'), n)
  {
    TakeTake(created, k);
  }

  lemma {:induction false} NoLoopsAtZero(t: Table, created: seq<string>)
    requires t.Valid() && HasBars(t)
    ensures Distances(t, created, 0) == t
  {
    if created != [] {
      NoLoopsAtZero(t, created[..|created| - 1]);
    }
  }

  // ---------------------------------------------------------------------------
  // Properties of the whole stage

  /** The frame holds no pivot-level or distance column yet. */
  ghost predicate Fresh(df: Table)
  {
    NoDistanceColumns(df) && forall l :: LevelName(l) !in df.cols
  }

  lemma NamesMembership(ls: seq<Level>, l: Level)
    ensures LevelName(l) in Names(ls) <==> l in ls
  {
    if LevelName(l) in Names(ls) {
      var i :| 0 <= i < |ls| && Names(ls)[i] == LevelName(l);
      LevelNameInjective(l, ls[i]);
    }
    if l in ls {
      var i :| 0 <= i < |ls| && ls[i] == l;
      assert Names(ls)[i] == LevelName(l);
    }
  }

  lemma NamesNotDistances(ls: seq<Level>)
    ensures forall x :: x in Names(ls) ==> !IsDistance(x)
  {
    forall x | x in Names(ls) ensures !IsDistance(x) {
      var i :| 0 <= i < |ls| && Names(ls)[i] == x;
      LevelNameShape(ls[i]);
    }
  }

  lemma LevelNamesNotIn(df: Table, ls: seq<Level>)
    requires Fresh(df)
    ensures forall x :: x in df.cols ==> x !in Names(ls)
  {
    forall x | x in Names(ls) ensures x !in df.cols {
      var i :| 0 <= i < |ls| && Names(ls)[i] == x;
    }
  }

  lemma Stage1(df: Table, w: nat, n: nat)
    requires df.Valid() && HasBars(df) && w >= 1 && Fresh(df)
    ensures var t1 := WithLevels(df, w, n);
      NoDistanceColumns(t1) &&
      (forall l :: LevelName(l) in t1.cols <==> l in Created(n)) &&
      (forall l :: l in Created(n) ==> t1.cols[LevelName(l)] == LevelColumn(l, Anchors(df, w))) &&
      (forall x :: x in df.cols ==> x in t1.cols && t1.cols[x] == df.cols[x])
  {
    var ls := Created(n);
    var t1 := WithLevels(df, w, n);
    AddLevelsColumns(df, ls, Anchors(df, w));
    LevelNamesNotIn(df, ls);
    NamesNotDistances(ls);
    forall l | LevelName(l) in t1.cols ensures l in ls {
      NamesMembership(ls, l);
    }
  }

  /** The distance columns grow out of the frame with its levels. */
  lemma DistancesFromLevels(df: Table, w: nat, n: nat)
    requires df.Valid() && HasBars(df) && w >= 1 && Fresh(df)
    ensures Grown(WithLevels(df, w, n), WithDistances(df, w, n))
  {
    var t1 := WithLevels(df, w, n);
    Stage1(df, w, n);
    GrownStart(t1);
    DistancesGrown(t1, t1, Created(n), n);
  }

  /** A distance column exists only for a created resistance or support level,
      only when the loop bound n is at least 1, and holds close − level. */
  lemma DistanceOnlyForRungs(df: Table, w: nat, n: nat, l: Level)
    requires df.Valid() && HasBars(df) && w >= 1 && Fresh(df)
    requires DistanceName(LevelName(l)) in WithDistances(df, w, n).cols
    ensures n >= 1 && !l.P? && l in Created(n) && "close" in df.cols
    ensures WithDistances(df, w, n).cols[DistanceName(LevelName(l))] ==
      SubCols(df.cols["close"], LevelColumn(l, Anchors(df, w)))
  {
    var t1 := WithLevels(df, w, n);
    var t2 := WithDistances(df, w, n);
    var x := LevelName(l);
    DistancesFromLevels(df, w, n);
    assert DistanceOf(t1, t2, x);
    BarsPresent(df);
    assert l in Created(n) && t1.cols["close"] == df.cols["close"] &&
      t1.cols[x] == LevelColumn(l, Anchors(df, w)) by {
      Stage1(df, w, n);
    }
    LevelNameShape(l);
    if n == 0 {
      assert t2 == t1 by {
        NoLoopsAtZero(t1, Names(Created(n)));
      }
      DistanceNameShape(x);
      Stage1(df, w, n);
    }
  }

  lemma DistanceForEveryRung(df: Table, w: nat, n: nat, l: Level)
    requires df.Valid() && HasBars(df) && w >= 1 && Fresh(df)
    requires n >= 1 && !l.P? && l in Created(n)
    ensures DistanceName(LevelName(l)) in WithDistances(df, w, n).cols
  {
    var ls := Created(n);
    var t1 := WithLevels(df, w, n);
    assert 1 <= l.j <= n by {
      CreatedLevels(n, l);
      BoundAtMost(l.system, n);
    }
    var k :| 0 <= k < |ls| && ls[k] == l;
    assert LevelName(l) in t1.cols by {
      AddLevelsColumns(df, ls, Anchors(df, w));
    }
    DistancesAdd(t1, ls, n, k);
  }

  /** Distance columns: `distance_to_<level>` exists exactly for the created
      resistance and support levels, and only when num_levels >= 1 (the
      distance loop runs j over 1..num_levels, so no pivot ever gets one, and
      with num_levels = 0 not even Demark's R1/S1 do); it holds close − level,
      and `keep_distance_only` keeps it. */
  lemma PivotDistances(df: Table, w: nat, n: nat, keep: bool, l: Level)
    requires df.Valid() && HasBars(df) && w >= 1 && Fresh(df)
    ensures var r := PivotLevels(df, w, n, keep); var d := DistanceName(LevelName(l));
      (d in r.cols <==> n >= 1 && !l.P? && l in Created(n)) &&
      (d in r.cols ==>
        "close" in df.cols && r.cols[d] == SubCols(df.cols["close"], LevelColumn(l, Anchors(df, w))))
  {
    var d := DistanceName(LevelName(l));
    if d in WithDistances(df, w, n).cols {
      DistanceOnlyForRungs(df, w, n, l);
    }
    if n >= 1 && !l.P? && l in Created(n) {
      DistanceForEveryRung(df, w, n, l);
    }
    if keep {
      DistanceNameShape(LevelName(l));
      NamesNotDistances(Created(n));
    }
  }

  /** Level columns: each created level holds its formula unless
      `keep_distance_only` drops them all; nothing else is dropped, and the
      frame's own columns are untouched. */
  lemma PivotLevelColumns(df: Table, w: nat, n: nat, keep: bool, l: Level)
    requires df.Valid() && HasBars(df) && w >= 1 && Fresh(df)
    ensures var r := PivotLevels(df, w, n, keep);
      (LevelName(l) in r.cols <==> !keep && l in Created(n)) &&
      (LevelName(l) in r.cols ==> r.cols[LevelName(l)] == LevelColumn(l, Anchors(df, w))) &&
      (forall x :: x in df.cols ==> x in r.cols && r.cols[x] == df.cols[x])
  {
    var ls := Created(n);
    Stage1(df, w, n);
    DistancesFromLevels(df, w, n);
    LevelNameShape(l);
    NamesMembership(ls, l);
    LevelNamesNotIn(df, ls);
  }

  /** The previous-bar and rolling-window anchors of a row whose window holds
      constant bars. */
  lemma ConstantAnchor(df: Table, i: nat)
    requires df.Valid() && HasBars(df) && 14 <= i + 1 < df.Rows() + 1
    requires "high" in df.cols && "low" in df.cols && "close" in df.cols
    requires forall k :: 0 <= k < df.Rows() ==>
      df.cols["high"][k] == Val(110.0) && df.cols["low"][k] == Val(90.0) && df.cols["close"][k] == Val(100.0)
    ensures var a := Anchors(df, 14)[i];
      a.high == Val(110.0) && a.low == Val(90.0) && a.prevClose == Val(100.0)
  {
    var hiWin := df.cols["high"][i + 1 - 14..i + 1];
    var loWin := df.cols["low"][i + 1 - 14..i + 1];
    assert forall k :: 0 <= k < |hiWin| ==> hiWin[k] == Val(110.0);
    assert forall k :: 0 <= k < |loWin| ==> loWin[k] == Val(90.0);
    assert SeqMax(hiWin) in hiWin && SeqMin(loWin) in loWin;
  }

  /** With constant high 110, low 90 and close 100, every row past the first
      window has standard pivot 100 and first standard resistance 120. */
  lemma ConstantBars(df: Table, i: nat)
    requires df.Valid() && HasBars(df) && Fresh(df) && 14 <= i + 1 < df.Rows() + 1
    requires "high" in df.cols && "low" in df.cols && "close" in df.cols
    requires forall k :: 0 <= k < df.Rows() ==>
      df.cols["high"][k] == Val(110.0) && df.cols["low"][k] == Val(90.0) && df.cols["close"][k] == Val(100.0)
    ensures var r := PivotLevels(df, 14, 5, false);
      "standard_P" in r.cols && r.cols["standard_P"][i] == Val(100.0) &&
      "standard_R1" in r.cols && r.cols["standard_R1"][i] == Val(120.0)
  {
    ConstantAnchor(df, i);
    ConstantLevels(Anchors(df, 14)[i]);
    StandardNames();
    CreatedLevels(5, P(Standard));
    CreatedLevels(5, R(Standard, 1));
    CreatedColumnAt(df, P(Standard), i);
    CreatedColumnAt(df, R(Standard, 1), i);
  }

  /** The standard pivot and first resistance of a bar with high 110, low 90
      and close 100. */
  lemma ConstantLevels(a: Anchor)
    requires a.high == Val(110.0) && a.low == Val(90.0) && a.prevClose == Val(100.0)
    ensures LevelValue(P(Standard), a) == Val(100.0) && LevelValue(R(Standard, 1), a) == Val(120.0)
  {
  }

  lemma StandardNames()
    ensures LevelName(P(Standard)) == "standard_P" && LevelName(R(Standard, 1)) == "standard_R1"
  {
    assert NatToString(1) == "1";
  }

  /** A created level's column holds its value at every row. */
  lemma CreatedColumnAt(df: Table, l: Level, i: nat)
    requires df.Valid() && HasBars(df) && Fresh(df) && i < df.Rows() && l in Created(5)
    ensures var r := PivotLevels(df, 14, 5, false);
      LevelName(l) in r.cols && r.cols[LevelName(l)][i] == LevelValue(l, Anchors(df, 14)[i])
  {
    PivotLevelColumns(df, 14, 5, false, l);
  }

  // ---------------------------------------------------------------------------
  // The in-place implementation

  lemma AddLevelsSnoc(t: Table, ls: seq<Level>, l: Level, anchors: seq<Anchor>)
    requires t.Valid() && HasBars(t) && |anchors| == t.Rows()
    ensures AddLevels(t, ls + [l], anchors) ==
      Assign(AddLevels(t, ls, anchors), LevelName(l), LevelColumn(l, anchors), true)
  {
    assert (ls + [l])[..|ls|] == ls;
  }

  lemma NamesConcat(a: seq<Level>, b: seq<Level>)
    ensures Names(a + b) == Names(a) + Names(b)
  {
    assert forall i :: 0 <= i < |a| ==> (a + b)[i] == a[i];
    assert forall i :: |a| <= i < |a| + |b| ==> (a + b)[i] == b[i - |a|];
  }

  /** `df[name] = value` for one level, extending the created list. */
  method AddLevel(out: Frame, l: Level, anchors: seq<Anchor>, created: seq<string>,
                  ghost t0: Table, ghost done: seq<Level>)
    returns (created': seq<string>)
    requires t0.Valid() && HasBars(t0) && |anchors| == t0.Rows()
    requires out.Contents() == AddLevels(t0, done, anchors) && created == Names(done)
    modifies out
    ensures out.Contents() == AddLevels(t0, done + [l], anchors) && created' == Names(done + [l])
  {
    out.Set(LevelName(l), LevelColumn(l, anchors), true);
    AddLevelsSnoc(t0, done, l, anchors);
    NamesConcat(done, [l]);
    created' := created + [LevelName(l)];
  }

  lemma PairsStep(done: seq<Level>, s: System, j: nat)
    ensures done + Pairs(s, j) + [R(s, j + 1)] + [S(s, j + 1)] == done + Pairs(s, j + 1)
  {
    assert Pairs(s, j + 1) == Pairs(s, j) + [R(s, j + 1), S(s, j + 1)];
  }

  /** `for j in range(1, m + 1)`: assign R_j and S_j, collecting their names. */
  method AddPairs(out: Frame, s: System, m: nat, anchors: seq<Anchor>, created: seq<string>,
                  ghost t0: Table, ghost done: seq<Level>)
    returns (created': seq<string>)
    requires t0.Valid() && HasBars(t0) && |anchors| == t0.Rows()
    requires out.Contents() == AddLevels(t0, done, anchors) && created == Names(done)
    modifies out
    ensures out.Contents() == AddLevels(t0, done + Pairs(s, m), anchors)
    ensures created' == Names(done + Pairs(s, m))
  {
    created' := created;
    assert done + Pairs(s, 0) == done;
    var j := 0;
    while j < m
      invariant j <= m
      invariant out.Contents() == AddLevels(t0, done + Pairs(s, j), anchors)
      invariant created' == Names(done + Pairs(s, j))
    {
      ghost var before := done + Pairs(s, j);
      created' := AddLevel(out, R(s, j + 1), anchors, created', t0, before);
      created' := AddLevel(out, S(s, j + 1), anchors, created', t0, before + [R(s, j + 1)]);
      PairsStep(done, s, j);
      j := j + 1;
    }
  }

  /** The level-creation part: the columns of `created_columns`, in order. */
  method AddLevelColumns(out: Frame, anchors: seq<Anchor>, n: nat) returns (created: seq<string>)
    requires out.Valid() && HasBars(out.Contents()) && |anchors| == out.Rows()
    modifies out
    ensures out.Contents() == AddLevels(old(out.Contents()), Created(n), anchors)
    ensures created == Names(Created(n))
  {
    ghost var t0 := out.Contents();
    ghost var done: seq<Level> := [];
    created := [];
    created := AddLevel(out, P(Standard), anchors, created, t0, done);
    assert done + [P(Standard)] == [P(Standard)];
    done := [P(Standard)];
    created := AddPairs(out, Standard, n, anchors, created, t0, done);
    done := done + Pairs(Standard, n);
    created := AddPairs(out, Fibonacci, MinNat(n, 8), anchors, created, t0, done);
    done := done + Pairs(Fibonacci, MinNat(n, 8));
    created := AddPairs(out, Camarilla, MinNat(n, 4), anchors, created, t0, done);
    done := done + Pairs(Camarilla, MinNat(n, 4));
    created := AddLevel(out, P(Woodie), anchors, created, t0, done);
    done := done + [P(Woodie)];
    created := AddPairs(out, Woodie, n, anchors, created, t0, done);
    done := done + Pairs(Woodie, n);
    created := AddLevel(out, P(Demark), anchors, created, t0, done);
    done := done + [P(Demark)];
    created := AddLevel(out, R(Demark, 1), anchors, created, t0, done);
    done := done + [R(Demark, 1)];
    created := AddLevel(out, S(Demark, 1), anchors, created, t0, done);
    done := done + [S(Demark, 1)];
    assert done == Created(n);
  }

  /** `df[distance_to_<rn>] = df['close'] - df[rn]` when the rung exists. */
  method RungDistanceInPlace(out: Frame, rn: string)
    requires out.Valid() && HasBars(out.Contents())
    modifies out
    ensures out.Contents() == RungDistance(old(out.Contents()), rn)
  {
    BarsPresent(out.Contents());
    if rn in out.cols {
      out.Set(DistanceName(rn), SubCols(out.cols["close"], out.cols[rn]), true);
    }
  }

  /** One turn of the inner distance loop. */
  method DistanceStepInPlace(out: Frame, ghost t0: Table, prefix: string, j: nat)
    requires t0.Valid() && HasBars(t0) && j >= 1
    requires out.Contents() == DistancesFor(t0, prefix, j - 1)
    modifies out
    ensures out.Contents() == DistancesFor(t0, prefix, j)
  {
    RungDistanceInPlace(out, Rung(prefix, 'R', j));
    RungDistanceInPlace(out, Rung(prefix, 'S', j));
  }

  /** The distance loops of the k-th created level. */
  method DistancesInPlace(out: Frame, ghost t1: Table, created: seq<string>, k: nat, n: nat)
    requires t1.Valid() && HasBars(t1) && k < |created|
    requires out.Contents() == Distances(t1, created[..k], n)
    modifies out
    ensures out.Contents() == Distances(t1, created[..k + 1], n)
  {
    DistancesSnoc(t1, created, k, n);
    AddDistancesFor(out, FirstField(created[k], '_'), n);
  }

  method AddDistancesFor(out: Frame, prefix: string, n: nat)
    requires out.Valid() && HasBars(out.Contents())
    modifies out
    ensures out.Contents() == DistancesFor(old(out.Contents()), prefix, n)
  {
    ghost var t0 := out.Contents();
    var j := 0;
    while j < n
      invariant j <= n
      invariant out.Contents() == DistancesFor(t0, prefix, j)
    {
      DistanceStepInPlace(out, t0, prefix, j + 1);
      j := j + 1;
    }
  }

  method AddPivotLevels(df: Table, numCandles: nat, numLevels: nat, keepDistanceOnly: bool)
    returns (out: Frame)
    requires df.Valid() && HasBars(df) && numCandles >= 1
    ensures fresh(out)
    ensures out.Contents() == PivotLevels(df, numCandles, numLevels, keepDistanceOnly)
  {
    out := new Frame(df);
    var created := AddLevelColumns(out, Anchors(df, numCandles), numLevels);
    AllDistancesInPlace(out, out.Contents(), created, numLevels);
    if keepDistanceOnly {
      out.Drop(set x | x in created);
    }
  }

  /** `for level in created: ... add the distance columns of level ...`. */
  method AllDistancesInPlace(out: Frame, ghost t1: Table, created: seq<string>, n: nat)
    requires t1.Valid() && HasBars(t1) && out.Contents() == t1
    modifies out
    ensures out.Contents() == Distances(t1, created, n)
  {
    var k := 0;
    assert created[..0] == [];
    while k < |created|
      invariant 0 <= k <= |created|
      invariant out.Contents() == Distances(t1, created[..k], n)
    {
      DistancesInPlace(out, t1, created, k, n);
      k := k + 1;
    }
    assert created[..k] == created;
  }
}

=== FILE: registry.dfy ===
/** The per-call suffix counter of indicator dispatch: the first use of a composed
    name keeps it, the k-th use (k >= 2) becomes `name_k`. */
module Registry {
  import opened Text

  type Counter = map<string, nat>

  function Uses(counter: Counter, base: string): nat
  {
    if base in counter then counter[base] else 0
  }

  /** The final name for the next use of `base`, and the counter after it. */
  function Resolve(counter: Counter, base: string): (r: (string, Counter))
    ensures r.1.Keys == counter.Keys + {base}
    ensures Uses(r.1, base) == Uses(counter, base) + 1
    ensures forall b :: b != base ==> Uses(r.1, b) == Uses(counter, b)
  {
    var k := Uses(counter, base) + 1;
    (if k > 1 then base + "_" + NatToString(k) else base, counter[base := k])
  }

  /** Resolving a list of composed names in order, as one call does. */
  function ResolveAll(counter: Counter, bases: seq<string>): (r: (seq<string>, Counter))
    ensures |r.0| == |bases|
  {
    if bases == [] then ([], counter)
    else
      var (names, c) := ResolveAll(counter, bases[..|bases| - 1]);
      var (n, c') := Resolve(c, bases[|bases| - 1]);
      (names + [n], c')
  }

  /** How often x occurs in s. */
  function Occurrences(s: seq<string>, x: string): nat
  {
    if s == [] then 0 else Occurrences(s[..|s| - 1], x) + (if s[|s| - 1] == x then 1 else 0)
  }

  /** The counter holds, for each composed name, how often it has been used. */
  lemma {:induction false} CounterCountsUses(bases: seq<string>, b: string)
    ensures Uses(ResolveAll(map[], bases).1, b) == Occurrences(bases, b)
  {
    if bases != [] {
      CounterCountsUses(bases[..|bases| - 1], b);
    }
  }

  /** The final name of the k-th use of a composed name. */
  function Suffixed(base: string, k: nat): string
  {
    if k > 1 then base + "_" + NatToString(k) else base
  }

  lemma SuffixedInjective(base: string, k1: nat, k2: nat)
    requires 1 <= k1 < k2
    ensures Suffixed(base, k1) != Suffixed(base, k2)
  {
    if k1 > 1 {
      NatToStringInjective(k1, k2);
      SamePrefix(base + "_", NatToString(k1), NatToString(k2));
    }
  }

  /** The i-th name resolved in one call: the bare composed name on its first
      use, `name + "_" + k` on its k-th use for k >= 2. */
  lemma {:induction false} ResolvedName(bases: seq<string>, i: nat)
    requires i < |bases|
    ensures Occurrences(bases[..i + 1], bases[i]) >= 1
    ensures ResolveAll(map[], bases).0[i] == Suffixed(bases[i], Occurrences(bases[..i + 1], bases[i]))
  {
    var init := bases[..|bases| - 1];
    ResolveAllSnoc(bases);
    if i < |bases| - 1 {
      ResolvedName(init, i);
      assert init[..i + 1] == bases[..i + 1];
    } else {
      assert bases[..i + 1] == bases;
      LastResolved(bases);
    }
  }

  /** One more composed name appends its final name. */
  lemma ResolveAllSnoc(bases: seq<string>)
    requires |bases| > 0
    ensures var init := ResolveAll(map[], bases[..|bases| - 1]);
      ResolveAll(map[], bases).0 == init.0 + [Resolve(init.1, bases[|bases| - 1]).0]
  {
  }

  /** The last composed name is resolved through the uses counted before it. */
  lemma LastResolved(bases: seq<string>)
    requires |bases| > 0
    ensures var x := bases[|bases| - 1];
      Occurrences(bases, x) >= 1 && ResolveAll(map[], bases).0[|bases| - 1] == Suffixed(x, Occurrences(bases, x))
  {
    var init := bases[..|bases| - 1];
    var x := bases[|bases| - 1];
    CounterCountsUses(init, x);
    ResolveAllSnoc(bases);
    assert Occurrences(bases, x) == Occurrences(init, x) + 1;
  }

  /** Two uses of the same composed name in one call never get the same final name. */
  lemma SameBaseDistinctNames(bases: seq<string>, i: nat, j: nat)
    requires i < j < |bases| && bases[i] == bases[j]
    ensures ResolveAll(map[], bases).0[i] != ResolveAll(map[], bases).0[j]
  {
    var x := bases[i];
    var a, b := UsesBefore(bases, i, j);
    ResolvedName(bases, i);
    ResolvedName(bases, j);
    SuffixedInjective(x, a, b);
  }

  /** The uses counted up to i and up to j, a later use of the same name. */
  lemma UsesBefore(bases: seq<string>, i: nat, j: nat) returns (a: nat, b: nat)
    requires i < j < |bases| && bases[i] == bases[j]
    ensures a == Occurrences(bases[..i + 1], bases[i]) && b == Occurrences(bases[..j + 1], bases[j])
    ensures 1 <= a < b
  {
    a, b := Occurrences(bases[..i + 1], bases[i]), Occurrences(bases[..j + 1], bases[j]);
    ResolvedName(bases, i);
    OccurrencesGrow(bases, i + 1, j + 1, bases[i]);
  }

  lemma OccurrencesGrow(s: seq<string>, a: nat, b: nat, x: string)
    requires a < b <= |s| && s[b - 1] == x
    ensures Occurrences(s[..a], x) < Occurrences(s[..b], x)
  {
    assert s[..b][..b - 1] == s[..b - 1];
    OccurrencesMonotone(s, a, b - 1, x);
  }

  lemma {:induction false} OccurrencesMonotone(s: seq<string>, a: nat, b: nat, x: string)
    requires a <= b <= |s|
    ensures Occurrences(s[..a], x) <= Occurrences(s[..b], x)
    decreases b
  {
    if a < b {
      assert s[..b][..b - 1] == s[..b - 1];
      OccurrencesMonotone(s, a, b - 1, x);
    }
  }

  /** Suffixing is not collision-free across different composed names: a third
      name spelled like the second use of another resolves to the same column. */
  lemma SuffixCollision()
    ensures ResolveAll(map[], ["x", "x", "x_2"]).0 == ["x", "x_2", "x_2"]
  {
    var bases := ["x", "x", "x_2"];
    assert NatToString(2) == "2";
    ResolvedName(bases, 0);
    ResolvedName(bases, 1);
    ResolvedName(bases, 2);
    assert bases[..1] == ["x"] && bases[..2] == ["x", "x"];
    assert Occurrences(["x"], "x") == 1;
    assert Occurrences(["x", "x"], "x") == 2;
    assert Occurrences(bases, "x_2") == 1;
    assert bases[..3] == bases;
    var names := ResolveAll(map[], bases).0;
    assert "x" + "_" + "2" == "x_2";
    assert names[0] == "x" && names[1] == "x_2" && names[2] == "x_2";
  }
}

=== FILE: smoothing.dfy ===
/** `apply_smoothing` of the native indicator module: the method name is
    upper-cased and dispatched to one of seven TA-Lib moving averages; any
    other name raises ValueError, and TA-Lib itself raises for a period it
    does not accept. */
module Smoothing {
  import opened Wrappers
  import opened Cells
  import opened Text

  datatype Method = EMA | SMA | WMA | DEMA | T3 | KAMA | TRIMA

  /** TA-Lib's moving averages on an accepted period: each maps a series and
      a period to a series. */
  type MovingAverage = (Method, seq<Cell>, int) -> seq<Cell>

  /** The model's assumption about TA-Lib: one value per input element, the
      warm-up rows holding NaN. */
  ghost predicate Shaped(talib: MovingAverage)
  {
    forall m, s, p :: |talib(m, s, p)| == |s|
  }

  /** The `timeperiod` range every one of the seven averages accepts. */
  const MinPeriod := 2
  const MaxPeriod := 100000

  predicate PeriodAccepted(period: int)
  {
    MinPeriod <= period <= MaxPeriod
  }

  /** The message of the exception TA-Lib raises for a period out of range. */
  function BadParam(m: Method): string
  {
    "TA_" + Name(m) + BadParamTail
  }

  const BadParamTail := " function failed with error code 2: Bad Parameter (TA_BAD_PARAM)"

  const MethodNames: seq<string> := ["EMA", "SMA", "WMA", "DEMA", "T3", "KAMA", "TRIMA"]

  function Name(m: Method): (r: string)
    ensures r in MethodNames
  {
    match m
    case EMA => "EMA"
    case SMA => "SMA"
    case WMA => "WMA"
    case DEMA => "DEMA"
    case T3 => "T3"
    case KAMA => "KAMA"
    case TRIMA => "TRIMA"
  }

  /** The if/elif chain on `method.upper()`. */
  function ParseMethod(name: string): (r: Option<Method>)
    ensures r.Some? <==> Upper(name) in MethodNames
    ensures r.Some? ==> Name(r.value) == Upper(name)
  {
    var u := Upper(name);
    if u == "EMA" then Some(EMA)
    else if u == "SMA" then Some(SMA)
    else if u == "WMA" then Some(WMA)
    else if u == "DEMA" then Some(DEMA)
    else if u == "T3" then Some(T3)
    else if u == "KAMA" then Some(KAMA)
    else if u == "TRIMA" then Some(TRIMA)
    else None
  }

  /** Every method is recognised by its own name, whatever its case. */
  lemma ParseName(m: Method)
    ensures ParseMethod(Name(m)) == Some(m)
    ensures ParseMethod(Lower(Name(m))) == Some(m)
  {
    UpperIgnoresCase(Name(m));
    assert Upper(Name(m)) == Name(m) by {
      assert forall i :: 0 <= i < |Name(m)| ==> UpperChar(Name(m)[i]) == Name(m)[i];
    }
  }

  /** `apply_smoothing(series, method, period)`: an unknown name raises
      ValueError; a known one whose period TA-Lib refuses raises TA-Lib's
      exception. */
  function ApplySmoothing(talib: MovingAverage, series: seq<Cell>, name: string, period: int): (r: Result<seq<Cell>, string>)
    ensures r.Err? <==> Upper(name) !in MethodNames || !PeriodAccepted(period)
    ensures Upper(name) !in MethodNames ==> r == Err("Unsupported smoothing method: " + Upper(name))
    ensures r.Err? && Upper(name) in MethodNames ==> r.error == BadParam(ParseMethod(name).value)
    ensures r.Ok? ==> exists m :: Name(m) == Upper(name) && r.value == talib(m, series, period)
  {
    match ParseMethod(name)
    case Some(m) =>
      if PeriodAccepted(period) then Ok(talib(m, series, period)) else Err(BadParam(m))
    case None => Err("Unsupported smoothing method: " + Upper(name))
  }

  /** `apply_smoothing(close, 'SMA', 1)` raises: TA-Lib's SMA needs two bars
      at least. */
  lemma SmaPeriodOneRaises(talib: MovingAverage, series: seq<Cell>)
    ensures ApplySmoothing(talib, series, "sma", 1) == Err("TA_SMA" + BadParamTail)
  {
    var u := Upper("sma");
    assert u[0] == 'S' && u[1] == 'M' && u[2] == 'A';
    assert u == "SMA";
    assert ParseMethod("sma") == Some(SMA);
    assert "TA_" + "SMA" == "TA_SMA";
  }

  /** The method name's case does not matter. */
  lemma SmoothingIgnoresCase(talib: MovingAverage, series: seq<Cell>, name: string, period: int)
    ensures ApplySmoothing(talib, series, Lower(name), period) == ApplySmoothing(talib, series, name, period)
    ensures ApplySmoothing(talib, series, Upper(name), period) == ApplySmoothing(talib, series, name, period)
  {
    UpperIgnoresCase(name);
  }
}

=== FILE: supertrend.dfy ===
/** `supertrend` of the native indicator module: the basic bands around the
    bar's midpoint, the final bands that ratchet towards the price until it
    breaks through them, the band the trend line follows, and its distance
    from the close in percent. ATR comes from TA-Lib and is taken as given,
    defined on every row. */
module SuperTrend {
  import opened Cells

  /** Python's `min(a, b)`: the first argument unless the second is smaller. */
  function Min(a: real, b: real): real { if b < a then b else a }

  /** Python's `max(a, b)`: the first argument unless the second is larger. */
  function Max(a: real, b: real): real { if b > a then b else a }

  /** `middle_band + multiplier * atr`. */
  function BasicUpper(high: seq<real>, low: seq<real>, atr: seq<real>, multiplier: real): (r: seq<real>)
    requires |high| == |low| == |atr|
    ensures |r| == |high|
    ensures forall i :: 0 <= i < |r| ==> r[i] == (high[i] + low[i]) / 2.0 + multiplier * atr[i]
  {
    seq(|high|, i requires 0 <= i < |high| => (high[i] + low[i]) / 2.0 + multiplier * atr[i])
  }

  /** `middle_band - multiplier * atr`. */
  function BasicLower(high: seq<real>, low: seq<real>, atr: seq<real>, multiplier: real): (r: seq<real>)
    requires |high| == |low| == |atr|
    ensures |r| == |high|
    ensures forall i :: 0 <= i < |r| ==> r[i] == (high[i] + low[i]) / 2.0 - multiplier * atr[i]
  {
    seq(|high|, i requires 0 <= i < |high| => (high[i] + low[i]) / 2.0 - multiplier * atr[i])
  }

  /** `final_upper_band[i]`: reset to the basic band after a close above the
      previous final band, otherwise never above the previous one. */
  function FinalUpper(bu: seq<real>, close: seq<real>, i: nat): (r: real)
    requires |bu| == |close| && i < |close|
    ensures r <= bu[i]
  {
    if i == 0 then bu[0]
    else
      var prev := FinalUpper(bu, close, i - 1);
      if close[i - 1] > prev then bu[i] else Min(bu[i], prev)
  }

  /** `final_lower_band[i]`: the mirror image, with max. */
  function FinalLower(bl: seq<real>, close: seq<real>, i: nat): (r: real)
    requires |bl| == |close| && i < |close|
    ensures r >= bl[i]
  {
    if i == 0 then bl[0]
    else
      var prev := FinalLower(bl, close, i - 1);
      if close[i - 1] < prev then bl[i] else Max(bl[i], prev)
  }

  /** A close above the upper band resets it to the basic band; otherwise it
      does not rise from one bar to the next. */
  lemma UpperStep(bu: seq<real>, close: seq<real>, i: nat)
    requires |bu| == |close| && 0 < i < |close|
    ensures close[i - 1] > FinalUpper(bu, close, i - 1) ==> FinalUpper(bu, close, i) == bu[i]
    ensures close[i - 1] <= FinalUpper(bu, close, i - 1) ==> FinalUpper(bu, close, i) <= FinalUpper(bu, close, i - 1)
  {
  }

  /** A close below the lower band resets it to the basic band; otherwise it
      does not fall from one bar to the next. */
  lemma LowerStep(bl: seq<real>, close: seq<real>, i: nat)
    requires |bl| == |close| && 0 < i < |close|
    ensures close[i - 1] < FinalLower(bl, close, i - 1) ==> FinalLower(bl, close, i) == bl[i]
    ensures close[i - 1] >= FinalLower(bl, close, i - 1) ==> FinalLower(bl, close, i) >= FinalLower(bl, close, i - 1)
  {
  }

  /** Without a close above it, the upper band does not rise over a stretch of bars. */
  lemma {:induction false} UpperRatchet(bu: seq<real>, close: seq<real>, j: nat, i: nat)
    requires |bu| == |close| && j <= i < |close|
    requires forall k :: j <= k < i ==> close[k] <= FinalUpper(bu, close, k)
    ensures FinalUpper(bu, close, i) <= FinalUpper(bu, close, j)
  {
    if i > j {
      UpperRatchet(bu, close, j, i - 1);
      UpperStep(bu, close, i);
    }
  }

  /** Without a close below it, the lower band does not fall over a stretch of bars. */
  lemma {:induction false} LowerRatchet(bl: seq<real>, close: seq<real>, j: nat, i: nat)
    requires |bl| == |close| && j <= i < |close|
    requires forall k :: j <= k < i ==> close[k] >= FinalLower(bl, close, k)
    ensures FinalLower(bl, close, i) >= FinalLower(bl, close, j)
  {
    if i > j {
      LowerRatchet(bl, close, j, i - 1);
      LowerStep(bl, close, i);
    }
  }

  /** `supertrend_series[i]` for i >= 1: the upper band while the close is at
      or below it, the lower band once the close is above it. */
  function Trend(bu: seq<real>, bl: seq<real>, close: seq<real>, i: nat): (r: real)
    requires |bu| == |close| && |bl| == |close| && i < |close|
    ensures close[i] <= FinalUpper(bu, close, i) ==> r == FinalUpper(bu, close, i) && close[i] <= r
    ensures close[i] > FinalUpper(bu, close, i) ==> r == FinalLower(bl, close, i)
  {
    var upper := FinalUpper(bu, close, i);
    if close[i] <= upper then upper else FinalLower(bl, close, i)
  }

  /** `supertrend_pct_diff[i]`: 0 on the first bar (the loop starts at 1),
      otherwise the trend line's distance from the close in percent. */
  function PctDiff(bu: seq<real>, bl: seq<real>, close: seq<real>, i: nat): (r: Cell)
    requires |bu| == |close| && |bl| == |close| && i < |close|
    ensures i == 0 ==> r == Val(0.0)
    ensures i > 0 && close[i] != 0.0 ==> r == Val((Trend(bu, bl, close, i) - close[i]) / close[i] * 100.0)
    ensures i > 0 && close[i] > 0.0 && close[i] <= FinalUpper(bu, close, i) ==> r.Val? && r.v >= 0.0
  {
    if i == 0 then Val(0.0)
    else Scale(100.0, Div(Val(Trend(bu, bl, close, i) - close[i]), Val(close[i])))
  }

  /** The source's loop, given the basic bands: the final bands, the trend
      line and its distance from the close are filled index by index. The
      final bands start as copies of the basic bands, of which only bar 0
      is read before it is overwritten, so only bar 0 is copied here. */
  method TrendLoop(bu: seq<real>, bl: seq<real>, close: seq<real>) returns (pct: seq<Cell>)
    requires |bu| == |close| && |bl| == |close| && |close| > 0
    ensures |pct| == |close|
    ensures forall i :: 0 <= i < |close| ==> pct[i] == PctDiff(bu, bl, close, i)
  {
    var n := |close|;
    var upper := new real[n];
    var lower := new real[n];
    var trend := new real[n];
    var out := new Cell[n];
    upper[0], lower[0], out[0] := bu[0], bl[0], Val(0.0);
    var i := 1;
    while i < n
      invariant 1 <= i <= n
      invariant upper != lower && upper != trend && lower != trend
      invariant forall k {:trigger upper[k]} :: 0 <= k < i ==> upper[k] == FinalUpper(bu, close, k)
      invariant forall k {:trigger lower[k]} :: 0 <= k < i ==> lower[k] == FinalLower(bl, close, k)
      invariant forall k {:trigger trend[k]} :: 1 <= k < i ==> trend[k] == Trend(bu, bl, close, k)
      invariant forall k {:trigger out[k]} :: 0 <= k < i ==> out[k] == PctDiff(bu, bl, close, k)
    {
      var u, l, t, d := TrendStep(bu, bl, close, i, upper[i - 1], lower[i - 1]);
      upper[i], lower[i], trend[i], out[i] := u, l, t, d;
      i := i + 1;
    }
    pct := out[..];
  }

  /** One pass of the loop body at bar i, given the final bands of bar i - 1. */
  method TrendStep(bu: seq<real>, bl: seq<real>, close: seq<real>, i: nat, prevUpper: real, prevLower: real)
    returns (u: real, l: real, t: real, d: Cell)
    requires |bu| == |close| && |bl| == |close| && 0 < i < |close|
    requires prevUpper == FinalUpper(bu, close, i - 1) && prevLower == FinalLower(bl, close, i - 1)
    ensures u == FinalUpper(bu, close, i) && l == FinalLower(bl, close, i)
    ensures t == Trend(bu, bl, close, i) && d == PctDiff(bu, bl, close, i)
  {
    u := if close[i - 1] > prevUpper then bu[i] else Min(bu[i], prevUpper);
    l := if close[i - 1] < prevLower then bl[i] else Max(bl[i], prevLower);
    t := if close[i] <= u then u else l;
    d := Scale(100.0, Div(Val(t - close[i]), Val(close[i])));
  }

  /** `supertrend(high, low, close, multiplier, lookback)` with `atr` the
      TA-Lib ATR of the same bars. */
  method SuperTrendPct(high: seq<real>, low: seq<real>, close: seq<real>, atr: seq<real>, multiplier: real)
    returns (pct: seq<Cell>)
    requires |high| == |low| == |close| == |atr|
    ensures |pct| == |close|
    ensures forall i :: 0 <= i < |close| ==>
      pct[i] == PctDiff(BasicUpper(high, low, atr, multiplier), BasicLower(high, low, atr, multiplier), close, i)
  {
    if |close| == 0 {
      return [];
    }
    pct := TrendLoop(BasicUpper(high, low, atr, multiplier), BasicLower(high, low, atr, multiplier), close);
  }
}

=== FILE: support_resistance.dfy ===
/** Support and resistance columns: for each numeric field and each window w,
    the lowest and highest value of the field over the w bars before the
    current one. */
module SupportResistance {
  import opened Cells
  import opened Text
  import opened Frames

  function SupportName(w: nat, field: string): string
  {
    "support_" + NatToString(w) + "_" + field
  }

  function ResistanceName(w: nat, field: string): string
  {
    "resistance_" + NatToString(w) + "_" + field
  }

  /** A name this stage may write. */
  predicate LevelName(x: string)
  {
    StartsWith(x, "support_") || StartsWith(x, "resistance_")
  }

  /** `col.shift(1).rolling(w).min()`. */
  function SupportColumn(col: seq<Cell>, w: nat): (r: seq<Cell>)
    requires w >= 1
    ensures |r| == |col|
  {
    RollingMin(Shift(col, 1), w)
  }

  /** `col.shift(1).rolling(w).max()`. */
  function ResistanceColumn(col: seq<Cell>, w: nat): (r: seq<Cell>)
    requires w >= 1
    ensures |r| == |col|
  {
    RollingMax(Shift(col, 1), w)
  }

  /** Row i covers rows i-w..i-1 of the field, leaving bar i out: both columns
      are missing before w bars have passed or when one of those rows is
      missing or infinite, otherwise they are the minimum and the maximum of
      those rows, finite, and support never exceeds resistance. */
  lemma {:induction false} WindowBeforeBar(col: seq<Cell>, w: nat, i: nat)
    requires w >= 1 && i < |col|
    ensures var lo, hi := SupportColumn(col, w)[i], ResistanceColumn(col, w)[i];
      && (i < w || !AllFinite(col[i - w..i]) ==> lo.Missing? && hi.Missing?)
      && (i >= w && AllFinite(col[i - w..i]) ==> lo == SeqMin(col[i - w..i]) && hi == SeqMax(col[i - w..i]))
      && (Present(lo) ==> lo.Val? && hi.Val? && Le(lo, hi))
  {
    var sh := Shift(col, 1);
    RollingMinLeMax(sh, w, i);
    if i + 1 >= w {
      var win := sh[i + 1 - w..i + 1];
      if i < w {
        assert win[0] == sh[0] == Missing;
        assert !AllFinite(win);
      } else {
        assert win == col[i - w..i];
      }
    }
  }

  /** An infinity in the window leaves a gap: on `[1, inf, 2]` with a window
      of one bar, row 1 sees the finite 1, row 2 sees the infinity. */
  lemma InfinityLeavesGap()
    ensures SupportColumn([Val(1.0), PosInf, Val(2.0)], 1) == [Missing, Val(1.0), Missing]
    ensures ResistanceColumn([Val(1.0), PosInf, Val(2.0)], 1) == [Missing, Val(1.0), Missing]
  {
    var sh := Shift([Val(1.0), PosInf, Val(2.0)], 1);
    assert sh == [Missing, Val(1.0), PosInf];
    assert sh[0..1] == [Missing] && sh[1..2] == [Val(1.0)] && sh[2..3] == [PosInf];
    assert !sh[0..1][0].Val? && !sh[2..3][0].Val?;
  }

  // ---------------------------------------------------------------------------
  // The specification of the two nested loops

  /** The inner loop: both columns for each window in turn. */
  function AddLevels(t: Table, field: string, levels: seq<nat>): (r: Table)
    requires t.Valid() && field in t.cols && forall k :: 0 <= k < |levels| ==> levels[k] >= 1
    ensures r.Valid() && r.index == t.index && t.cols.Keys <= r.cols.Keys
    ensures field in r.cols && r.cols[field] == t.cols[field]
  {
    if levels == [] then t
    else
      var s := AddLevels(t, field, levels[..|levels| - 1]);
      var w := levels[|levels| - 1];
      FieldNotItsLevel(w, field);
      var s1 := Assign(s, SupportName(w, field), SupportColumn(s.cols[field], w), true);
      Assign(s1, ResistanceName(w, field), ResistanceColumn(s1.cols[field], w), true)
  }

  /** The outer loop: a field that is absent or not numeric when reached is
      skipped (the source prints a notice). */
  function AddSupportResistance(t: Table, fields: seq<string>, levels: seq<nat>): (r: Table)
    requires t.Valid() && forall k :: 0 <= k < |levels| ==> levels[k] >= 1
    ensures r.Valid() && r.index == t.index && t.cols.Keys <= r.cols.Keys
  {
    if fields == [] then t
    else
      var s := AddSupportResistance(t, fields[..|fields| - 1], levels);
      var field := fields[|fields| - 1];
      if s.Numeric(field) then AddLevels(s, field, levels) else s
  }

  // ---------------------------------------------------------------------------
  // Names

  lemma NamesAreLevelNames(w: nat, field: string)
    ensures LevelName(SupportName(w, field)) && LevelName(ResistanceName(w, field))
    ensures SupportName(w, field) != ResistanceName(w, field)
  {
    StartsWithAppend("support_", NatToString(w) + "_" + field);
    assert SupportName(w, field) == "support_" + (NatToString(w) + "_" + field);
    StartsWithAppend("resistance_", NatToString(w) + "_" + field);
    assert ResistanceName(w, field) == "resistance_" + (NatToString(w) + "_" + field);
    assert SupportName(w, field)[0] != ResistanceName(w, field)[0];
  }

  lemma SupportNotResistance(w: nat, f: string, v: nat, g: string)
    ensures SupportName(w, f) != ResistanceName(v, g)
  {
    assert SupportName(w, f)[0] == 's' && ResistanceName(v, g)[0] == 'r';
  }

  /** Distinct (window, field) pairs get distinct names. */
  lemma NamesInjective(w: nat, f: string, v: nat, g: string)
    ensures SupportName(w, f) == SupportName(v, g) ==> w == v && f == g
    ensures ResistanceName(w, f) == ResistanceName(v, g) ==> w == v && f == g
  {
    var a, b := NatToString(w), NatToString(v);
    assert SupportName(w, f) == "support_" + (a + "_" + f) && SupportName(v, g) == "support_" + (b + "_" + g);
    assert ResistanceName(w, f) == "resistance_" + (a + "_" + f) && ResistanceName(v, g) == "resistance_" + (b + "_" + g);
    if SupportName(w, f) == SupportName(v, g) {
      SamePrefix("support_", a + "_" + f, b + "_" + g);
      DigitsSplit(a, '_', f, b, g);
      NatToStringInjective(w, v);
    }
    if ResistanceName(w, f) == ResistanceName(v, g) {
      SamePrefix("resistance_", a + "_" + f, b + "_" + g);
      DigitsSplit(a, '_', f, b, g);
      NatToStringInjective(w, v);
    }
  }

  // ---------------------------------------------------------------------------
  // What the loops write

  /** Only names of this stage change, and the dtype of every other column is kept. */
  ghost predicate KeepsOthers(t: Table, r: Table)
  {
    forall x :: !LevelName(x) ==>
      (x in r.cols <==> x in t.cols) &&
      (x in t.cols ==> r.cols[x] == t.cols[x] && (r.Numeric(x) <==> t.Numeric(x)))
  }

  lemma AssignLevelKeeps(t: Table, name: string, col: seq<Cell>)
    requires |col| == t.Rows() && LevelName(name)
    ensures KeepsOthers(t, Assign(t, name, col, true))
  {
    forall x | !LevelName(x) ensures x != name { }
  }

  lemma {:induction false} AddLevelsKeeps(t: Table, field: string, levels: seq<nat>)
    requires t.Valid() && field in t.cols && forall k :: 0 <= k < |levels| ==> levels[k] >= 1
    ensures KeepsOthers(t, AddLevels(t, field, levels))
  {
    if levels != [] {
      var s := AddLevels(t, field, levels[..|levels| - 1]);
      var w := levels[|levels| - 1];
      AddLevelsKeeps(t, field, levels[..|levels| - 1]);
      NamesAreLevelNames(w, field);
      var s1 := Assign(s, SupportName(w, field), SupportColumn(s.cols[field], w), true);
      AssignLevelKeeps(s, SupportName(w, field), SupportColumn(s.cols[field], w));
      AssignLevelKeeps(s1, ResistanceName(w, field), ResistanceColumn(s1.cols[field], w));
    }
  }

  /** A column of another stage, or the field itself, keeps its cells. */
  lemma {:induction false} AddSupportResistanceKeeps(t: Table, fields: seq<string>, levels: seq<nat>)
    requires t.Valid() && forall k :: 0 <= k < |levels| ==> levels[k] >= 1
    ensures KeepsOthers(t, AddSupportResistance(t, fields, levels))
  {
    if fields != [] {
      var s := AddSupportResistance(t, fields[..|fields| - 1], levels);
      AddSupportResistanceKeeps(t, fields[..|fields| - 1], levels);
      if s.Numeric(fields[|fields| - 1]) {
        AddLevelsKeeps(s, fields[|fields| - 1], levels);
      }
    }
  }

  /** Both columns of (w, f) hold the window minimum and maximum of the field
      as it stood. */
  ghost predicate HasLevels(r: Table, col: seq<Cell>, w: nat, f: string)
    requires w >= 1
  {
    SupportName(w, f) in r.cols && r.cols[SupportName(w, f)] == SupportColumn(col, w) &&
    ResistanceName(w, f) in r.cols && r.cols[ResistanceName(w, f)] == ResistanceColumn(col, w)
  }

  /** Writing the columns of (v, g) leaves those of every other pair alone. */
  lemma AssignOtherPair(s: Table, col: seq<Cell>, w: nat, f: string, v: nat, g: string, c1: seq<Cell>, c2: seq<Cell>)
    requires w >= 1 && (w, f) != (v, g) && HasLevels(s, col, w, f)
    requires |c1| == s.Rows() && |c2| == s.Rows()
    ensures var s1 := Assign(s, SupportName(v, g), c1, true);
      HasLevels(Assign(s1, ResistanceName(v, g), c2, true), col, w, f)
  {
    NamesInjective(w, f, v, g);
    SupportNotResistance(w, f, v, g);
    SupportNotResistance(v, g, w, f);
  }

  lemma {:induction false} AddLevelsWrites(t: Table, field: string, levels: seq<nat>, w: nat)
    requires t.Valid() && field in t.cols && forall k :: 0 <= k < |levels| ==> levels[k] >= 1
    requires w in levels
    ensures HasLevels(AddLevels(t, field, levels), t.cols[field], w, field)
  {
    var init, last := levels[..|levels| - 1], levels[|levels| - 1];
    var s := AddLevels(t, field, init);
    AddLevelsKeeps(t, field, init);
    var s1 := Assign(s, SupportName(last, field), SupportColumn(s.cols[field], last), true);
    NamesAreLevelNames(last, field);
    assert s1.cols[field] == s.cols[field] by {
      FieldNotItsLevel(last, field);
    }
    if w != last {
      SplitLast(levels);
      AddLevelsWrites(t, field, init, w);
      AssignOtherPair(s, t.cols[field], w, field, last, field,
        SupportColumn(s.cols[field], last), ResistanceColumn(s1.cols[field], last));
    }
  }

  /** A field is never one of its own level names: those are longer. */
  lemma FieldNotItsLevel(w: nat, field: string)
    ensures SupportName(w, field) != field && ResistanceName(w, field) != field
  {
  }

  /** For every numeric field that is not itself a support or resistance
      column, and every window w, the frame ends with `support_<w>_<field>` and
      `resistance_<w>_<field>` computed from the field's cells. */
  lemma {:induction false} SupportResistanceWrites(t: Table, fields: seq<string>, levels: seq<nat>, f: string, w: nat)
    requires t.Valid() && forall k :: 0 <= k < |levels| ==> levels[k] >= 1
    requires f in fields && t.Numeric(f) && !LevelName(f) && w in levels
    ensures HasLevels(AddSupportResistance(t, fields, levels), t.cols[f], w, f)
  {
    var init, last := fields[..|fields| - 1], fields[|fields| - 1];
    var s := AddSupportResistance(t, init, levels);
    AddSupportResistanceKeeps(t, init, levels);
    SplitLast(fields);
    if last == f {
      assert s.Numeric(f) && s.cols[f] == t.cols[f];
      AddLevelsWrites(s, f, levels, w);
    } else {
      SupportResistanceWrites(t, init, levels, f, w);
      if s.Numeric(last) {
        HasLevelsSurvive(s, t.cols[f], w, f, last, levels);
      }
    }
  }

  /** The inner loop for another field leaves the columns of (w, f) alone. */
  lemma {:induction false} HasLevelsSurvive(s: Table, col: seq<Cell>, w: nat, f: string, g: string, levels: seq<nat>)
    requires s.Valid() && g in s.cols && f != g && w >= 1 && forall k :: 0 <= k < |levels| ==> levels[k] >= 1
    requires HasLevels(s, col, w, f)
    ensures HasLevels(AddLevels(s, g, levels), col, w, f)
  {
    if levels != [] {
      var s0 := AddLevels(s, g, levels[..|levels| - 1]);
      HasLevelsSurvive(s, col, w, f, g, levels[..|levels| - 1]);
      var v := levels[|levels| - 1];
      var s1 := Assign(s0, SupportName(v, g), SupportColumn(s0.cols[g], v), true);
      AssignOtherPair(s0, col, w, f, v, g, SupportColumn(s0.cols[g], v), ResistanceColumn(s1.cols[g], v));
    }
  }

  // ---------------------------------------------------------------------------
  // The in-place loops

  lemma LevelsSnoc(t: Table, field: string, levels: seq<nat>, j: nat, s: Table)
    requires t.Valid() && field in t.cols && forall k :: 0 <= k < |levels| ==> levels[k] >= 1
    requires j < |levels| && s == AddLevels(t, field, levels[..j])
    ensures field in s.cols && s.Valid()
    ensures var w := levels[j];
      var s1 := Assign(s, SupportName(w, field), SupportColumn(s.cols[field], w), true);
      field in s1.cols &&
      AddLevels(t, field, levels[..j + 1]) == Assign(s1, ResistanceName(w, field), ResistanceColumn(s1.cols[field], w), true)
  {
    TakeSnoc(levels, j);
    TakeTake(levels, j);
  }

  /** One turn of `for level in sr_levels`: the support, then the resistance column. */
  method LevelInPlace(rf: Frame, ghost t0: Table, field: string, levels: seq<nat>, j: nat)
    requires t0.Valid() && field in t0.cols && forall k :: 0 <= k < |levels| ==> levels[k] >= 1
    requires j < |levels| && rf.Contents() == AddLevels(t0, field, levels[..j])
    modifies rf
    ensures rf.Contents() == AddLevels(t0, field, levels[..j + 1])
  {
    LevelsSnoc(t0, field, levels, j, rf.Contents());
    var w := levels[j];
    rf.Set(SupportName(w, field), SupportColumn(rf.cols[field], w), true);
    rf.Set(ResistanceName(w, field), ResistanceColumn(rf.cols[field], w), true);
  }

  /** `for level in sr_levels: rf[...] = ...` for one field. */
  method LevelsInPlace(rf: Frame, field: string, levels: seq<nat>)
    requires rf.Valid() && field in rf.cols && forall k :: 0 <= k < |levels| ==> levels[k] >= 1
    modifies rf
    ensures rf.Contents() == AddLevels(old(rf.Contents()), field, levels)
  {
    ghost var t0 := rf.Contents();
    var j := 0;
    while j < |levels|
      invariant 0 <= j <= |levels|
      invariant rf.Contents() == AddLevels(t0, field, levels[..j])
    {
      LevelInPlace(rf, t0, field, levels, j);
      j := j + 1;
    }
    assert levels[..j] == levels;
  }

  lemma SupportResistanceSnoc(t: Table, fields: seq<string>, levels: seq<nat>, i: nat, s: Table)
    requires t.Valid() && forall k :: 0 <= k < |levels| ==> levels[k] >= 1
    requires i < |fields| && s == AddSupportResistance(t, fields[..i], levels)
    ensures s.Valid()
    ensures var field := fields[i];
      AddSupportResistance(t, fields[..i + 1], levels) == if s.Numeric(field) then AddLevels(s, field, levels) else s
  {
    TakeSnoc(fields, i);
    TakeTake(fields, i);
  }

  /** `for field in sr_fields: if <numeric field>: ...` */
  method SupportResistanceInPlace(rf: Frame, fields: seq<string>, levels: seq<nat>)
    requires rf.Valid() && forall k :: 0 <= k < |levels| ==> levels[k] >= 1
    modifies rf
    ensures rf.Contents() == AddSupportResistance(old(rf.Contents()), fields, levels)
  {
    ghost var t0 := rf.Contents();
    var i := 0;
    while i < |fields|
      invariant 0 <= i <= |fields|
      invariant rf.Contents() == AddSupportResistance(t0, fields[..i], levels)
    {
      var field := fields[i];
      SupportResistanceSnoc(t0, fields, levels, i, rf.Contents());
      if field in rf.cols && field !in rf.objects {
        LevelsInPlace(rf, field, levels);
      }
      i := i + 1;
    }
    assert fields[..i] == fields;
  }
}

=== FILE: text.dfy ===
/** String operations used to compose column names: Python's `str(n)` for a
    natural number, `lower()`, `upper()`, `replace`, `endswith`, `in` and
    `split(sep)[0]`, on ASCII text. */
module Text {

  predicate IsDigit(c: char) { '0' <= c <= '9' }

  function Digit(d: nat): (c: char)
    requires d < 10
    ensures IsDigit(c) && c as int - '0' as int == d
  {
    (('0' as int) + d) as char
  }

  /** Python `str(n)` for n >= 0: decimal digits, no leading zero. */
  function NatToString(n: nat): (s: string)
    ensures |s| >= 1 && forall i :: 0 <= i < |s| ==> IsDigit(s[i])
    decreases n
  {
    if n < 10 then [Digit(n)] else NatToString(n / 10) + [Digit(n % 10)]
  }

  /** Python `str(n)` for any integer: a minus sign before the digits of a
      negative number. */
  function IntToString(n: int): (s: string)
    ensures |s| >= 1 && forall i :: 0 <= i < |s| ==> IsDigit(s[i]) || s[i] == '-'
  {
    if n < 0 then "-" + NatToString(-n) else NatToString(n)
  }

  /** The printed form starts with a minus sign exactly for a negative number. */
  lemma IntToStringSign(n: int)
    ensures IntToString(n)[0] == '-' <==> n < 0
  {
    if n >= 0 {
      assert IsDigit(NatToString(n)[0]);
    }
  }

  /** Different integers never print alike. */
  lemma IntToStringInjective(a: int, b: int)
    ensures IntToString(a) == IntToString(b) ==> a == b
  {
    IntToStringSign(a);
    IntToStringSign(b);
    if IntToString(a) == IntToString(b) {
      if a < 0 && b < 0 {
        SamePrefix("-", NatToString(-a), NatToString(-b));
        NatToStringInjective(-a, -b);
      } else if a >= 0 && b >= 0 {
        NatToStringInjective(a, b);
      }
    }
  }

  /** Python `int(s)` on a string of decimal digits (the empty string reads as 0). */
  function ParseNat(s: string): nat
    requires forall i :: 0 <= i < |s| ==> IsDigit(s[i])
  {
    if s == [] then 0
    else
      assert IsDigit(s[|s| - 1]);
      ParseNat(s[..|s| - 1]) * 10 + (s[|s| - 1] as int - '0' as int)
  }

  lemma {:induction false} ParseNatToString(n: nat)
    ensures ParseNat(NatToString(n)) == n
    decreases n
  {
    if n >= 10 {
      ParseNatToString(n / 10);
      var s := NatToString(n);
      assert s[..|s| - 1] == NatToString(n / 10);
    }
  }

  /** Different numbers never print alike, so names built from them never collide. */
  lemma NatToStringInjective(a: nat, b: nat)
    ensures NatToString(a) == NatToString(b) ==> a == b
  {
    ParseNatToString(a);
    ParseNatToString(b);
  }

  /** Two strings whose prefixes differ at some position inside both prefixes
      differ, whatever follows. */
  lemma PrefixesDiffer(p: string, q: string, a: string, b: string, i: nat)
    requires i < |p| && i < |q| && p[i] != q[i]
    ensures p + a != q + b
  {
    assert (p + a)[i] == p[i];
    assert (q + b)[i] == q[i];
  }

  /** Appending the same suffix keeps two strings apart or together. */
  lemma SameSuffix(p: string, q: string, a: string)
    ensures p + a == q + a <==> p == q
  {
    if p + a == q + a {
      assert |p| == |q|;
      assert p == (p + a)[..|p|];
      assert q == (q + a)[..|q|];
    }
  }

  /** Same prefix: the strings are equal exactly when their tails are. */
  lemma SamePrefix(p: string, a: string, b: string)
    ensures p + a == p + b <==> a == b
  {
    if p + a == p + b {
      assert a == (p + a)[|p|..];
      assert b == (p + b)[|p|..];
    }
  }

  /** The character at |a| of a + [sep] + f is the separator. */
  lemma SeparatorAt(a: string, sep: char, f: string, b: string, g: string)
    requires |a| < |b|
    ensures (a + [sep] + f)[|a|] == sep && (b + [sep] + g)[|a|] == b[|a|]
  {
  }

  /** A separator that occurs in neither head splits a string one way only. */
  lemma {:induction false} SplitAtFirst(a: string, sep: char, f: string, b: string, g: string)
    requires sep !in a && sep !in b
    requires a + [sep] + f == b + [sep] + g
    ensures a == b && f == g
  {
    if |a| < |b| {
      SeparatorAt(a, sep, f, b, g);
      assert false;
    } else if |b| < |a| {
      SeparatorAt(b, sep, g, a, f);
      assert false;
    } else {
      assert a == (a + [sep] + f)[..|a|];
      assert b == (b + [sep] + g)[..|b|];
      SamePrefix(a + [sep], f, g);
    }
  }

  /** A run of digits followed by a separator that is not a digit splits a
      string one way only. */
  lemma DigitsSplit(a: string, sep: char, f: string, b: string, g: string)
    requires !IsDigit(sep)
    requires forall i :: 0 <= i < |a| ==> IsDigit(a[i])
    requires forall i :: 0 <= i < |b| ==> IsDigit(b[i])
    requires a + [sep] + f == b + [sep] + g
    ensures a == b && f == g
  {
    SplitAtFirst(a, sep, f, b, g);
  }

  function LowerChar(c: char): char
  {
    if 'A' <= c <= 'Z' then ((c as int) + 32) as char else c
  }

  function UpperChar(c: char): char
  {
    if 'a' <= c <= 'z' then ((c as int) - 32) as char else c
  }

  /** Python `s.lower()` restricted to ASCII letters. */
  function Lower(s: string): (r: string)
    ensures |r| == |s|
    ensures forall i :: 0 <= i < |s| ==> r[i] == LowerChar(s[i])
  {
    seq(|s|, i requires 0 <= i < |s| => LowerChar(s[i]))
  }

  /** Python `s.upper()` restricted to ASCII letters. */
  function Upper(s: string): (r: string)
    ensures |r| == |s|
    ensures forall i :: 0 <= i < |s| ==> r[i] == UpperChar(s[i])
  {
    seq(|s|, i requires 0 <= i < |s| => UpperChar(s[i]))
  }

  /** Upper-casing forgets the case the caller wrote. */
  lemma UpperIgnoresCase(s: string)
    ensures Upper(Lower(s)) == Upper(s) && Upper(Upper(s)) == Upper(s)
  {
    assert forall i :: 0 <= i < |s| ==> UpperChar(LowerChar(s[i])) == UpperChar(s[i]);
  }

  /** Lower-casing forgets the case the caller wrote. */
  lemma LowerIgnoresCase(s: string)
    ensures Lower(Upper(s)) == Lower(s) && Lower(Lower(s)) == Lower(s)
  {
    assert forall i :: 0 <= i < |s| ==> LowerChar(UpperChar(s[i])) == LowerChar(s[i]);
  }

  /** Python `s.replace(a, b)` for single characters. */
  function ReplaceChar(s: string, a: char, b: char): (r: string)
    ensures |r| == |s|
    ensures a != b ==> a !in r
    ensures forall i :: 0 <= i < |s| ==> r[i] == if s[i] == a then b else s[i]
  {
    seq(|s|, i requires 0 <= i < |s| => if s[i] == a then b else s[i])
  }

  /** Python `s.endswith(suffix)`. */
  predicate EndsWith(s: string, suffix: string)
  {
    |suffix| <= |s| && s[|s| - |suffix|..] == suffix
  }

  lemma EndsWithAppend(p: string, suffix: string)
    ensures EndsWith(p + suffix, suffix)
  {
    assert (p + suffix)[|p|..] == suffix;
  }

  /** Python `s.startswith(prefix)`. */
  predicate StartsWith(s: string, prefix: string)
  {
    |prefix| <= |s| && s[..|prefix|] == prefix
  }

  lemma StartsWithAppend(p: string, rest: string)
    ensures StartsWith(p + rest, p)
  {
    assert (p + rest)[..|p|] == p;
  }

  /** Python `sub in s` for strings. */
  predicate Contains(s: string, sub: string)
    decreases |s|
  {
    |sub| <= |s| && (s[..|sub|] == sub || Contains(s[1..], sub))
  }

  /** Python `s.split(sep)[0]`: everything before the first separator. */
  function FirstField(s: string, sep: char): (r: string)
    ensures sep !in r
    ensures r <= s
  {
    if s == [] || s[0] == sep then [] else [s[0]] + FirstField(s[1..], sep)
  }

  lemma FirstFieldOfPrefix(p: string, sep: char, rest: string)
    requires sep !in p
    ensures FirstField(p + [sep] + rest, sep) == p
  {
    if p != [] {
      assert (p + [sep] + rest)[1..] == p[1..] + [sep] + rest;
      FirstFieldOfPrefix(p[1..], sep, rest);
    }
  }
}

=== FILE: timeframes.dfy ===
/** The timeframe table of the terminal wrapper: the names a caller may ask for,
    in the order `get_supported_timeframes` lists them, and the terminal's
    timeframe codes they stand for. */
module Timeframes {
  import opened Wrappers
  import opened Text

  /** The terminal's codes: minutes as such, hours as 0x4000 | hours,
      weeks as 0x8000 | 1 and months as 0xC000 | 1. */
  const M1: int := 1
  const H1: int := 0x4000 + 1
  const D1: int := 0x4000 + 24
  const W1: int := 0x8000 + 1
  const MN1: int := 0xC000 + 1

  const Codes: seq<(string, int)> := [
    ("1min", 1), ("2min", 2), ("3min", 3), ("4min", 4), ("5min", 5),
    ("10min", 10), ("12min", 12), ("15min", 15), ("20min", 20), ("30min", 30),
    ("1h", H1), ("2h", 0x4000 + 2), ("3h", 0x4000 + 3), ("4h", 0x4000 + 4),
    ("6h", 0x4000 + 6), ("8h", 0x4000 + 8), ("12h", 0x4000 + 12),
    ("1d", D1), ("1w", W1), ("1m", MN1)]

  /** `get_supported_timeframes`: the table's names in insertion order. */
  function SupportedTimeframes(): (r: seq<string>)
    ensures |r| == |Codes| == 20
    ensures forall i :: 0 <= i < |r| ==> r[i] == Codes[i].0
  {
    seq(|Codes|, i requires 0 <= i < |Codes| => Codes[i].0)
  }

  function Find(table: seq<(string, int)>, tf: string): (r: Option<int>)
    ensures r.Some? ==> (tf, r.value) in table
    ensures r.None? <==> forall i :: 0 <= i < |table| ==> table[i].0 != tf
  {
    if table == [] then None
    else if table[0].0 == tf then Some(table[0].1)
    else
      var r := Find(table[1..], tf);
      assert forall i :: 1 <= i < |table| ==> table[i] == table[1..][i - 1];
      r
  }

  /** `get_mt5_timeframe`: the code of a supported name, `None` otherwise. */
  function Lookup(tf: string): (r: Option<int>)
  {
    Find(Codes, tf)
  }

  lemma LookupIffSupported(tf: string)
    ensures Lookup(tf).Some? <==> tf in SupportedTimeframes()
    ensures Lookup(tf).Some? ==> exists i :: 0 <= i < |Codes| && Codes[i] == (tf, Lookup(tf).value)
  {
    var s := SupportedTimeframes();
    if tf in s {
      var i :| 0 <= i < |s| && s[i] == tf;
      assert Codes[i].0 == tf;
    }
  }

  /** The codes are ordered as the periods are: minutes below hours below days
      below weeks below months. */
  lemma CodesOrdered()
    ensures forall i, j :: 0 <= i < j < |Codes| ==> Codes[i].1 < Codes[j].1
  {
  }

  /** The single-instrument path's choice of date columns (by code). */
  predicate MinuteColumn(code: int) { code < H1 }
  predicate HourColumn(code: int) { code < D1 }

  /** The multi-instrument path's choice (by name). */
  predicate MultiMinuteColumn(tf: string) { Contains(tf, "min") }
  predicate MultiHourColumn(tf: string) { tf != "1d" }

  lemma ContainsSuffix(p: string, sub: string)
    ensures Contains(p + sub, sub)
  {
    if p != [] {
      assert (p + sub)[1..] == p[1..] + sub;
      ContainsSuffix(p[1..], sub);
    } else {
      assert (p + sub)[..|sub|] == sub;
    }
  }

  lemma ContainsHasChar(s: string, sub: string, k: nat)
    requires Contains(s, sub) && k < |sub|
    ensures sub[k] in s
  {
    if s[..|sub|] == sub {
      assert s[k] == sub[k];
    } else {
      ContainsHasChar(s[1..], sub, k);
    }
  }

  /** Exactly the first ten names, the minute timeframes, contain "min". */
  lemma MinuteNames(i: nat)
    requires i < |Codes|
    ensures Contains(Codes[i].0, "min") <==> i < 10
  {
    if i < 10 {
      var digits := ["1", "2", "3", "4", "5", "10", "12", "15", "20", "30"];
      assert Codes[i].0 == digits[i] + "min";
      ContainsSuffix(digits[i], "min");
    } else if Contains(Codes[i].0, "min") {
      ContainsHasChar(Codes[i].0, "min", 1);
      assert false;
    }
  }

  /** The two paths agree on the minute column for every supported timeframe, but
      for weekly and monthly bars only the multi-instrument path adds `hour`. */
  lemma DateColumnPaths(tf: string)
    requires tf in SupportedTimeframes()
    ensures MinuteColumn(Lookup(tf).value) <==> MultiMinuteColumn(tf)
    ensures HourColumn(Lookup(tf).value) != MultiHourColumn(tf) <==> tf == "1w" || tf == "1m"
  {
    LookupIffSupported(tf);
    var i :| 0 <= i < |Codes| && Codes[i] == (tf, Lookup(tf).value);
    MinuteNames(i);
    CodeFacts(i);
  }

  lemma CodeFacts(i: nat)
    requires i < |Codes|
    ensures Codes[i].1 < H1 <==> i < 10
    ensures Codes[i].1 < D1 <==> i < 17
    ensures Codes[i].0 == "1d" <==> i == 17
    ensures Codes[i].0 == "1w" || Codes[i].0 == "1m" <==> i >= 18
  {
    var c := Codes[i].0;
    if i < 17 {
      assert |c| >= 3 || c[|c| - 1] == 'h';
    }
  }

  /** The names of the date columns added, in order. */
  function DateColumns(minute: bool, hour: bool, addYear: bool): (r: seq<string>)
    ensures "day" in r && "month" in r && "weekday" in r
    ensures ("minute" in r <==> minute) && ("hour" in r <==> hour) && ("year" in r <==> addYear)
    ensures forall x :: x in r ==> x in ["minute", "hour", "day", "month", "weekday", "year"]
  {
    (if minute then ["minute"] else []) + (if hour then ["hour"] else [])
    + ["day", "month", "weekday"] + (if addYear then ["year"] else [])
  }
}

=== FILE: twap_pov.dfy ===
/** `twap`, `pov` and `rsl` of the native indicator module: elementwise
    formulas over the bars, written with the float semantics of `Cells`.
    TA-Lib's AVGPRICE, the input of `twap`, is taken as a series of the
    bars' length. */
module PriceRatios {
  import opened Wrappers
  import opened Cells
  import opened Text
  import opened Smoothing

  /** `(x - base) / base * 100`, the percentage form shared by the ratio outputs. */
  function PctOf(x: Cell, base: Cell): (r: Cell)
    ensures x.Val? && base.Val? && base.v != 0.0 ==> r == Val((x.v - base.v) / base.v * 100.0)
    ensures x.Missing? || base.Missing? ==> r.Missing?
  {
    Scale(100.0, Div(Sub(x, base), base))
  }

  /** `np.cumsum(average_price)[i]`: the sums are taken left to right, so a
      NaN anywhere in the prefix stays in every later sum. */
  function RunningSum(avg: seq<Cell>, i: nat): Cell
    requires i < |avg|
  {
    if i == 0 then avg[0] else Add(RunningSum(avg, i - 1), avg[i])
  }

  /** `twap_series[i]`: the running sum divided by `i + 1`. */
  function Mean(avg: seq<Cell>, i: nat): Cell
    requires i < |avg|
  {
    Div(RunningSum(avg, i), Val((i + 1) as real))
  }

  /** The prefix avg[0..i] lies in [lo, hi]. */
  ghost predicate PrefixWithin(avg: seq<Cell>, i: nat, lo: real, hi: real)
    requires i < |avg|
  {
    forall k :: 0 <= k <= i ==> avg[k].Val? && lo <= avg[k].v <= hi
  }

  /** When every price so far lies in [lo, hi], the running sum is finite and
      lies between (i + 1)·lo and (i + 1)·hi. */
  lemma {:induction false} SumWithin(avg: seq<Cell>, i: nat, lo: real, hi: real)
    requires i < |avg| && PrefixWithin(avg, i, lo, hi)
    ensures RunningSum(avg, i).Val?
    ensures (i + 1) as real * lo <= RunningSum(avg, i).v <= (i + 1) as real * hi
  {
    if i > 0 {
      SumWithin(avg, i - 1, lo, hi);
    }
  }

  /** A quotient of a sum bounded by n·lo and n·hi lies in [lo, hi]. */
  lemma QuotientWithin(s: real, n: real, lo: real, hi: real)
    requires n > 0.0 && n * lo <= s <= n * hi
    ensures lo <= s / n <= hi
  {
    var q := s / n;
    assert q * n == s;
    assert (q - lo) * n >= 0.0;
    assert (hi - q) * n >= 0.0;
  }

  /** The running mean is a mean: it stays within the range of the prices it
      averages. */
  lemma MeanWithin(avg: seq<Cell>, i: nat, lo: real, hi: real)
    requires i < |avg| && PrefixWithin(avg, i, lo, hi)
    ensures Mean(avg, i).Val? && lo <= Mean(avg, i).v <= hi
  {
    SumWithin(avg, i, lo, hi);
    QuotientWithin(RunningSum(avg, i).v, (i + 1) as real, lo, hi);
  }

  /** A flat price gives that price as its running mean. */
  lemma MeanOfConstant(avg: seq<Cell>, i: nat, c: real)
    requires i < |avg| && forall k :: 0 <= k <= i ==> avg[k] == Val(c)
    ensures Mean(avg, i) == Val(c)
  {
    MeanWithin(avg, i, c, c);
  }

  /** A missing average price leaves every later running mean missing. */
  lemma {:induction false} MissingStays(avg: seq<Cell>, j: nat, i: nat)
    requires j <= i < |avg| && avg[j].Missing?
    ensures RunningSum(avg, i).Missing? && Mean(avg, i).Missing?
  {
    if i > j {
      MissingStays(avg, j, i - 1);
    }
  }

  /** `twap(open, high, low, close, ratio)` with `avg` the AVGPRICE series:
      the running mean, or with `ratio` its distance from the close in
      percent. */
  function Twap(avg: seq<Cell>, close: seq<Cell>, ratio: bool): (r: seq<Cell>)
    requires |avg| == |close|
    ensures |r| == |close|
    ensures forall i :: 0 <= i < |r| ==> r[i] == if ratio then PctOf(Mean(avg, i), close[i]) else Mean(avg, i)
  {
    seq(|avg|, i requires 0 <= i < |avg| => if ratio then PctOf(Mean(avg, i), close[i]) else Mean(avg, i))
  }

  /** The ratio output gives back the running mean from the close. */
  lemma TwapRatioRecovers(avg: seq<Cell>, close: seq<Cell>, i: nat)
    requires |avg| == |close| && i < |close|
    requires Mean(avg, i).Val? && close[i].Val? && close[i].v != 0.0
    ensures Twap(avg, close, true)[i].Val?
    ensures Mean(avg, i).v == close[i].v * (1.0 + Twap(avg, close, true)[i].v / 100.0)
  {
    var m, c := Mean(avg, i).v, close[i].v;
    var p := (m - c) / c * 100.0;
    assert Twap(avg, close, true)[i] == Val(p);
    assert (m - c) / c * c == m - c;
  }

  /** One bar of `pov`: `volume * rate / close * 100`. */
  function PovAt(close: Cell, volume: Cell, rate: real): (r: Cell)
    ensures close.Val? && close.v != 0.0 && volume.Val? ==> r == Val(rate * volume.v / close.v * 100.0)
    ensures close.Missing? || volume.Missing? ==> r.Missing?
  {
    var target := Scale(rate, volume);
    assert volume.Val? ==> target == Val(rate * volume.v);
    Scale(100.0, Div(target, close))
  }

  /** `pov(close, volume, pov_rate)`: the volume share traded, in percent of
      the close. */
  function Pov(close: seq<Cell>, volume: seq<Cell>, rate: real): (r: seq<Cell>)
    requires |close| == |volume|
    ensures |r| == |close|
    ensures forall i :: 0 <= i < |r| && close[i].Val? && close[i].v != 0.0 && volume[i].Val? ==>
      r[i] == Val(rate * volume[i].v / close[i].v * 100.0)
    ensures forall i :: 0 <= i < |r| && (close[i].Missing? || volume[i].Missing?) ==> r[i].Missing?
  {
    seq(|close|, i requires 0 <= i < |close| => PovAt(close[i], volume[i], rate))
  }

  /** From the close and the indicator, the execution target comes back. */
  lemma PovRecovers(close: seq<Cell>, volume: seq<Cell>, rate: real, i: nat)
    requires |close| == |volume| && i < |close|
    requires close[i].Val? && close[i].v != 0.0 && volume[i].Val?
    ensures Pov(close, volume, rate)[i].Val?
    ensures Pov(close, volume, rate)[i].v * close[i].v / 100.0 == volume[i].v * rate
  {
    var t, c := volume[i].v * rate, close[i].v;
    assert t / c * c == t;
  }

  /** `close / ma`, elementwise. */
  function Ratios(close: seq<Cell>, ma: seq<Cell>): (r: seq<Cell>)
    requires |close| == |ma|
    ensures |r| == |close|
    ensures forall i :: 0 <= i < |r| && close[i].Val? && ma[i].Val? && ma[i].v != 0.0 ==> r[i] == Val(close[i].v / ma[i].v)
    ensures forall i :: 0 <= i < |r| && (close[i].Missing? || ma[i].Missing?) ==> r[i].Missing?
  {
    seq(|close|, i requires 0 <= i < |close| => Div(close[i], ma[i]))
  }

  /** `rsl(close, period, ma_method)`: the close over its moving average; an
      unknown method or a refused period raises from `apply_smoothing`. */
  function Rsl(talib: MovingAverage, close: seq<Cell>, period: int, maMethod: string): (r: Result<seq<Cell>, string>)
    requires Shaped(talib)
    ensures r.Err? <==> Upper(maMethod) !in MethodNames || !PeriodAccepted(period)
    ensures Upper(maMethod) !in MethodNames ==> r == Err("Unsupported smoothing method: " + Upper(maMethod))
    ensures r.Err? && Upper(maMethod) in MethodNames ==> r.error == BadParam(ParseMethod(maMethod).value)
    ensures r.Ok? ==> ParseMethod(maMethod).Some?
    ensures r.Ok? ==> r.value == Ratios(close, talib(ParseMethod(maMethod).value, close, period))
  {
    match ApplySmoothing(talib, close, maMethod, period)
    case Err(e) => Err(e)
    case Ok(ma) => Ok(Ratios(close, ma))
  }

  /** Multiplying the line back by the average gives the close. */
  lemma RslRecovers(talib: MovingAverage, close: seq<Cell>, period: int, maMethod: string, i: nat)
    requires Shaped(talib) && Upper(maMethod) in MethodNames && PeriodAccepted(period) && i < |close|
    requires var ma := talib(ParseMethod(maMethod).value, close, period);
      close[i].Val? && ma[i].Val? && ma[i].v != 0.0
    ensures Rsl(talib, close, period, maMethod).Ok?
    ensures var ma := talib(ParseMethod(maMethod).value, close, period);
      Rsl(talib, close, period, maMethod).value[i] == Val(close[i].v / ma[i].v) &&
      Rsl(talib, close, period, maMethod).value[i].v * ma[i].v == close[i].v
  {
    var ma := talib(ParseMethod(maMethod).value, close, period);
    assert close[i].v / ma[i].v * ma[i].v == close[i].v;
  }
}

=== FILE: ultra.dfy ===
/** The shared body of `ultra_wpr` and `ultra_rsi`: the base oscillator
    (Williams %R or RSI, from TA-Lib, taken as given) is smoothed over a
    ladder of periods; at every bar, `ups` counts the smoothed series that
    rose from the previous bar and `dns` those that did not; both counts are
    smoothed once more. */
module Ultra {
  import opened Wrappers
  import opened Cells
  import opened Text
  import opened Smoothing

  /** `[StartLength + sm * Step for sm in range(StepsTotal + 1)]`; a negative
      StepsTotal gives an empty range. */
  function Periods(start: int, step: int, total: int): (r: seq<int>)
    ensures |r| == if total + 1 > 0 then total + 1 else 0
    ensures forall k :: 0 <= k < |r| ==> r[k] == start + k * step
  {
    if total + 1 <= 0 then [] else seq(total + 1, k => start + k * step)
  }

  /** `xs_current > xs_previous` at bar i, where the previous value of bar 0
      is forced to NaN. */
  predicate Rose(s: seq<Cell>, i: nat)
  {
    0 < i < |s| && Greater(s[i], s[i - 1])
  }

  /** `xs_current <= xs_previous` at bar i, with the same NaN for bar 0. */
  predicate Fell(s: seq<Cell>, i: nat)
  {
    0 < i < |s| && AtMost(s[i], s[i - 1])
  }

  /** Both the value at i and the one before it are present. */
  predicate Compared(s: seq<Cell>, i: nat)
  {
    0 < i < |s| && Present(s[i]) && Present(s[i - 1])
  }

  /** `ups[i]` after the series xs have been added in turn. */
  function Ups(xs: seq<seq<Cell>>, i: nat): nat
  {
    if xs == [] then 0 else Ups(xs[..|xs| - 1], i) + (if Rose(xs[|xs| - 1], i) then 1 else 0)
  }

  /** `dns[i]` after the series xs have been added in turn. */
  function Dns(xs: seq<seq<Cell>>, i: nat): nat
  {
    if xs == [] then 0 else Dns(xs[..|xs| - 1], i) + (if Fell(xs[|xs| - 1], i) then 1 else 0)
  }

  /** How many of the series have both values at i and i - 1. */
  function ComparedCount(xs: seq<seq<Cell>>, i: nat): (r: nat)
    ensures r <= |xs|
  {
    if xs == [] then 0 else ComparedCount(xs[..|xs| - 1], i) + (if Compared(xs[|xs| - 1], i) then 1 else 0)
  }

  /** A present pair of values either rose or did not, never both; a pair
      with a NaN does neither. */
  lemma RoseOrFell(s: seq<Cell>, i: nat)
    ensures Rose(s, i) ==> !Fell(s, i)
    ensures Rose(s, i) || Fell(s, i) <==> Compared(s, i)
  {
    if Compared(s, i) {
      LeTotal(s[i], s[i - 1]);
    }
  }

  /** Each bar's two counts add up to the number of series that compared a
      present value with a present one, so never to more than the number of
      periods. */
  lemma {:induction false} CountsAddUp(xs: seq<seq<Cell>>, i: nat)
    ensures Ups(xs, i) + Dns(xs, i) == ComparedCount(xs, i) <= |xs|
  {
    if xs != [] {
      CountsAddUp(xs[..|xs| - 1], i);
      RoseOrFell(xs[|xs| - 1], i);
    }
  }

  /** The first bar is never counted: its previous value is NaN. */
  lemma {:induction false} FirstBarUncounted(xs: seq<seq<Cell>>)
    ensures Ups(xs, 0) == 0 && Dns(xs, 0) == 0
  {
    if xs != [] {
      FirstBarUncounted(xs[..|xs| - 1]);
    }
  }

  /** A series that never has two present neighbours adds nothing. */
  lemma {:induction false} UncomparedAddsNothing(xs: seq<seq<Cell>>, s: seq<Cell>, i: nat)
    requires !Compared(s, i)
    ensures Ups(xs + [s], i) == Ups(xs, i) && Dns(xs + [s], i) == Dns(xs, i)
  {
    assert (xs + [s])[..|xs + [s]| - 1] == xs;
    RoseOrFell(s, i);
  }

  /** Every period of the ladder is one TA-Lib accepts. */
  predicate AllAccepted(periods: seq<int>)
  {
    forall k :: 0 <= k < |periods| ==> PeriodAccepted(periods[k])
  }

  /** The list `xwpr0`/`xrsis`: the base series smoothed over each period in
      turn; the first failing call raises. */
  function SmoothedAll(talib: MovingAverage, base: seq<Cell>, name: string, periods: seq<int>): (r: Result<seq<seq<Cell>>, string>)
    ensures r.Err? <==> periods != [] && (Upper(name) !in MethodNames || !AllAccepted(periods))
    ensures periods != [] && Upper(name) !in MethodNames ==> r == Err("Unsupported smoothing method: " + Upper(name))
    ensures r.Err? && Upper(name) in MethodNames ==> r.error == BadParam(ParseMethod(name).value)
    ensures r.Ok? ==> |r.value| == |periods|
    ensures r.Ok? && periods != [] ==> ParseMethod(name).Some?
    ensures r.Ok? && periods != [] ==> forall k :: 0 <= k < |periods| ==> r.value[k] == talib(ParseMethod(name).value, base, periods[k])
  {
    if periods == [] then Ok([])
    else
      assert AllAccepted(periods) <==> AllAccepted(periods[..|periods| - 1]) && PeriodAccepted(periods[|periods| - 1]);
      match SmoothedAll(talib, base, name, periods[..|periods| - 1])
      case Err(e) => Err(e)
      case Ok(xs) =>
        match ApplySmoothing(talib, base, name, periods[|periods| - 1])
        case Err(e) => Err(e)
        case Ok(s) => Ok(xs + [s])
  }

  /** A count series as floats, as `np.zeros_like` of a float series holds it. */
  function AsCells(counts: seq<nat>): (r: seq<Cell>)
    ensures |r| == |counts|
    ensures forall i :: 0 <= i < |r| ==> r[i] == Val(counts[i] as real)
  {
    seq(|counts|, i requires 0 <= i < |counts| => Val(counts[i] as real))
  }

  /** `ups` over the n bars once every smoothed series has been added. */
  function UpCounts(xs: seq<seq<Cell>>, n: nat): (r: seq<nat>)
    ensures |r| == n && forall i :: 0 <= i < n ==> r[i] == Ups(xs, i)
  {
    seq(n, i requires 0 <= i < n => Ups(xs, i))
  }

  /** `dns` over the n bars once every smoothed series has been added. */
  function DnCounts(xs: seq<seq<Cell>>, n: nat): (r: seq<nat>)
    ensures |r| == n && forall i :: 0 <= i < n ==> r[i] == Dns(xs, i)
  {
    seq(n, i requires 0 <= i < n => Dns(xs, i))
  }

  /** The smoothed counts `(bulls, bears)` once the smoothed series exist. */
  function Smoothed2(talib: MovingAverage, xs: seq<seq<Cell>>, n: nat, smoothMethod: string, smoothLength: int): Result<(seq<Cell>, seq<Cell>), string>
  {
    match ApplySmoothing(talib, AsCells(UpCounts(xs, n)), smoothMethod, smoothLength)
    case Err(e) => Err(e)
    case Ok(bulls) =>
      match ApplySmoothing(talib, AsCells(DnCounts(xs, n)), smoothMethod, smoothLength)
      case Err(e) => Err(e)
      case Ok(bears) => Ok((bulls, bears))
  }

  /** `ultra_wpr`/`ultra_rsi` from the base oscillator onwards. */
  function UltraCounts(talib: MovingAverage, base: seq<Cell>, wMethod: string, start: int, step: int, total: int,
                       smoothMethod: string, smoothLength: int): (r: Result<(seq<Cell>, seq<Cell>), string>)
    requires Shaped(talib)
    ensures r.Err? <==>
      (Periods(start, step, total) != [] && (Upper(wMethod) !in MethodNames || !AllAccepted(Periods(start, step, total)))) ||
      Upper(smoothMethod) !in MethodNames || !PeriodAccepted(smoothLength)
    ensures Periods(start, step, total) != [] && Upper(wMethod) !in MethodNames ==>
      r == Err("Unsupported smoothing method: " + Upper(wMethod))
    ensures r.Ok? ==> |r.value.0| == |base| && |r.value.1| == |base|
  {
    match SmoothedAll(talib, base, wMethod, Periods(start, step, total))
    case Err(e) => Err(e)
    case Ok(xs) => Smoothed2(talib, xs, |base|, smoothMethod, smoothLength)
  }

  /** The bulls and bears are the smoothed per-bar counts, whose sum at each
      bar is the number of smoothed series with two present neighbours there. */
  lemma UltraMeaning(talib: MovingAverage, base: seq<Cell>, wMethod: string, start: int, step: int, total: int,
                     smoothMethod: string, smoothLength: int)
    requires Shaped(talib)
    requires UltraCounts(talib, base, wMethod, start, step, total, smoothMethod, smoothLength).Ok?
    ensures var xs := SmoothedAll(talib, base, wMethod, Periods(start, step, total));
      var r := UltraCounts(talib, base, wMethod, start, step, total, smoothMethod, smoothLength);
      var m := ParseMethod(smoothMethod);
      xs.Ok? && m.Some? &&
      r.value.0 == talib(m.value, AsCells(UpCounts(xs.value, |base|)), smoothLength) &&
      r.value.1 == talib(m.value, AsCells(DnCounts(xs.value, |base|)), smoothLength) &&
      (forall i :: 0 <= i < |base| ==> Ups(xs.value, i) + Dns(xs.value, i) <= |Periods(start, step, total)|)
  {
    var xs := SmoothedAll(talib, base, wMethod, Periods(start, step, total));
    forall i | 0 <= i < |base|
      ensures Ups(xs.value, i) + Dns(xs.value, i) <= |Periods(start, step, total)|
    {
      CountsAddUp(xs.value, i);
    }
  }

  /** A failing smoothing call at the k-th period is the list's failure. */
  lemma SmoothedStops(talib: MovingAverage, base: seq<Cell>, name: string, periods: seq<int>, k: nat)
    requires k < |periods| && ApplySmoothing(talib, base, name, periods[k]).Err?
    ensures SmoothedAll(talib, base, name, periods) == Err(ApplySmoothing(talib, base, name, periods[k]).error)
  {
  }

  /** A successful call at the k-th period extends the list. */
  lemma SmoothedStep(talib: MovingAverage, base: seq<Cell>, name: string, periods: seq<int>, k: nat, xs: seq<seq<Cell>>)
    requires k < |periods| && SmoothedAll(talib, base, name, periods[..k]) == Ok(xs)
    requires ApplySmoothing(talib, base, name, periods[k]).Ok?
    ensures SmoothedAll(talib, base, name, periods[..k + 1]) == Ok(xs + [ApplySmoothing(talib, base, name, periods[k]).value])
  {
    assert periods[..k + 1][..k] == periods[..k];
  }

  /** The loop over the periods, building `xwpr0`/`xrsis`. */
  method SmoothEach(talib: MovingAverage, base: seq<Cell>, name: string, periods: seq<int>)
    returns (r: Result<seq<seq<Cell>>, string>)
    ensures r == SmoothedAll(talib, base, name, periods)
  {
    var xs: seq<seq<Cell>> := [];
    var k := 0;
    while k < |periods|
      invariant 0 <= k <= |periods|
      invariant SmoothedAll(talib, base, name, periods[..k]) == Ok(xs)
    {
      var s := ApplySmoothing(talib, base, name, periods[k]);
      if s.Err? {
        SmoothedStops(talib, base, name, periods, k);
        return Err(s.error);
      }
      SmoothedStep(talib, base, name, periods, k, xs);
      xs := xs + [s.value];
      k := k + 1;
    }
    assert periods[..k] == periods;
    return Ok(xs);
  }

  /** Adding one more series moves each bar's counts by its own comparison. */
  lemma CountsStep(xs: seq<seq<Cell>>, s: seq<Cell>, i: nat)
    ensures Ups(xs + [s], i) == Ups(xs, i) + (if Rose(s, i) then 1 else 0)
    ensures Dns(xs + [s], i) == Dns(xs, i) + (if Fell(s, i) then 1 else 0)
  {
    assert (xs + [s])[..|xs + [s]| - 1] == xs;
  }

  /** The loop over the smoothed series: `ups += (cur > prev)` and
      `dns += (cur <= prev)`, vectorised over the bars. */
  method CountInPlace(xs: seq<seq<Cell>>, ups: array<real>, dns: array<real>)
    requires ups != dns && ups.Length == dns.Length
    requires forall i :: 0 <= i < ups.Length ==> ups[i] == 0.0 && dns[i] == 0.0
    modifies ups, dns
    ensures forall i :: 0 <= i < ups.Length ==> ups[i] == Ups(xs, i) as real && dns[i] == Dns(xs, i) as real
  {
    var j := 0;
    while j < |xs|
      invariant 0 <= j <= |xs|
      invariant forall i :: 0 <= i < ups.Length ==> ups[i] == Ups(xs[..j], i) as real && dns[i] == Dns(xs[..j], i) as real
    {
      var s := xs[j];
      forall i | 0 <= i < ups.Length {
        ups[i] := ups[i] + if Rose(s, i) then 1.0 else 0.0;
      }
      forall i | 0 <= i < dns.Length {
        dns[i] := dns[i] + if Fell(s, i) then 1.0 else 0.0;
      }
      assert xs[..j + 1] == xs[..j] + [s];
      forall i | 0 <= i < ups.Length
        ensures ups[i] == Ups(xs[..j + 1], i) as real && dns[i] == Dns(xs[..j + 1], i) as real
      {
        CountsStep(xs[..j], s, i);
      }
      j := j + 1;
    }
    assert xs[..j] == xs;
  }

  /** `ultra_wpr(...)` and `ultra_rsi(...)` after the base oscillator: the
      smoothed ladder, the in-place counting, and the smoothing of the counts. */
  method UltraInPlace(talib: MovingAverage, base: seq<Cell>, wMethod: string, start: int, step: int, total: int,
                      smoothMethod: string, smoothLength: int) returns (r: Result<(seq<Cell>, seq<Cell>), string>)
    requires Shaped(talib)
    ensures r == UltraCounts(talib, base, wMethod, start, step, total, smoothMethod, smoothLength)
  {
    var periods := Periods(start, step, total);
    var each := SmoothEach(talib, base, wMethod, periods);
    if each.Err? {
      return Err(each.error);
    }
    var xs := each.value;
    var n := |base|;
    var ups := new real[n](_ => 0.0);
    var dns := new real[n](_ => 0.0);
    CountInPlace(xs, ups, dns);
    var upCells := seq(n, i requires 0 <= i < n reads ups => Val(ups[i]));
    var dnCells := seq(n, i requires 0 <= i < n reads dns => Val(dns[i]));
    assert upCells == AsCells(UpCounts(xs, n));
    assert dnCells == AsCells(DnCounts(xs, n));
    var bulls := ApplySmoothing(talib, upCells, smoothMethod, smoothLength);
    if bulls.Err? {
      return Err(bulls.error);
    }
    // The same method has just been accepted, so this call cannot raise.
    var bears := ApplySmoothing(talib, dnCells, smoothMethod, smoothLength);
    return Ok((bulls.value, bears.value));
  }
}

=== FILE: wrappers.dfy ===
/** Optional values and results with an error, as the pipeline's fatal errors are returned. */
module Wrappers {

  datatype Option<+T> = None | Some(value: T)
  {
    function GetOr(default: T): T
    {
      match this
      case Some(v) => v
      case None => default
    }
  }

  datatype Result<+T, +E> = Ok(value: T) | Err(error: E)
}
